=== FILE: README.md ===
# facildb in Dafny

A model of the core of **facildb**, a small fluent JDBC helper written in Java.

A `FacilDB` object is a mutable builder. Its callers do four things with it:

- They choose a command: `sql(text)`, `select(fields)`, `insert(table)`, `update(table)`, `delete(table)` or `call(procedure)`.
- They add fragments (`from`, `where`, `orderBy`, `fields`, `sqlAlias`, `schema`, `maxResults`) and positional parameters.
- They run the command with `execute`, `executeBatch`, `query`, `queryUnique` or `queryCount`.
- They compile the SQL text for the configured database dialect, lazily, into a cached text buffer.

Query rows become JSON-like records keyed by the SQL aliases. Alongside the builder sit four smaller pieces:

- `MetadataDB` reads the catalogue of a connection into `Table` and `Column` objects.
- `Column` derives Java-style names from column names.
- `StringUtil` turns snake_case into camelCase.
- `DataBaseType.fromString` maps a database name to its dialect.

The model is functional. The builder's fields form an immutable `Builder.State`. Each entry point is a function from a state to the next state and a value or an exception. A Java `null` is an `Option`, an exception is a `Result`, and the driver is a function parameter. For example, `exec` maps a statement and its bindings to the rows it returns.

Modules, by source file:

| module | file | models |
|---|---|---|
| `Wrappers`, `Errors` | wrappers.dfy | `Option`, `Result`, Java `int`/`long` ranges; the exceptions and their messages |
| `Text` | text.dfy | the `java.lang.String` operations the code uses (case mapping, `indexOf`, `split`, `trim`, `replace`) |
| `Json` | json.dfy | the lenient `opt*` getters of `org.json.JSONObject` |
| `DataBaseType` | database_type.dfy | `DataBaseType.java` |
| `StringUtil` | string_util.dfy | `util/StringUtil.java` |
| `Columns`, `Tables` | column.dfy, table.dfy | `metadata/Column.java`, `metadata/Table.java` |
| `MetadataDB` | metadata_db.dfy | `metadata/MetadataDB.java` |
| `Builder` | builder.dfy | the fluent setters of `FacilDB.java` |
| `Compiler` | compiler.dfy | `prepareSelect`, `prepareInsert`, `prepareUpdate`, `prepareDelete`, `validSqlAlias`, `get*` |
| `Execution` | execute.dfy | `execute`, `executeBatch` |
| `Query` | query.dfy | `query`, `querySelect`, `queryProcedure(false)`, `queryUnique`, `queryCount` |

Behaviours of the code that are easy to misread:

- `queryCount` returns the value of the last row's first column. It is not the first row's.
- In `querySelect`, compiling, preparing and binding happen before the `try` block. So a compile error leaves the parameters in place. The clean-up is promised only once the `try` block is reached.
- The limit clause of `prepareSelect` is guarded by `maxResults > 0 && MYSQL || POSTGRESQL`. Java's precedence makes PostgreSQL always get ` limit n`, even with n = 0. It is modelled as written (`Compiler.PostgresAlwaysLimited`).
- Pervasive's default alias calls `String.replace("\\.", "_")`. This replaces the two-character text `\.`, not a dot, so ordinary qualified fields keep their dot (`Compiler.PervasiveKeepsPlainField`).

## Model

| member | source | states |
|---|---|---|
| DataBaseType.FromString | src/main/java/br/tec/cmc/facildb/DataBaseType.java:30-56 | the result is the constant whose name is the upper-cased input, or POSTGRESQL when no name matches |
| DataBaseType.ByUpperName | src/main/java/br/tec/cmc/facildb/DataBaseType.java:34-55 | the switch returns the constant named by its input, POSTGRESQL by default |
| DataBaseType.NameIsUpper | src/main/java/br/tec/cmc/facildb/DataBaseType.java:20-28 | every constant name is unchanged by upper-casing |
| DataBaseType.FromStringName | src/main/java/br/tec/cmc/facildb/DataBaseType.java:30-56 | each constant's own name maps back to that constant (round trip of `name()`) |
| DataBaseType.NameInjective | src/main/java/br/tec/cmc/facildb/DataBaseType.java:20-28 | distinct constants have distinct names |
| DataBaseType.FromStringIgnoresCase | src/main/java/br/tec/cmc/facildb/DataBaseType.java:32 | the lookup depends only on the upper-cased input |
| DataBaseType.FromStringCharacterised | src/main/java/br/tec/cmc/facildb/DataBaseType.java:30-56 | fromString(s) == t exactly when s upper-cases to t's name, or t is POSTGRESQL and no name matches |
| DataBaseType.FromStringMixedCase | src/main/java/br/tec/cmc/facildb/DataBaseType.java:32-40 | "Oracle" finds ORACLE |
| StringUtil.CamelPieces | src/main/java/br/tec/cmc/facildb/util/StringUtil.java:26-31 | the loop succeeds iff no piece is empty (charAt(0) throws otherwise); the result's length is the pieces' total length and has no '_' when the pieces have none; the casing of each character is stated by `StringUtil.CamelPiecesChars` |
| StringUtil.CamelPiecesChars | src/main/java/br/tec/cmc/facildb/util/StringUtil.java:26-31 | character k of piece i lands at that piece's offset plus k: upper-cased when it is a piece's first character (lower-cased for the first piece when the flag is off), lower-cased otherwise |
| StringUtil.ToCamelCase | src/main/java/br/tec/cmc/facildb/util/StringUtil.java:24-33 | fails with an index error iff some '_'-piece of the Java split is empty; otherwise every piece's first character upper-cased and the rest lower-cased, back to back |
| StringUtil.VarNameToCamelCase | src/main/java/br/tec/cmc/facildb/util/StringUtil.java:35-50 | as `toCamelCase`, except that the first piece's first character is lower-cased |
| StringUtil.ToCamelCaseShape | src/main/java/br/tec/cmc/facildb/util/StringUtil.java:24-33 | a successful toCamelCase has the input's length minus its underscores, and no '_' |
| StringUtil.VarNameToCamelCaseShape | src/main/java/br/tec/cmc/facildb/util/StringUtil.java:35-50 | the same shape for varNameToCamelCase |
| StringUtil.SumLenSplitAll | src/main/java/br/tec/cmc/facildb/util/StringUtil.java:26 | the pieces of a split on '_' hold every character except the underscores |
| StringUtil.SumLenDropTrailing | src/main/java/br/tec/cmc/facildb/util/StringUtil.java:26 | dropping trailing empty pieces (Java `split`) loses no characters |
| StringUtil.CamelAndVarNameAgree | src/main/java/br/tec/cmc/facildb/util/StringUtil.java:24-50 | the two conversions fail on the same inputs and differ only in the case of the first character |
| StringUtil.CamelPiecesAgree | src/main/java/br/tec/cmc/facildb/util/StringUtil.java:37-44 | the `skip` flag only lower-cases the first piece's first character |
| StringUtil.EmptyNameFails | src/main/java/br/tec/cmc/facildb/util/StringUtil.java:26-27 | "".split("_") is [""], whose charAt(0) throws |
| StringUtil.EmptyPiecesFail | src/main/java/br/tec/cmc/facildb/util/StringUtil.java:26-27 | a leading or doubled underscore makes an empty piece, and the conversion throws |
| StringUtil.TrailingUnderscoresDropped | src/main/java/br/tec/cmc/facildb/util/StringUtil.java:26 | trailing underscores vanish: "_" gives "" and "ab_" gives "Ab" |
| StringUtil.PublisherIdExample | src/main/java/br/tec/cmc/facildb/util/StringUtil.java:35-50 | "publisher_id" becomes "publisherId" |
| StringUtil.PubNameExample | src/main/java/br/tec/cmc/facildb/util/StringUtil.java:24-33 | "PUB_NAME" becomes "PubName" (the tail of each piece is lower-cased) |
| Columns.NewColumn | src/main/java/br/tec/cmc/facildb/metadata/Column.java:24-35 | a new column has empty name and type and zero, false or null elsewhere |
| Columns.ColumnOf | src/main/java/br/tec/cmc/facildb/metadata/Column.java:47-50 | the two-argument constructor sets name and type only |
| Columns.ColumnFromJson | src/main/java/br/tec/cmc/facildb/metadata/Column.java:40-45 | the JSON constructor reads name, type, size and nullability leniently and nothing else |
| Columns.VarName | src/main/java/br/tec/cmc/facildb/metadata/Column.java:60-66 | the camel-case name, never "class": a name converting to "class" becomes "clazz", any other is kept; it fails exactly when the conversion fails |
| Columns.VarNameNoIdSuffix | src/main/java/br/tec/cmc/facildb/metadata/Column.java:68-75 | a prefix of the variable name, cut at the last "Id" when that occurrence is not at position 0, and otherwise the whole name |
| Columns.ColumnNameCamelCase | src/main/java/br/tec/cmc/facildb/metadata/Column.java:77-79 | fails iff some '_'-piece of the name is empty; otherwise the pieces capitalised and joined, shorter than the name by its underscores, with no '_' |
| Columns.FkTableNameAsCamelCase | src/main/java/br/tec/cmc/facildb/metadata/Column.java:125-127 | a null pointer error exactly when there is no foreign key; otherwise an index error iff some '_'-piece of the table name is empty, else the pieces capitalised and joined, with no '_' |
| Columns.TwoCharPrefixes | src/main/java/br/tec/cmc/facildb/metadata/Column.java:141-145 | succeeds iff every piece has two characters; then the result is each piece's first two characters, in order |
| Columns.NestedId | src/main/java/br/tec/cmc/facildb/metadata/Column.java:133-147 | null without a foreign key; a one-word table gives its first (up to) four characters |
| Columns.JsonType | src/main/java/br/tec/cmc/facildb/metadata/Column.java:157-182 | maps each Java type to its JSON type, in both directions, with "String" for anything else |
| Columns.ColumnToJson | src/main/java/br/tec/cmc/facildb/metadata/Column.java:149-151 | the serialised column holds the four properties the JSON constructor reads |
| Columns.ColumnJsonRoundTrip | src/main/java/br/tec/cmc/facildb/metadata/Column.java:40-45 | serialising then reading back keeps name, type, size and nullability, and clears the key, index and foreign-key fields |
| Columns.PublisherIdNames | src/main/java/br/tec/cmc/facildb/metadata/Column.java:60-75 | "publisher_id" names the variable "publisherId", whose "Id"-less form is "publisher" |
| Columns.NoIdSuffixOf | src/main/java/br/tec/cmc/facildb/metadata/Column.java:68-75 | a name ending in "Id" after at least one character loses exactly that suffix |
| Columns.ClassIsRenamed | src/main/java/br/tec/cmc/facildb/metadata/Column.java:62-64 | a column named "class" gives "clazz" |
| Columns.NestedIdExamples | src/main/java/br/tec/cmc/facildb/metadata/Column.java:133-147 | "book_publisher" gives "bopu"; "a_book" throws on the one-letter word |
| Columns.NestedIdTwoWords | src/main/java/br/tec/cmc/facildb/metadata/Column.java:133-147 | a name of two underscore-joined words of at least two letters abbreviates to the first two letters of each |
| Tables.NewTable | src/main/java/br/tec/cmc/facildb/metadata/Table.java:26-33 | empty names and no column list |
| Tables.AddColumn | src/main/java/br/tec/cmc/facildb/metadata/Table.java:93-98 | creates the list on first use and appends the column at its end, keeping the earlier columns |
| Tables.ColumnsFromJson | src/main/java/br/tec/cmc/facildb/metadata/Table.java:44-50 | succeeds iff every array element is an object; then reads each as a column, in order |
| Tables.TableFromJson | src/main/java/br/tec/cmc/facildb/metadata/Table.java:39-51 | reads the four names leniently; a missing column array gives an empty list |
| Tables.PutString | src/main/java/br/tec/cmc/facildb/metadata/Table.java:101-105 | `put` stores a non-null value and removes the key for null, leaving other keys alone |
| Tables.TableToJson | src/main/java/br/tec/cmc/facildb/metadata/Table.java:100-114 | each of the four names is present exactly when it is non-null, and then holds that name; the column list is present exactly when non-null, as the serialised columns |
| Tables.TableJsonRoundTrip | src/main/java/br/tec/cmc/facildb/metadata/Table.java:39-51 | serialising then reading back keeps the names (null becomes ""), and the columns as the column round trip leaves them |
| Tables.NamesRoundTrip | src/main/java/br/tec/cmc/facildb/metadata/Table.java:39-42 | each of the four names reads back as written, a null one as "" |
| Tables.ColumnsRoundTrip | src/main/java/br/tec/cmc/facildb/metadata/Table.java:44-50 | a serialised column list reads back element by element as the stripped columns |
| MetadataDB.NewMetadataDB | src/main/java/br/tec/cmc/facildb/metadata/MetadataDB.java:32-34 | stores the handle with no table cache |
| MetadataDB.GetCatalogs | src/main/java/br/tec/cmc/facildb/metadata/MetadataDB.java:36-46 | the catalogue names, or empty without a handle |
| MetadataDB.GetSchemas | src/main/java/br/tec/cmc/facildb/metadata/MetadataDB.java:48-58 | the schema names, or empty without a handle |
| MetadataDB.FilterTables | src/main/java/br/tec/cmc/facildb/metadata/MetadataDB.java:64-69 | a name is listed iff some row of that name has type "TABLE" in any case |
| MetadataDB.FilterTablesAppend | src/main/java/br/tec/cmc/facildb/metadata/MetadataDB.java:64-69 | the filter keeps cursor order (it distributes over concatenation) |
| MetadataDB.GetTableList | src/main/java/br/tec/cmc/facildb/metadata/MetadataDB.java:60-73 | the tables (no views) of the scope in the cursor's order (`FilterTables` of the driver's rows), or empty without a handle |
| MetadataDB.LoadTableMap | src/main/java/br/tec/cmc/facildb/metadata/MetadataDB.java:75-83 | the first call fills the cache with the table list; later calls change nothing |
| MetadataDB.GetPrimaryKeys | src/main/java/br/tec/cmc/facildb/metadata/MetadataDB.java:233-241 | the key columns; a null handle throws |
| MetadataDB.GetIndexedColumns | src/main/java/br/tec/cmc/facildb/metadata/MetadataDB.java:243-250 | every listed index row's COLUMN_NAME, the null one of a statistic row included; a null handle throws |
| MetadataDB.PrimaryKeySet | src/main/java/br/tec/cmc/facildb/metadata/MetadataDB.java:252-261 | the lookup holds exactly the key columns |
| MetadataDB.IndexedSet | src/main/java/br/tec/cmc/facildb/metadata/MetadataDB.java:263-273 | throws a null pointer exception iff some listed name is null (the `equals("id")` call dereferences it); otherwise holds exactly the listed names other than "id" |
| MetadataDB.NamesExceptId | src/main/java/br/tec/cmc/facildb/metadata/MetadataDB.java:265-271 | the index loop: a null name throws; otherwise the names other than "id" |
| MetadataDB.ClassifyType | src/main/java/br/tec/cmc/facildb/metadata/MetadataDB.java:104-201 | the type code decides when it is listed; else the lower-cased type name; else "String" |
| MetadataDB.ClassifyKnownCodeIgnoresName | src/main/java/br/tec/cmc/facildb/metadata/MetadataDB.java:106-180 | a listed code decides alone |
| MetadataDB.ClassifyNameIgnoresCase | src/main/java/br/tec/cmc/facildb/metadata/MetadataDB.java:105 | the name fallback ignores letter case |
| MetadataDB.UnlistedCodes | src/main/java/br/tec/cmc/facildb/metadata/MetadataDB.java:180-201 | DATE is rescued by its name; BOOLEAN is a "String" unless named "bit" |
| MetadataDB.FkTable | src/main/java/br/tec/cmc/facildb/metadata/MetadataDB.java:218-223 | a found table is known and the column is that name plus "_id" |
| MetadataDB.FkTableCharacterised | src/main/java/br/tec/cmc/facildb/metadata/MetadataDB.java:218-223 | a column points at t exactly when it is t + "_id" and t is a known table |
| MetadataDB.BuildColumn | src/main/java/br/tec/cmc/facildb/metadata/MetadataDB.java:102-223 | a column carries its row's name, classified type and size; nullable iff IS_NULLABLE is "yes" in any case; key, index and foreign-key flags from the lookups |
| MetadataDB.AddAllColumns | src/main/java/br/tec/cmc/facildb/metadata/MetadataDB.java:101-225 | the columns are the built rows, in cursor order |
| MetadataDB.BuildAll | src/main/java/br/tec/cmc/facildb/metadata/MetadataDB.java:101-225 | one built column per cursor row, in order, each from its own row |
| MetadataDB.GetTable | src/main/java/br/tec/cmc/facildb/metadata/MetadataDB.java:85-231 | fills the cache first; throws a null pointer exception iff the handle is null or an index row has a null column name; otherwise the table has the given names, type "TABLE" and a column list that is null iff there are no column rows |
| MetadataDB.GetTableColumns | src/main/java/br/tec/cmc/facildb/metadata/MetadataDB.java:98-225 | the i-th column of the table is built from the i-th metadata row |
| MetadataDB.TableMapFilledOnce | src/main/java/br/tec/cmc/facildb/metadata/MetadataDB.java:76-82 | a second `getTable` of another scope keeps the cache of the first |
| MetadataDB.NoMetadataCachesNothing | src/main/java/br/tec/cmc/facildb/metadata/MetadataDB.java:60-98 | without a handle, `getTable` throws after caching an empty table map |
| MetadataDB.IdIsNeverIndexed | src/main/java/br/tec/cmc/facildb/metadata/MetadataDB.java:263-273 | when no index name is null, the exclusion is case-sensitive: "id" is never indexed, "ID" is when listed |
| Builder.Connected | src/main/java/br/tec/cmc/facildb/FacilDB.java:42-96 | a connected builder has no parameters and no command; every other field has its initialiser's value (empty texts for the table, order and where fragments, null caches, handles, schema, last SQL and procedure) |
| Builder.Classify | src/main/java/br/tec/cmc/facildb/FacilDB.java:138-164 | SELECT iff the lower-cased text contains "select"; INSERT iff it contains "insert" but not "select"; likewise UPDATE, DELETE and CREATE after the earlier keywords are absent; no command iff none of the five occurs |
| Builder.FirstKeyword | src/main/java/br/tec/cmc/facildb/FacilDB.java:139-164 | no command iff no keyword occurs; otherwise the command of a keyword that occurs while every earlier keyword does not |
| Builder.ClassifyIsFirstKeyword | src/main/java/br/tec/cmc/facildb/FacilDB.java:139-164 | the classification is the first of select, insert, update, delete, create found in the lower-cased text |
| Builder.Sql | src/main/java/br/tec/cmc/facildb/FacilDB.java:137-171 | stores the text in the classified command's cache and closes only that handle; every other cache and handle is unchanged; always nulls aliases and the select where, clears parameters and sets lastSQL; no other field changes |
| Builder.ContainedKeywordWins | src/main/java/br/tec/cmc/facildb/FacilDB.java:139-140 | an UPDATE text with a column named "selected" is classified as SELECT |
| Builder.Call | src/main/java/br/tec/cmc/facildb/FacilDB.java:173-178 | the procedure becomes the command, called as "{call p}"; every other field is unchanged |
| Builder.Param | src/main/java/br/tec/cmc/facildb/FacilDB.java:180-205 | appends one parameter and changes nothing else |
| Builder.ParamAt | src/main/java/br/tec/cmc/facildb/FacilDB.java:184-200 | negative positions throw; otherwise the value lands at the index, other entries stay, and a gap is padded with null |
| Builder.ParamAtEndAppends | src/main/java/br/tec/cmc/facildb/FacilDB.java:191-192 | a positional parameter at the end is an append |
| Builder.SqlTypeCode | src/main/java/br/tec/cmc/facildb/FacilDB.java:213-248 | DECIMAL registers as DOUBLE (8) and an unlisted type as VARCHAR (12) |
| Builder.OutParam | src/main/java/br/tec/cmc/facildb/FacilDB.java:211-253 | without a callable statement nothing happens; otherwise registers position index + 1 and sets the parameter at index |
| Builder.Reset | src/main/java/br/tec/cmc/facildb/FacilDB.java:311-354 | every field back to empty, null or zero, handles closed; schema, dialect and last SQL survive |
| Builder.Fields | src/main/java/br/tec/cmc/facildb/FacilDB.java:361-377 | the field list goes to the current command's slot; a null command throws |
| Text.SplitTrim | src/main/java/br/tec/cmc/facildb/FacilDB.java:384-390 | one trimmed entry per piece of the Java comma split, in order |
| Builder.FieldsText | src/main/java/br/tec/cmc/facildb/FacilDB.java:384-390 | a null command throws; otherwise only the current command's field list changes, to the comma-split, trimmed pieces (DELETE, CREATE and EMPTY ignore it) |
| Builder.SqlAlias | src/main/java/br/tec/cmc/facildb/FacilDB.java:400-403 | sets only the aliases |
| Builder.SqlAliasText | src/main/java/br/tec/cmc/facildb/FacilDB.java:392-398 | sets only the aliases, split on commas and trimmed |
| Builder.Schema | src/main/java/br/tec/cmc/facildb/FacilDB.java:405-408 | sets only the schema |
| Builder.SelectFields | src/main/java/br/tec/cmc/facildb/FacilDB.java:418-427 | starts a SELECT with an empty cache and no handle, aliases or where; other commands' state is kept |
| Builder.SelectText | src/main/java/br/tec/cmc/facildb/FacilDB.java:410-416 | a new SELECT: empty cache, closed handle, the comma-split trimmed fields, no aliases or where; nothing else changes |
| Builder.MaxResults | src/main/java/br/tec/cmc/facildb/FacilDB.java:429-432 | sets only the row limit |
| Builder.InsertInto | src/main/java/br/tec/cmc/facildb/FacilDB.java:434-441 | starts an INSERT with an empty cache; every where fragment is kept |
| Builder.UpdateTable | src/main/java/br/tec/cmc/facildb/FacilDB.java:443-451 | starts an UPDATE and nulls its where fragment |
| Builder.DeleteFrom | src/main/java/br/tec/cmc/facildb/FacilDB.java:453-461 | starts a DELETE and nulls its where fragment |
| Builder.SetOperation | src/main/java/br/tec/cmc/facildb/FacilDB.java:463-481 | sets only the command |
| Builder.From | src/main/java/br/tec/cmc/facildb/FacilDB.java:483-486 | sets only the FROM clause |
| Builder.Where | src/main/java/br/tec/cmc/facildb/FacilDB.java:488-501 | the fragment goes to the current command's where slot (none for INSERT, CREATE, PROCEDURE); a null command throws |
| Builder.OrderBy | src/main/java/br/tec/cmc/facildb/FacilDB.java:503-506 | sets only the ORDER BY clause |
| Compiler.ValidSqlAlias | src/main/java/br/tec/cmc/facildb/FacilDB.java:1068-1079 | set aliases are kept; otherwise each field is its own alias (Pervasive: with `\.` replaced); throws iff neither exists |
| Compiler.DefaultAliasesAreFields | src/main/java/br/tec/cmc/facildb/FacilDB.java:1070-1077 | outside Pervasive the default aliases are the fields |
| Compiler.PervasiveKeepsPlainField | src/main/java/br/tec/cmc/facildb/FacilDB.java:1073-1075 | Pervasive leaves a field without `\.` unchanged, dots included |
| Compiler.Items | src/main/java/br/tec/cmc/facildb/FacilDB.java:942-948 | one select-list entry per field, paired with its alias |
| Compiler.PrepareSelect | src/main/java/br/tec/cmc/facildb/FacilDB.java:924-992 | only the cache and aliases change; the cache only grows; the aliases become the parsed list when the alias string is valid and are kept otherwise; it succeeds iff fields and FROM exist and the alias count matches; the three failures |
| Compiler.PrepareSelectText | src/main/java/br/tec/cmc/facildb/FacilDB.java:924-992 | a successful compile appends exactly the reference statement, whose select list is the items joined by commas |
| Compiler.MismatchKeepsPartialText | src/main/java/br/tec/cmc/facildb/FacilDB.java:925-940 | a count mismatch throws after "select" and the row limit were appended |
| Compiler.MissingFromKeepsSelectList | src/main/java/br/tec/cmc/facildb/FacilDB.java:941-959 | a missing FROM throws after the select list was appended |
| Compiler.WhereKeyword | src/main/java/br/tec/cmc/facildb/FacilDB.java:960-968 | a where fragment is introduced by `"   where "` (three leading spaces) unless it starts with join, inner or group, and appears in the text |
| Compiler.PostgresAlwaysLimited | src/main/java/br/tec/cmc/facildb/FacilDB.java:984-988 | PostgreSQL always gets a limit clause, whatever maxResults is |
| Compiler.RowLimitClauses | src/main/java/br/tec/cmc/facildb/FacilDB.java:926-988 | with a positive limit: "top n " for H2, MSSQL, JTDS, Pervasive and Progress; "first n " for Firebird; Oracle's "rownum <= n" led by " and" after a where fragment and by "   where" otherwise; "    limit n" for MySQL |
| Compiler.NoRowLimitElsewhere | src/main/java/br/tec/cmc/facildb/FacilDB.java:926-988 | any other dialect, or none, gets neither top/first, rownum nor limit |
| Compiler.GetSelect | src/main/java/br/tec/cmc/facildb/FacilDB.java:900-903 | compiles and returns the whole cache; a failed compile gives the compile's own error |
| Compiler.GetSelectAppendsAgain | src/main/java/br/tec/cmc/facildb/FacilDB.java:900-903 | a second call appends the statement again: its text strictly extends the first |
| Compiler.StripQualifier | src/main/java/br/tec/cmc/facildb/FacilDB.java:1006-1009 | a field after its first '.', unless that dot is at position 0 or absent; the field is the prefix, the dot and the result |
| Compiler.Placeholders | src/main/java/br/tec/cmc/facildb/FacilDB.java:1015-1017 | n question marks |
| Compiler.PrepareInsert | src/main/java/br/tec/cmc/facildb/FacilDB.java:994-1021 | the cache only grows; it succeeds iff table and fields exist; the appended text is the reference INSERT; last SQL is set only on success |
| Compiler.InsertTextMatches | src/main/java/br/tec/cmc/facildb/FacilDB.java:1004-1019 | the two append loops with their last-comma cuts give the lists joined by commas |
| Compiler.PlaceholderCount | src/main/java/br/tec/cmc/facildb/FacilDB.java:1014-1019 | an INSERT has exactly one placeholder per field |
| Compiler.Assignments | src/main/java/br/tec/cmc/facildb/FacilDB.java:1034-1040 | one `field=?` per field, qualifier stripped |
| Compiler.PrepareUpdate | src/main/java/br/tec/cmc/facildb/FacilDB.java:1023-1050 | the cache only grows; success iff table, fields and where exist; the appended text is the reference UPDATE |
| Compiler.UpdateTextMatches | src/main/java/br/tec/cmc/facildb/FacilDB.java:1033-1043 | the assignment loop with its two-character cut gives the assignments joined by ", " |
| Compiler.PrepareDelete | src/main/java/br/tec/cmc/facildb/FacilDB.java:1052-1066 | the cache only grows; success iff table and where exist; the appended text is the reference DELETE |
| Compiler.UpdateDeleteNeedWhere | src/main/java/br/tec/cmc/facildb/FacilDB.java:443-461 | right after `update(t)` or `delete(t)` compiling throws, because the where fragment is null |
| Compiler.UpdateWithWhereCompiles | src/main/java/br/tec/cmc/facildb/FacilDB.java:1023-1050 | after `update(t)`, `fields` and `where`, the UPDATE compiles |
| Compiler.GetInsert | src/main/java/br/tec/cmc/facildb/FacilDB.java:905-908 | compiles and returns the cache followed by the reference INSERT; a failed compile gives the compile's own error |
| Compiler.GetUpdate | src/main/java/br/tec/cmc/facildb/FacilDB.java:910-913 | compiles and returns the cache followed by the reference UPDATE; a failed compile gives the compile's own error |
| Compiler.GetDelete | src/main/java/br/tec/cmc/facildb/FacilDB.java:915-918 | compiles and returns the cache followed by the reference DELETE; a failed compile gives the compile's own error |
| Execution.Bind | src/main/java/br/tec/cmc/facildb/FacilDB.java:520-522 | the i-th parameter is bound at position i + 1 |
| Execution.BindValues | src/main/java/br/tec/cmc/facildb/FacilDB.java:520-522 | reading the bindings back gives the parameters |
| Execution.CachedText | src/main/java/br/tec/cmc/facildb/FacilDB.java:513-546 | a non-empty cache is used as is; an empty one is compiled first, giving the reference INSERT, UPDATE or DELETE text or the compile's own error; a null one throws |
| Execution.Cleared | src/main/java/br/tec/cmc/facildb/FacilDB.java:562-563 | the finally block empties the parameter list and changes nothing else |
| Execution.Send | src/main/java/br/tec/cmc/facildb/FacilDB.java:523 | the driver's failure is rethrown, otherwise the statement sent is reported; the state is unchanged |
| Execution.Execute | src/main/java/br/tec/cmc/facildb/FacilDB.java:508-577 | parameters always end cleared; a null command throws; SELECT and EMPTY run nothing; INSERT, UPDATE and DELETE send the cached or compiled text with the parameters bound, a compile error or driver failure propagating; CREATE sends the open handle's text or else the cache, binding nothing and keeping the handle; a procedure needs its callable |
| Execution.ExecuteCompiled | src/main/java/br/tec/cmc/facildb/FacilDB.java:514-547 | the state is the compile step's with parameters cleared; a compile error propagates; otherwise the text is sent with the parameters bound and a driver failure is rethrown |
| Execution.ExecuteCreate | src/main/java/br/tec/cmc/facildb/FacilDB.java:549-554 | the open CREATE handle's text or else the cache is sent with no bindings, and stays the handle; a null text throws |
| Execution.InsertCompiledOnce | src/main/java/br/tec/cmc/facildb/FacilDB.java:514-516 | a second execution of an INSERT reuses the text compiled by the first |
| Execution.CompileErrorStillClears | src/main/java/br/tec/cmc/facildb/FacilDB.java:562-576 | a compile error still clears the parameters and leaves the partial text |
| Execution.BindRecord | src/main/java/br/tec/cmc/facildb/FacilDB.java:589-595 | succeeds iff every position has an insert field present in the record; then position j + 1 holds the record's value for field j |
| Execution.RecordBindings | src/main/java/br/tec/cmc/facildb/FacilDB.java:589-595 | a failure is rethrown with the record's text appended; the bindings have one entry per key |
| Execution.BatchBindings | src/main/java/br/tec/cmc/facildb/FacilDB.java:588-597 | succeeds iff every record binds, with one binding set per record in order; a failure is the error of the first record that does not bind |
| Execution.ExecuteBatch | src/main/java/br/tec/cmc/facildb/FacilDB.java:579-606 | compiles as `execute` does, clears parameters, and sends the INSERT text with exactly the bindings of each record, in order; it succeeds iff compiling, every record and the driver succeed, and otherwise fails with the first of those errors |
| Execution.BatchRecordTooWide | src/main/java/br/tec/cmc/facildb/FacilDB.java:589-594 | a record with more keys than insert fields fails, with a message |
| Query.ColumnIndex | src/main/java/br/tec/cmc/facildb/FacilDB.java:643 | the first column whose label equals the alias ignoring case, or none |
| Query.GetObject | src/main/java/br/tec/cmc/facildb/FacilDB.java:643 | a label no column carries throws; a value read is a readable one that some column of that label holds (which column: `Query.GetObjectReadsFirst`) |
| Query.GetObjectReadsFirst | src/main/java/br/tec/cmc/facildb/FacilDB.java:643 | the read goes to the first column of the label: its value, or the exception the driver throws reading it |
| Query.Normalize | src/main/java/br/tec/cmc/facildb/FacilDB.java:644-654 | NULL iff JSON null; dates and timestamps formatted; CLOB as text only when asked; the rest unchanged |
| Query.FillRecord | src/main/java/br/tec/cmc/facildb/FacilDB.java:641-655 | complete iff every alias reads; the failure is that of an alias read |
| Query.FillRecordFirstFailure | src/main/java/br/tec/cmc/facildb/FacilDB.java:641-655 | the failure is the first read that throws; the record's keys are exactly the aliases before it, or all aliases without a failure |
| Query.FillRecordStores | src/main/java/br/tec/cmc/facildb/FacilDB.java:641-655 | every key is an alias holding its column's normalised value; a complete record holds every alias |
| Query.ReadRows | src/main/java/br/tec/cmc/facildb/FacilDB.java:639-657 | one complete record per row, in order, up to the first row that fails, whose partial record is dropped |
| Query.ReadFilled | src/main/java/br/tec/cmc/facildb/FacilDB.java:640-657 | records are collected until the first failed one |
| Query.ReadCursor | src/main/java/br/tec/cmc/facildb/FacilDB.java:638-658 | the records are the filled first rows, in order; a row that fails to fill ends the read with its own failure, which takes precedence; only after every row does the cursor's failure count |
| Query.FiltersDiffer | src/main/java/br/tec/cmc/facildb/FacilDB.java:659-664 | a message-less exception is swallowed by the list queries and rethrown by `queryUnique`; "no current row" only by the latter |
| Query.Finish | src/main/java/br/tec/cmc/facildb/FacilDB.java:659-674 | the finally block clears parameters and the handle; a failure is rethrown iff `SelectSwallows` rejects it (a message not starting with "No data available"); a swallowed one returns the records read before it |
| Query.SelectStatement | src/main/java/br/tec/cmc/facildb/FacilDB.java:622-625 | a non-empty cache is used as is; an empty one is compiled and recorded as the last SQL; a null one throws |
| Query.QuerySelect | src/main/java/br/tec/cmc/facildb/FacilDB.java:617-676 | a compile error propagates with no clean-up; otherwise the state is the compiled one with the aliases `validSqlAlias` defaulted, parameters and handle cleared, and nothing else changed; an alias failure is swallowed with no records, and the cursor read from the open handle or the text is returned unless its failure has a message not starting with "No data available", which is rethrown |
| Query.SelectWithoutAliasesIsEmpty | src/main/java/br/tec/cmc/facildb/FacilDB.java:636-664 | with neither aliases nor fields, the query returns no records and runs nothing |
| Query.StaleHandleIsReused | src/main/java/br/tec/cmc/facildb/FacilDB.java:626-628 | an open handle is run, whatever the current text |
| Query.NoDataKeepsEarlierRows | src/main/java/br/tec/cmc/facildb/FacilDB.java:659-664 | a "No data available" failure returns the records of every row read before it |
| Query.QueryProcedure | src/main/java/br/tec/cmc/facildb/FacilDB.java:678-785 | no callable with parameters throws before the try and changes nothing; otherwise the state keeps the defaulted aliases and ends with parameters and handle cleared; an alias failure or a missing callable returns no records and runs nothing; else the callable runs with the parameters bound, and the cursor's records (CLOBs passed through) are returned unless its failure is rejected by `SelectSwallows`, which is rethrown |
| Query.QueryUnique | src/main/java/br/tec/cmc/facildb/FacilDB.java:787-843 | always a fresh handle; an alias failure propagates, the state being the compiled one with the fresh handle; otherwise the state keeps the defaulted aliases, with parameters and handle cleared; otherwise they end cleared and the first row's record (empty without rows) is returned, unless its failure is message-less or starts with neither no-data prefix, which is rethrown |
| Query.UniqueRun | src/main/java/br/tec/cmc/facildb/FacilDB.java:805-842 | only the first row is read; its failure is rethrown exactly when `UniqueSwallows` rejects it (no message, or one starting with neither "No data available" nor "The result set has no current row"), else its possibly partial record is returned; the parameters end cleared and the handle closed |
| Query.UniqueKeepsPartialRecord | src/main/java/br/tec/cmc/facildb/FacilDB.java:807-831 | a "No data available" read part-way through the first row is swallowed and the record holds exactly the aliases read before it |
| Query.MessagelessFailureFiltered | src/main/java/br/tec/cmc/facildb/FacilDB.java:659-664 | the same message-less driver failure gives `querySelect` no records and makes `queryUnique` throw |
| Query.UniqueReadsFirstRow | src/main/java/br/tec/cmc/facildb/FacilDB.java:807-822 | the record of the first row, ignoring later rows |
| Query.QueryCount | src/main/java/br/tec/cmc/facildb/FacilDB.java:845-871 | no handle and no text throws before the try; otherwise clears, and returns the last row's value, 0 without rows, or the failure |
| Query.LastOr | src/main/java/br/tec/cmc/facildb/FacilDB.java:858-860 | the last value read, or the initial one |
| Query.DoQuery | src/main/java/br/tec/cmc/facildb/FacilDB.java:608-615 | SELECT and PROCEDURE dispatch; anything else throws with the command's name and changes nothing |

## Left out

- The JDBC driver. Connections, statement preparation and parameter setting are not modelled: they cannot fail in the model, and neither can `close`. Only the statement text, its bindings and the rows or failure the driver returns are modelled; a value whose read throws is a cell carrying the driver's exception.
- Transactions and connection management (`setOutCommit`, `beginTransaction`, `commit`, `rollback`, `closeConnection`, `connectionIsValid`), `getUri` and `getDatabaseId`. They delegate to the driver.
- The out-parameter getters (`getOutParam` and its typed forms), which read from the driver. Also `registerOutParameter`'s own checks: the registration is returned as data.
- `queryProcedure(true)`, the multi-result loop over `execute`/`getMoreResults`. Its termination depends on the driver.
- `DateUtil`: the date formatter is a parameter `fmt`. The vendor subclasses (`FacilH2`, `FacilMySQL`, …), `DataBaseURL` and `DataBaseDriver` only choose a URL, a driver and the dialect. The dialect is a field of the state.
- The INSERT, UPDATE and DELETE statement handles. `execute` and `executeBatch` close them in every path, so they never outlive a call. The SELECT and CREATE handles and the callable statement are modelled.
- `FacilDB()`, the no-argument constructor. It leaves the parameter list null. The model starts from a connected builder (`Builder.Connected`).
- A null text passed to `sql`, `select(String)`, `fields(String)` or `sqlAlias(String)`, which throws in `toLowerCase`/`split`. These members take a `string`.
- The `SQLCommand` and `DataType` enums are not part of this model. Their constant names are assumed to be those the code switches on: SELECT, INSERT, UPDATE, DELETE, CREATE, PROCEDURE and EMPTY.
- Driver-worded messages use fixed texts that start with neither "No data available" nor "The result set has no current row": "Column not found: …", "Index out of range" and "JSONObject key not found". Only the prefix of a message matters to the code.
- A null pointer exception is modelled as an exception without a message, as the code's `getMessage() == null` tests assume.
- `JSONObject.NULL` and a Java `null` stored in a parameter are both `JNull`.
- Case mapping is ASCII only. `Locale`-dependent and non-ASCII mappings of `toUpperCase`/`toLowerCase` are not modelled.
- `optInt` and `optBoolean` read only JSON numbers and booleans (and "true"/"false" strings). `optInt` does not parse numeric strings.
- `Column.toJSONObject` serialises a bean by reflection. The model serialises the four properties its JSON constructor reads back. `toString(ident)` of `Column` and `Table` is pretty-printing and is left out.
- `Columns.NestedId`: the multi-word case is stated through `Columns.TwoCharPrefixes` and its examples rather than in `NestedId`'s own contract.
- `Compiler.GetSelect`: states the returned text as the cache followed by the compiled statement. The clause-by-clause layout of that statement is stated by `Compiler.PrepareSelectText`, not repeated here.

=== FILE: builder.dfy ===
/** The state of a `FacilDB` object and its fluent setters.

    Every setter is a pure function from the old state to the new one; a
    setter that can throw returns a `Result`. Statement handles are kept
    only where their lifetime is observable: the SELECT handle (which a
    later query may reuse), the CREATE handle (never closed by `execute`)
    and the procedure's callable statement. Each stands for the SQL text it
    was prepared from. The INSERT, UPDATE and DELETE handles are created
    and closed within a single `execute`/`executeBatch` call and never
    outlive it, so they are not part of the state. */
module Builder {
  import opened Wrappers
  import opened Errors
  import Text
  import opened Json
  import opened DataBaseType

  /** The SQL command kinds `FacilDB` switches on. */
  datatype Op = Select | Insert | Update | Delete | Create | Procedure | Empty

  /** A bound statement parameter: any Java object, with `JNull` standing for null. */
  type Value = Json

  datatype State = State(
    params: seq<Value>,                // queryParams
    fieldsSel: Option<seq<string>>,
    aliases: Option<seq<string>>,      // sqlAliases
    fieldsIns: Option<seq<string>>,
    fieldsUpd: Option<seq<string>>,
    operation: Option<Op>,             // null until the first command
    from: Option<string>,
    whereSel: Option<string>,
    whereUpd: Option<string>,
    whereDel: Option<string>,
    orderBy: Option<string>,
    tableNames: Option<string>,
    maxResults: Int32,
    sqlSel: Option<string>,            // the cached statement text per command
    sqlIns: Option<string>,
    sqlUpd: Option<string>,
    sqlDel: Option<string>,
    sqlCre: Option<string>,
    selHandle: Option<string>,         // prepStatSEL, by the text it was prepared from
    creHandle: Option<string>,         // prepStatCRE
    callable: Option<string>,          // callableStatement
    schema: Option<string>,
    lastSql: Option<string>,
    dialect: Option<DbType>,           // dbType, fixed by the vendor subclass
    procedure: Option<string>)

  /** The state after a call, and its value or exception. The state changes
      even when the call throws (cleared parameters, partial SQL text). */
  datatype Step<T> = Step(state: State, result: Result<T, Error>)

  /** A freshly connected `FacilDB` of the given dialect: the field
      initialisers plus the empty parameter list `setConnection` creates. */
  function Connected(dialect: Option<DbType>): (r: State)
    ensures r.params == [] && r.operation == None && r.dialect == dialect
    ensures r.from == Some("") && r.orderBy == Some("") && r.tableNames == Some("")
    ensures r.whereSel == Some("") && r.whereUpd == Some("") && r.whereDel == Some("")
    ensures r.sqlSel == None && r.sqlIns == None && r.sqlUpd == None && r.sqlDel == None
    ensures r.fieldsSel == None && r.aliases == None && r.maxResults == 0
    ensures r.fieldsIns == None && r.fieldsUpd == None && r.sqlCre == None
    ensures r.selHandle == None && r.creHandle == None && r.callable == None
    ensures r.schema == None && r.lastSql == None && r.procedure == None
  {
    State(params := [], fieldsSel := None, aliases := None, fieldsIns := None, fieldsUpd := None,
          operation := None, from := Some(""), whereSel := Some(""), whereUpd := Some(""),
          whereDel := Some(""), orderBy := Some(""), tableNames := Some(""), maxResults := 0,
          sqlSel := None, sqlIns := None, sqlUpd := None, sqlDel := None, sqlCre := None,
          selHandle := None, creHandle := None, callable := None, schema := None, lastSql := None,
          dialect := dialect, procedure := None)
  }

  /** The parts of the state the command setters `select`, `insert`,
      `update` and `delete` never touch. */
  predicate KeepsShared(a: State, b: State) {
    a.params == b.params && a.from == b.from && a.orderBy == b.orderBy
    && a.maxResults == b.maxResults && a.schema == b.schema && a.lastSql == b.lastSql
    && a.dialect == b.dialect && a.fieldsIns == b.fieldsIns && a.fieldsUpd == b.fieldsUpd
    && a.sqlCre == b.sqlCre && a.creHandle == b.creHandle && a.callable == b.callable
    && a.procedure == b.procedure
  }

  /** The command `sql(text)` is classified as: the first of the keywords
      select, insert, update, delete, create that occurs anywhere in the
      lower-cased text, or none. */
  function Classify(text: string): (r: Option<Op>)
    ensures r.Some? ==> r.value in {Select, Insert, Update, Delete, Create}
    ensures r == Some(Select) <==> Text.Contains(Text.ToLower(text), "select")
    ensures r == None <==>
              !Text.Contains(Text.ToLower(text), "select") && !Text.Contains(Text.ToLower(text), "insert")
              && !Text.Contains(Text.ToLower(text), "update") && !Text.Contains(Text.ToLower(text), "delete")
              && !Text.Contains(Text.ToLower(text), "create")
    ensures r == Some(Insert) <==>
              !Text.Contains(Text.ToLower(text), "select") && Text.Contains(Text.ToLower(text), "insert")
    ensures r == Some(Update) <==>
              !Text.Contains(Text.ToLower(text), "select") && !Text.Contains(Text.ToLower(text), "insert")
              && Text.Contains(Text.ToLower(text), "update")
    ensures r == Some(Delete) <==>
              !Text.Contains(Text.ToLower(text), "select") && !Text.Contains(Text.ToLower(text), "insert")
              && !Text.Contains(Text.ToLower(text), "update") && Text.Contains(Text.ToLower(text), "delete")
    ensures r == Some(Create) <==>
              !Text.Contains(Text.ToLower(text), "select") && !Text.Contains(Text.ToLower(text), "insert")
              && !Text.Contains(Text.ToLower(text), "update") && !Text.Contains(Text.ToLower(text), "delete")
              && Text.Contains(Text.ToLower(text), "create")
  {
    var low := Text.ToLower(text);
    if Text.Contains(low, "select") then Some(Select)
    else if Text.Contains(low, "insert") then Some(Insert)
    else if Text.Contains(low, "update") then Some(Update)
    else if Text.Contains(low, "delete") then Some(Delete)
    else if Text.Contains(low, "create") then Some(Create)
    else None
  }

  /** The keywords `sql` searches for, in the order it tries them. */
  const Keywords: seq<(string, Op)> :=
    [("select", Select), ("insert", Insert), ("update", Update), ("delete", Delete), ("create", Create)]

  /** Reference classification: the command of the first keyword in `kws`
      that occurs in `low`; the one found is preceded only by absent ones. */
  function FirstKeyword(low: string, kws: seq<(string, Op)>): (r: Option<Op>)
    ensures r.None? <==> forall i :: 0 <= i < |kws| ==> !Text.Contains(low, kws[i].0)
    ensures r.Some? ==> exists i :: 0 <= i < |kws| && Text.Contains(low, kws[i].0) && r.value == kws[i].1
                                    && forall j :: 0 <= j < i ==> !Text.Contains(low, kws[j].0)
    decreases |kws|
  {
    if |kws| == 0 then None
    else if Text.Contains(low, kws[0].0) then
      Some(kws[0].1)
    else
      var r := FirstKeyword(low, kws[1..]);
      if r.Some? then
        var i :| 0 <= i < |kws[1..]| && Text.Contains(low, kws[1..][i].0) && r.value == kws[1..][i].1
                 && forall j :: 0 <= j < i ==> !Text.Contains(low, kws[1..][j].0);
        assert forall j :: 0 <= j < i + 1 ==> !Text.Contains(low, kws[j].0);
        r
      else r
  }

  /** `sql`'s classification is the first of its keywords, in order, that
      the lower-cased text contains. */
  lemma ClassifyIsFirstKeyword(text: string)
    ensures Classify(text) == FirstKeyword(Text.ToLower(text), Keywords)
  {
    var low := Text.ToLower(text);
    var k := Keywords;
    assert k[1..][1..][1..][1..][1..] == [];
  }

  /** `sql(text)`: a hand-written statement. The classified command's cache
      takes the text verbatim and its handle is closed; an unclassified text
      keeps the previous command. Parameters and aliases are always dropped,
      the SELECT where fragment nulled and `lastSQL` set to the text. */
  function Sql(st: State, text: string): (r: State)
    ensures r.operation == (if Classify(text).Some? then Classify(text) else st.operation)
    ensures Classify(text) == Some(Select) ==> r.sqlSel == Some(text) && r.selHandle == None
    ensures Classify(text) == Some(Insert) ==> r.sqlIns == Some(text)
    ensures Classify(text) == Some(Update) ==> r.sqlUpd == Some(text)
    ensures Classify(text) == Some(Delete) ==> r.sqlDel == Some(text)
    ensures Classify(text) == Some(Create) ==> r.sqlCre == Some(text) && r.creHandle == None
    ensures Classify(text) != Some(Select) ==> r.sqlSel == st.sqlSel && r.selHandle == st.selHandle
    ensures r.params == [] && r.aliases == None && r.whereSel == None && r.lastSql == Some(text)
    ensures r.fieldsSel == st.fieldsSel && r.from == st.from && r.orderBy == st.orderBy
    ensures r.maxResults == st.maxResults && r.schema == st.schema && r.dialect == st.dialect
    ensures Classify(text) != Some(Insert) ==> r.sqlIns == st.sqlIns
    ensures Classify(text) != Some(Update) ==> r.sqlUpd == st.sqlUpd
    ensures Classify(text) != Some(Delete) ==> r.sqlDel == st.sqlDel
    ensures Classify(text) != Some(Create) ==> r.sqlCre == st.sqlCre && r.creHandle == st.creHandle
    ensures r.(operation := st.operation, sqlSel := st.sqlSel, selHandle := st.selHandle,
               sqlIns := st.sqlIns, sqlUpd := st.sqlUpd, sqlDel := st.sqlDel, sqlCre := st.sqlCre,
               creHandle := st.creHandle, aliases := st.aliases, whereSel := st.whereSel,
               params := st.params, lastSql := st.lastSql) == st
  {
    var st1 :=
      match Classify(text)
      case Some(Select) => st.(operation := Some(Select), sqlSel := Some(text), selHandle := None)
      case Some(Insert) => st.(operation := Some(Insert), sqlIns := Some(text))
      case Some(Update) => st.(operation := Some(Update), sqlUpd := Some(text))
      case Some(Delete) => st.(operation := Some(Delete), sqlDel := Some(text))
      case Some(Create) => st.(operation := Some(Create), sqlCre := Some(text), creHandle := None)
      case _ => st;
    st1.(aliases := None, whereSel := None, params := [], lastSql := Some(text))
  }

  /** `call(procedure)`: prepares the callable statement "{call <procedure>}". */
  function Call(st: State, procedure: string): (r: State)
    ensures r.operation == Some(Procedure) && r.procedure == Some(procedure)
    ensures r.callable == Some("{call " + procedure + "}")
    ensures r.params == st.params && r.sqlSel == st.sqlSel && r.fieldsSel == st.fieldsSel
    ensures r.(operation := st.operation, procedure := st.procedure, callable := st.callable) == st
  {
    st.(operation := Some(Procedure), procedure := Some(procedure),
        callable := Some("{call " + procedure + "}"))
  }

  /** `param(value)`: appends a positional parameter. */
  function Param(st: State, value: Value): (r: State)
    ensures |r.params| == |st.params| + 1 && r.params[|st.params|] == value
    ensures r.params[..|st.params|] == st.params
    ensures r.(params := st.params) == st
  {
    st.(params := st.params + [value])
  }

  /** `param(index, value)`: sets the 0-based parameter `index`, replacing
      an existing entry, appending at the end, or padding the gap with
      nulls. A negative index makes the list operation throw. */
  function ParamAt(st: State, index: int, value: Value): (r: Result<State, Error>)
    ensures index < 0 <==> r == Err(IndexOutOfBounds)
    ensures r.Ok? ==> r.value.(params := st.params) == st
    ensures r.Ok? ==> |r.value.params| == (if index < |st.params| then |st.params| else index + 1)
    ensures r.Ok? ==> r.value.params[index] == value
    ensures r.Ok? ==> forall j :: 0 <= j < |st.params| && j != index ==> r.value.params[j] == st.params[j]
    ensures r.Ok? ==> forall j :: |st.params| <= j < index ==> r.value.params[j] == JNull
  {
    var size := |st.params|;
    if index < 0 then Err(IndexOutOfBounds)
    else if index < size then Ok(st.(params := st.params[index := value]))
    else if index == size then Ok(st.(params := st.params + [value]))
    else Ok(st.(params := st.params + seq(index - size, _ => JNull) + [value]))
  }

  /** Setting the next free position is the same as appending. */
  lemma ParamAtEndAppends(st: State, value: Value)
    ensures ParamAt(st, |st.params|, value) == Ok(Param(st, value))
  {
  }

  /** Out-parameter kinds of `outParam`. `Other` is any further constant of
      the (not modelled) `DataType` enum, which the switch does not list. */
  datatype DataType = BOOLEAN | CLOB | DATE | DECIMAL | INTEGER | LONG | BIT | CHAR | FLOAT | TIME | TIMESTAMP | Other

  /** The `java.sql.Types` code registered for an out-parameter kind. */
  function SqlTypeCode(t: DataType): (r: int)
    ensures t == DECIMAL ==> r == 8          // DOUBLE, not DECIMAL
    ensures t == Other ==> r == 12           // VARCHAR
    ensures t != DECIMAL && t != Other ==> r != 8 && r != 12
  {
    match t
    case BOOLEAN => 16
    case CLOB => 2005
    case DATE => 91
    case DECIMAL => 8
    case INTEGER => 4
    case LONG => -5
    case BIT => -7
    case CHAR => 1
    case FLOAT => 6
    case TIME => 92
    case TIMESTAMP => 93
    case Other => 12
  }

  /** An out-parameter registration: 1-based JDBC position and type code. */
  datatype Registration = Registration(position: int, sqlType: int)

  /** `outParam(index, type, value)`: without a callable statement nothing
      happens; otherwise the parameter is registered at `index + 1` and the
      value is set at the 0-based `index` as `param(index, value)` does. */
  function OutParam(st: State, index: int, t: DataType, value: Value): (r: Step<Option<Registration>>)
    ensures st.callable.None? ==> r == Step(st, Ok(None))
    ensures st.callable.Some? && index >= 0 ==>
              r.result == Ok(Some(Registration(index + 1, SqlTypeCode(t))))
              && Ok(r.state) == ParamAt(st, index, value)
    ensures st.callable.Some? && index < 0 ==> r.result == Err(IndexOutOfBounds) && r.state == st
  {
    if st.callable.None? then Step(st, Ok(None))
    else
      match ParamAt(st, index, value)
      case Err(e) => Step(st, Err(e))
      case Ok(st1) => Step(st1, Ok(Some(Registration(index + 1, SqlTypeCode(t)))))
  }

  /** `resetInternalVariables()`: back to an empty command. Everything is
      cleared except the schema, `lastSQL`, the dialect and the procedure
      name; the where fragments become empty rather than null. */
  function Reset(st: State): (r: State)
    ensures r.operation == Some(Empty) && r.params == []
    ensures r.fieldsSel == None && r.aliases == None && r.fieldsIns == None && r.fieldsUpd == None
    ensures r.from == Some("") && r.orderBy == Some("") && r.tableNames == Some("")
    ensures r.whereSel == Some("") && r.whereUpd == Some("") && r.whereDel == Some("")
    ensures r.sqlSel == Some("") && r.sqlIns == Some("") && r.sqlUpd == Some("")
    ensures r.sqlDel == Some("") && r.sqlCre == Some("") && r.maxResults == 0
    ensures r.selHandle == None && r.creHandle == None && r.callable == None
    ensures r.schema == st.schema && r.lastSql == st.lastSql
    ensures r.dialect == st.dialect && r.procedure == st.procedure
  {
    State(params := [], fieldsSel := None, aliases := None, fieldsIns := None, fieldsUpd := None,
          operation := Some(Empty), from := Some(""), whereSel := Some(""), whereUpd := Some(""),
          whereDel := Some(""), orderBy := Some(""), tableNames := Some(""), maxResults := 0,
          sqlSel := Some(""), sqlIns := Some(""), sqlUpd := Some(""), sqlDel := Some(""),
          sqlCre := Some(""), selHandle := None, creHandle := None, callable := None,
          schema := st.schema, lastSql := st.lastSql, dialect := st.dialect, procedure := st.procedure)
  }

  /** `fields(array)`: the field list of the current command. SELECT and
      PROCEDURE share the select list; other commands ignore the call; a
      null command makes the switch throw. */
  function Fields(st: State, fields: Option<seq<string>>): (r: Result<State, Error>)
    ensures st.operation.None? <==> r == Err(NullPointer)
    ensures st.operation == Some(Select) || st.operation == Some(Procedure) ==> r == Ok(st.(fieldsSel := fields))
    ensures st.operation == Some(Insert) ==> r == Ok(st.(fieldsIns := fields))
    ensures st.operation == Some(Update) ==> r == Ok(st.(fieldsUpd := fields))
    ensures st.operation in {Some(Delete), Some(Create), Some(Empty)} ==> r == Ok(st)
  {
    match st.operation
    case None => Err(NullPointer)
    case Some(Select) => Ok(st.(fieldsSel := fields))
    case Some(Procedure) => Ok(st.(fieldsSel := fields))
    case Some(Insert) => Ok(st.(fieldsIns := fields))
    case Some(Update) => Ok(st.(fieldsUpd := fields))
    case Some(_) => Ok(st)
  }

  /** `fields(text)`: the comma-separated list, each entry trimmed. */
  function FieldsText(st: State, text: string): (r: Result<State, Error>)
    ensures st.operation.None? <==> r == Err(NullPointer)
    ensures st.operation == Some(Select) || st.operation == Some(Procedure) ==>
              r.Ok? && r.value.fieldsSel == Some(Text.SplitTrim(text)) && r.value.(fieldsSel := st.fieldsSel) == st
    ensures st.operation == Some(Insert) ==>
              r.Ok? && r.value.fieldsIns == Some(Text.SplitTrim(text)) && r.value.(fieldsIns := st.fieldsIns) == st
    ensures st.operation == Some(Update) ==>
              r.Ok? && r.value.fieldsUpd == Some(Text.SplitTrim(text)) && r.value.(fieldsUpd := st.fieldsUpd) == st
    ensures st.operation in {Some(Delete), Some(Create), Some(Empty)} ==> r == Ok(st)
  {
    Fields(st, Some(Text.SplitTrim(text)))
  }

  /** `sqlAlias(array)`: the column labels of the SELECT list. */
  function SqlAlias(st: State, aliases: Option<seq<string>>): (r: State)
    ensures r.aliases == aliases && r.(aliases := st.aliases) == st
  {
    st.(aliases := aliases)
  }

  /** `sqlAlias(text)`: the comma-separated labels, each trimmed. */
  function SqlAliasText(st: State, text: string): (r: State)
    ensures r.aliases == Some(Text.SplitTrim(text)) && r.(aliases := st.aliases) == st
  {
    SqlAlias(st, Some(Text.SplitTrim(text)))
  }

  /** `schema(name)`. */
  function Schema(st: State, schema: Option<string>): (r: State)
    ensures r.schema == schema && r.(schema := st.schema) == st
  {
    st.(schema := schema)
  }

  /** `select(array)`: starts a SELECT with an empty cache, a closed handle,
      the given fields, and no aliases or where fragment. */
  function SelectFields(st: State, fields: Option<seq<string>>): (r: State)
    ensures r.operation == Some(Select) && r.sqlSel == Some("") && r.selHandle == None
    ensures r.fieldsSel == fields && r.aliases == None && r.whereSel == None
    ensures KeepsShared(r, st)
    ensures r.sqlIns == st.sqlIns && r.sqlUpd == st.sqlUpd && r.sqlDel == st.sqlDel
    ensures r.whereUpd == st.whereUpd && r.whereDel == st.whereDel && r.tableNames == st.tableNames
  {
    st.(operation := Some(Select), sqlSel := Some(""), selHandle := None,
        fieldsSel := fields, aliases := None, whereSel := None)
  }

  /** `select(text)`: the comma-separated fields, each trimmed. */
  function SelectText(st: State, text: string): (r: State)
    ensures r.operation == Some(Select) && r.sqlSel == Some("") && r.selHandle == None
    ensures r.fieldsSel == Some(Text.SplitTrim(text)) && r.aliases == None && r.whereSel == None
    ensures r.(operation := st.operation, sqlSel := st.sqlSel, selHandle := st.selHandle,
               fieldsSel := st.fieldsSel, aliases := st.aliases, whereSel := st.whereSel) == st
  {
    SelectFields(st, Some(Text.SplitTrim(text)))
  }

  /** `maxResults(n)`. */
  function MaxResults(st: State, n: Int32): (r: State)
    ensures r.maxResults == n && r.(maxResults := st.maxResults) == st
  {
    st.(maxResults := n)
  }

  /** `insert(table)`: starts an INSERT with an empty cache. Unlike
      `update` and `delete` it leaves every where fragment alone. */
  function InsertInto(st: State, table: Option<string>): (r: State)
    ensures r.operation == Some(Insert) && r.sqlIns == Some("") && r.tableNames == table
    ensures KeepsShared(r, st)
    ensures r.sqlSel == st.sqlSel && r.selHandle == st.selHandle && r.sqlUpd == st.sqlUpd && r.sqlDel == st.sqlDel
    ensures r.whereSel == st.whereSel && r.whereUpd == st.whereUpd && r.whereDel == st.whereDel
    ensures r.fieldsSel == st.fieldsSel && r.aliases == st.aliases
  {
    st.(operation := Some(Insert), sqlIns := Some(""), tableNames := table)
  }

  /** `update(table)`: starts an UPDATE with an empty cache and a null
      where fragment. */
  function UpdateTable(st: State, table: Option<string>): (r: State)
    ensures r.operation == Some(Update) && r.sqlUpd == Some("") && r.tableNames == table
    ensures r.whereUpd == None
    ensures KeepsShared(r, st)
    ensures r.sqlSel == st.sqlSel && r.selHandle == st.selHandle && r.sqlIns == st.sqlIns && r.sqlDel == st.sqlDel
    ensures r.whereSel == st.whereSel && r.whereDel == st.whereDel
    ensures r.fieldsSel == st.fieldsSel && r.aliases == st.aliases
  {
    st.(operation := Some(Update), sqlUpd := Some(""), tableNames := table, whereUpd := None)
  }

  /** `delete(table)`: starts a DELETE with an empty cache and a null
      where fragment. */
  function DeleteFrom(st: State, table: Option<string>): (r: State)
    ensures r.operation == Some(Delete) && r.sqlDel == Some("") && r.tableNames == table
    ensures r.whereDel == None
    ensures KeepsShared(r, st)
    ensures r.sqlSel == st.sqlSel && r.selHandle == st.selHandle && r.sqlIns == st.sqlIns && r.sqlUpd == st.sqlUpd
    ensures r.whereSel == st.whereSel && r.whereUpd == st.whereUpd
    ensures r.fieldsSel == st.fieldsSel && r.aliases == st.aliases
  {
    st.(operation := Some(Delete), sqlDel := Some(""), tableNames := table, whereDel := None)
  }

  /** `operationSelect()` … `operationCreate()`: only the command changes. */
  function SetOperation(st: State, op: Op): (r: State)
    requires op in {Select, Insert, Update, Delete, Create}
    ensures r.operation == Some(op) && r.(operation := st.operation) == st
  {
    st.(operation := Some(op))
  }

  /** `from(tables)`. */
  function From(st: State, from: Option<string>): (r: State)
    ensures r.from == from && r.(from := st.from) == st
  {
    st.(from := from)
  }

  /** `where(fragment)`: the where fragment of the current command; INSERT,
      CREATE, PROCEDURE and EMPTY ignore it; a null command throws. */
  function Where(st: State, fragment: Option<string>): (r: Result<State, Error>)
    ensures st.operation.None? <==> r == Err(NullPointer)
    ensures st.operation == Some(Select) ==> r == Ok(st.(whereSel := fragment))
    ensures st.operation == Some(Update) ==> r == Ok(st.(whereUpd := fragment))
    ensures st.operation == Some(Delete) ==> r == Ok(st.(whereDel := fragment))
    ensures st.operation in {Some(Insert), Some(Create), Some(Procedure), Some(Empty)} ==> r == Ok(st)
  {
    match st.operation
    case None => Err(NullPointer)
    case Some(Select) => Ok(st.(whereSel := fragment))
    case Some(Update) => Ok(st.(whereUpd := fragment))
    case Some(Delete) => Ok(st.(whereDel := fragment))
    case Some(_) => Ok(st)
  }

  /** `orderBy(clause)`. */
  function OrderBy(st: State, orderBy: Option<string>): (r: State)
    ensures r.orderBy == orderBy && r.(orderBy := st.orderBy) == st
  {
    st.(orderBy := orderBy)
  }

  /** The keyword search is by containment, so an UPDATE whose text
      mentions "selected" is taken for a SELECT. */
  lemma ContainedKeywordWins(st: State, text: string)
    requires text == "update t set selected = 1"
    ensures Sql(st, text).operation == Some(Select)
  {
    var low := Text.ToLower(text);
    assert low[13..19] == text[13..19];
    assert text[13..19] == "select";
    assert Text.OccursAt(low, "select", 13);
  }
}

=== FILE: column.dfy ===
/** A table column as read from the database catalogue, with the naming
    helpers a code generator asks it for. */
module Columns {
  import opened Wrappers
  import opened Errors
  import Text
  import StringUtil
  import opened Json

  datatype Column = Column(
    columnName: string,
    columnType: string,
    columnSize: Int32,
    fkTableName: Option<string>,   // the referenced table, or null
    nullable: bool,
    isPrimaryKey: bool,
    isIndexed: bool)

  /** `new Column()`: empty name and type, every other field zero, false or null. */
  function NewColumn(): (r: Column)
    ensures r.columnName == "" && r.columnType == ""
    ensures r.columnSize == 0 && r.fkTableName == None
    ensures !r.nullable && !r.isPrimaryKey && !r.isIndexed
  {
    Column("", "", 0, None, false, false, false)
  }

  /** `new Column(name, type)`: the two given fields, the rest as `new Column()`. */
  function ColumnOf(name: string, columnType: string): (r: Column)
    ensures r.columnName == name && r.columnType == columnType
    ensures r.columnSize == 0 && r.fkTableName == None
    ensures !r.nullable && !r.isPrimaryKey && !r.isIndexed
  {
    NewColumn().(columnName := name, columnType := columnType)
  }

  /** `new Column(JSONObject)`: the four serialised fields are read with the
      lenient `opt*` getters; key, index and foreign-key flags stay default. */
  function ColumnFromJson(js: Obj, render: Json -> string): (r: Column)
    ensures r.columnName == OptString(js, "columnName", render)
    ensures r.columnType == OptString(js, "columnType", render)
    ensures r.columnSize == OptInt(js, "columnSize")
    ensures r.nullable == OptBoolean(js, "nullable")
    ensures r.fkTableName == None && !r.isPrimaryKey && !r.isIndexed
  {
    NewColumn().(
      columnName := OptString(js, "columnName", render),
      columnType := OptString(js, "columnType", render),
      columnSize := OptInt(js, "columnSize"),
      nullable := OptBoolean(js, "nullable"))
  }

  /** `getVarName()`: the lower-camel-case name, with the reserved word
      "class" replaced by "clazz". */
  function VarName(c: Column): (r: Result<string, Error>)
    ensures r.Ok? <==> StringUtil.VarNameToCamelCase(c.columnName).Ok?
    ensures r.Err? ==> r == StringUtil.VarNameToCamelCase(c.columnName)
    ensures r.Ok? ==> r.value != "class"
    ensures r.Ok? && StringUtil.VarNameToCamelCase(c.columnName).value != "class"
            ==> r.value == StringUtil.VarNameToCamelCase(c.columnName).value
    ensures StringUtil.VarNameToCamelCase(c.columnName) == Ok("class") ==> r == Ok("clazz")
  {
    var v :- StringUtil.VarNameToCamelCase(c.columnName);
    if v == "class" then Ok("clazz") else Ok(v)
  }

  /** `getVarNameNoIdSuffix()`: the variable name cut at its last "Id",
      unless that "Id" is at the very start. */
  function VarNameNoIdSuffix(c: Column): (r: Result<string, Error>)
    ensures r.Ok? <==> VarName(c).Ok?
    ensures r.Ok? ==> Text.StartsWith(VarName(c).value, r.value)
    ensures r.Ok? ==> (r.value == VarName(c).value <==> Text.LastIndexOf(VarName(c).value, "Id") <= 0)
    ensures r.Ok? && r.value != VarName(c).value ==>
              Text.OccursAt(VarName(c).value, "Id", |r.value|)
              && forall j :: |r.value| < j <= |VarName(c).value| ==> !Text.OccursAt(VarName(c).value, "Id", j)
  {
    var name :- VarName(c);
    var p := Text.LastIndexOf(name, "Id");
    if p > 0 then Ok(name[..p]) else Ok(name)
  }

  /** `getColumnNameCamelCase()`. */
  function ColumnNameCamelCase(c: Column): (r: Result<string, Error>)
    ensures r.Ok? <==> forall i :: 0 <= i < |Text.JavaSplit(c.columnName, '_')| ==> Text.JavaSplit(c.columnName, '_')[i] != ""
    ensures r.Err? ==> r.error == IndexOutOfBounds
    ensures r.Ok? ==> StringUtil.CamelCased(Text.JavaSplit(c.columnName, '_'), true, r.value)
    ensures r.Ok? ==> |r.value| == |c.columnName| - Text.Count('_', c.columnName)
    ensures r.Ok? ==> '_' !in r.value
  {
    StringUtil.ToCamelCaseShape(c.columnName);
    StringUtil.ToCamelCase(c.columnName)
  }

  /** `getFkTableNameAsCamelCase()`: fails on a column without a foreign key. */
  function FkTableNameAsCamelCase(c: Column): (r: Result<string, Error>)
    ensures c.fkTableName.None? <==> r == Err(NullPointer)
    ensures c.fkTableName.Some? ==>
              var pieces := Text.JavaSplit(c.fkTableName.value, '_');
              && (r.Ok? <==> forall i :: 0 <= i < |pieces| ==> pieces[i] != "")
              && (r.Err? ==> r.error == IndexOutOfBounds)
              && (r.Ok? ==> StringUtil.CamelCased(pieces, true, r.value))
    ensures r.Ok? ==> '_' !in r.value
  {
    match c.fkTableName
    case None => Err(NullPointer)
    case Some(fk) =>
      StringUtil.ToCamelCaseShape(fk);
      StringUtil.ToCamelCase(fk)
  }

  /** The first two characters of every piece, concatenated; a piece shorter
      than two characters makes `substring(0, 2)` throw. */
  function TwoCharPrefixes(values: seq<string>): (r: Result<string, Error>)
    ensures r.Ok? <==> forall i :: 0 <= i < |values| ==> |values[i]| >= 2
    ensures r.Err? ==> r.error == IndexOutOfBounds
    ensures r.Ok? ==> |r.value| == 2 * |values|
    ensures r.Ok? ==> forall i :: 0 <= i < |values| ==> r.value[2 * i..2 * i + 2] == values[i][..2]
  {
    if |values| == 0 then Ok("")
    else if |values[0]| < 2 then Err(IndexOutOfBounds)
    else
      match TwoCharPrefixes(values[1..])
      case Err(e) => Err(e)
      case Ok(rest) =>
        var r := values[0][..2] + rest;
        assert forall i :: 1 <= i < |values| ==> r[2 * i..2 * i + 2] == rest[2 * (i - 1)..2 * (i - 1) + 2];
        Ok(r)
  }

  /** `getNestedId()`: an abbreviation of the referenced table's name. A name
      without '_' gives its first four characters; otherwise the first two
      characters of each '_'-separated piece. */
  function NestedId(c: Column): (r: Result<string, Error>)
    ensures c.fkTableName.None? ==> r == Err(NullPointer)
    ensures c.fkTableName.Some? && '_' !in c.fkTableName.value ==>
              r.Ok? && Text.StartsWith(c.fkTableName.value, r.value)
              && |r.value| == if |c.fkTableName.value| > 4 then 4 else |c.fkTableName.value|
  {
    match c.fkTableName
    case None => Err(NullPointer)
    case Some(fk) =>
      var values := Text.JavaSplit(fk, '_');
      if |values| == 1 then
        Ok(if |values[0]| > 4 then values[0][..4] else values[0])
      else
        TwoCharPrefixes(values)
  }

  /** `getJsonType(type)`: the JSON schema type name for a column's Java type. */
  function JsonType(columnType: string): (r: string)
    ensures r in {"String", "Int", "Double", "Long", "Boolean"}
    ensures r == "Int" <==> columnType == "Integer"
    ensures r == "Double" <==> columnType == "BigDecimal"
    ensures r == "Long" <==> columnType == "Long"
    ensures r == "Boolean" <==> columnType == "Boolean"
  {
    match columnType
    case "String" => "String"
    case "Integer" => "Int"
    case "BigDecimal" => "Double"
    case "Long" => "Long"
    case "Boolean" => "Boolean"
    case "Date" => "String"
    case _ => "String"
  }

  /** The JSON object of a column, restricted to the four properties that
      `Column(JSONObject)` reads back. */
  function ColumnToJson(c: Column): (r: Obj)
    ensures "columnName" in r && r["columnName"] == JStr(c.columnName)
    ensures "columnType" in r && r["columnType"] == JStr(c.columnType)
    ensures "columnSize" in r && r["columnSize"] == JNum(c.columnSize)
    ensures "nullable" in r && r["nullable"] == JBool(c.nullable)
  {
    map[
      "columnName" := JStr(c.columnName),
      "columnType" := JStr(c.columnType),
      "columnSize" := JNum(c.columnSize),
      "nullable" := JBool(c.nullable)]
  }

  /** Reading back a serialised column restores the four fields the JSON
      constructor reads and drops the foreign-key, key and index flags. */
  lemma ColumnJsonRoundTrip(c: Column, render: Json -> string)
    ensures ColumnFromJson(ColumnToJson(c), render)
         == c.(fkTableName := None, isPrimaryKey := false, isIndexed := false)
  {
    ReadStored(ColumnToJson(c), c, render);
  }

  /** The JSON constructor reads back any object holding a column's four
      stored properties as that column's name, type, size and nullability. */
  lemma ReadStored(js: Obj, c: Column, render: Json -> string)
    requires "columnName" in js && js["columnName"] == JStr(c.columnName)
    requires "columnType" in js && js["columnType"] == JStr(c.columnType)
    requires "columnSize" in js && js["columnSize"] == JNum(c.columnSize)
    requires "nullable" in js && js["nullable"] == JBool(c.nullable)
    ensures ColumnFromJson(js, render)
         == c.(fkTableName := None, isPrimaryKey := false, isIndexed := false)
  {
    assert OptInt(js, "columnSize") == WrapInt32(c.columnSize);
  }

  /** A foreign-key column: "publisher_id" names the variable "publisherId",
      whose "Id"-less form is "publisher". */
  lemma PublisherIdNames(c: Column)
    requires c.columnName == "publisher_id"
    ensures VarName(c) == Ok("publisherId")
    ensures VarNameNoIdSuffix(c) == Ok("publisher")
  {
    PublisherVarName(c);
    var n := "publisherId";
    NoIdSuffixOf(c, n);
    assert n[..|n| - 2] == "publisher";
  }

  lemma PublisherVarName(c: Column)
    requires c.columnName == "publisher_id"
    ensures VarName(c) == Ok("publisherId")
  {
    StringUtil.PublisherIdExample(c.columnName);
  }

  /** A variable name ending in "Id" (after at least one character) loses
      exactly that suffix. */
  lemma NoIdSuffixOf(c: Column, n: string)
    requires VarName(c) == Ok(n) && |n| > 2 && n[|n| - 2..] == "Id"
    ensures VarNameNoIdSuffix(c) == Ok(n[..|n| - 2])
  {
    Text.EndsWithLastIndex(n, "Id");
  }

  /** A column literally named "class" gets the variable name "clazz". */
  lemma ClassIsRenamed()
    ensures VarName(ColumnOf("class", "String")) == Ok("clazz")
  {
    var s := "class";
    StringUtil.JavaSplitNoDelimiter(s);
    StringUtil.CasePieceOf(s, false, s);
    StringUtil.CamelPiecesOne(s, false);
  }

  /** A multi-word referenced table is abbreviated two letters per word; a
      one-letter word makes the abbreviation fail. */
  lemma NestedIdExamples()
    ensures NestedId(NewColumn().(fkTableName := Some("book_publisher"))) == Ok("bopu")
    ensures NestedId(NewColumn().(fkTableName := Some("a_book"))) == Err(IndexOutOfBounds)
  {
    NestedIdBookPublisher();
    NestedIdShortWord();
  }

  lemma NestedIdBookPublisher()
    ensures NestedId(NewColumn().(fkTableName := Some("book_publisher"))) == Ok("bopu")
  {
    var a, b := "book", "publisher";
    assert a + "_" + b == "book_publisher";
    assert a[..2] + b[..2] == "bopu";
    NestedIdTwoWords(a, b);
  }

  lemma NestedIdShortWord()
    ensures NestedId(NewColumn().(fkTableName := Some("a_book"))) == Err(IndexOutOfBounds)
  {
    StringUtil.JavaSplitTwo("a", "book");
    assert "a" + "_" + "book" == "a_book";
  }

  /** A name of two words of at least two letters each, joined by '_'. */
  lemma NestedIdTwoWords(a: string, b: string)
    requires '_' !in a && '_' !in b && |a| >= 2 && |b| >= 2
    ensures NestedId(NewColumn().(fkTableName := Some(a + "_" + b))) == Ok(a[..2] + b[..2])
  {
    StringUtil.JavaSplitTwo(a, b);
    TwoCharPrefixesTwo(a, b);
  }

  lemma TwoCharPrefixesTwo(a: string, b: string)
    requires |a| >= 2 && |b| >= 2
    ensures TwoCharPrefixes([a, b]) == Ok(a[..2] + b[..2])
  {
    assert [b][1..] == [];
    assert TwoCharPrefixes([b]) == Ok(b[..2] + "");
    assert b[..2] + "" == b[..2];
    assert [a, b][1..] == [b];
  }
}

=== FILE: compiler.dfy ===
/** The SQL compilers `prepareSelect`, `prepareInsert`, `prepareUpdate` and
    `prepareDelete`, with `validSqlAlias` and the `get*` accessors.

    Each compiler appends to its command's cached text (a `StringBuilder`
    in the source) and may throw part-way, leaving what it had appended
    in the cache. A null cache makes the first append throw. */
module Compiler {
  import opened Wrappers
  import opened Errors
  import opened Text
  import opened DataBaseType
  import opened Builder

  const FieldCountMismatch := "Numero de campos informados diferente do numero de SQL Aliases"
  const FromMissing := "Nao foi informado o FROM para o SELECT."
  const TableNameMissing := "Table name nto informed"

  /** The SQL exception the compilers throw with a message of their own. */
  function Fail(message: string): Error {
    SqlError(Some(message))
  }

  /** The alias a field gets when none were set: the field itself, except
      that Pervasive replaces each literal two-character sequence `\.`. */
  function DefaultAlias(field: string, dialect: Option<DbType>): string {
    if dialect == Some(PERVASIVE_PSQL) then Replace(field, "\\.", "_") else field
  }

  function DefaultAliases(fields: seq<string>, dialect: Option<DbType>): (r: seq<string>)
    ensures |r| == |fields|
    ensures forall i :: 0 <= i < |fields| ==> r[i] == DefaultAlias(fields[i], dialect)
  {
    seq(|fields|, i requires 0 <= i < |fields| => DefaultAlias(fields[i], dialect))
  }

  /** `validSqlAlias()`: when no aliases were set they default to the
      select fields (which must then exist); set aliases are kept. */
  function ValidSqlAlias(st: State): (r: Result<State, Error>)
    ensures r.Err? <==> st.aliases.None? && st.fieldsSel.None?
    ensures r.Err? ==> r.error == NullPointer
    ensures r.Ok? ==> r.value.(aliases := st.aliases) == st && r.value.aliases.Some?
    ensures st.aliases.Some? ==> r == Ok(st)
    ensures st.aliases.None? && r.Ok? ==>
              |r.value.aliases.value| == |st.fieldsSel.value|
              && forall i :: 0 <= i < |st.fieldsSel.value| ==>
                   r.value.aliases.value[i] == DefaultAlias(st.fieldsSel.value[i], st.dialect)
  {
    if st.aliases.Some? then Ok(st)
    else if st.fieldsSel.None? then Err(NullPointer)
    else Ok(st.(aliases := Some(DefaultAliases(st.fieldsSel.value, st.dialect))))
  }

  /** Outside Pervasive the default aliases are the fields themselves. */
  lemma DefaultAliasesAreFields(fields: seq<string>, dialect: Option<DbType>)
    requires dialect != Some(PERVASIVE_PSQL)
    ensures DefaultAliases(fields, dialect) == fields
  {
  }

  /** Pervasive replaces only the literal `\.`: a field without it, such as
      a plain qualified name "t.col", is its own alias. */
  lemma PervasiveKeepsPlainField(field: string)
    requires forall j :: 0 <= j <= |field| ==> !OccursAt(field, "\\.", j)
    ensures DefaultAlias(field, Some(PERVASIVE_PSQL)) == field
  {
    ReplaceAbsent(field, "\\.", "_");
  }

  // ---------------------------------------------------------------- SELECT

  function Number(n: Int32): string {
    IntToString(n)
  }

  predicate UsesTop(dialect: Option<DbType>) {
    dialect in {Some(H2), Some(MSSQL), Some(MSSQL_JTDS), Some(PERVASIVE_PSQL), Some(PROGRESS)}
  }

  /** The row limit written right after "select". */
  function TopClause(dialect: Option<DbType>, max: Int32): string {
    if max > 0 && UsesTop(dialect) then "top " + Number(max) + " "
    else if max > 0 && dialect == Some(FIREBIRD) then "first " + Number(max) + " "
    else ""
  }

  /** One entry of the select list. */
  function Item(field: string, alias: string, dialect: Option<DbType>): string {
    if dialect == Some(POSTGRESQL) then field + " as \"" + alias + "\""
    else field + " \"" + alias + "\""
  }

  function Items(fields: seq<string>, aliases: seq<string>, dialect: Option<DbType>): (r: seq<string>)
    requires |fields| == |aliases|
    ensures |r| == |fields|
    ensures forall i :: 0 <= i < |fields| ==> r[i] == Item(fields[i], aliases[i], dialect)
  {
    seq(|fields|, i requires 0 <= i < |fields| => Item(fields[i], aliases[i], dialect))
  }

  /** `"schema".` before a table name, when a schema is set. */
  function SchemaPrefix(schema: Option<string>): string {
    if schema.Some? && schema.value != "" then "\"" + schema.value + "\"." else ""
  }

  /** A where fragment that continues the FROM clause rather than
      filtering: its trimmed lower-case text starts with join, inner or group. */
  predicate ContinuesFrom(w: string) {
    var wh := Trim(ToLower(w));
    StartsWith(wh, "join") || StartsWith(wh, "inner") || StartsWith(wh, "group")
  }

  predicate HasWhere(w: Option<string>) {
    w.Some? && w.value != ""
  }

  function WherePart(w: Option<string>): string {
    if !HasWhere(w) then ""
    else if ContinuesFrom(w.value) then w.value
    else "   where " + w.value
  }

  /** Oracle's row limit, a condition on rownum. */
  function RownumPart(dialect: Option<DbType>, max: Int32, w: Option<string>): string {
    if max > 0 && dialect == Some(ORACLE) then
      (if HasWhere(w) then " and rownum <= " else "   where rownum <= ") + Number(max)
    else ""
  }

  function OrderPart(orderBy: string): string {
    if orderBy == "" then "" else "   order by " + orderBy + "\r\n"
  }

  /** The trailing limit clause. The source's condition is
      `maxResults > 0 && dbType == MYSQL || dbType == POSTGRESQL`, which
      Java groups as `(maxResults > 0 && MYSQL) || POSTGRESQL`. */
  function LimitPart(dialect: Option<DbType>, max: Int32): string {
    if (max > 0 && dialect == Some(MYSQL)) || dialect == Some(POSTGRESQL) then
      "    limit " + Number(max) + "\r\n"
    else ""
  }

  function NolockPart(dialect: Option<DbType>): string {
    if dialect == Some(PROGRESS) then "    with (nolock)\r\n" else ""
  }

  function SelectLead(dialect: Option<DbType>, max: Int32): string {
    "\r\nselect " + TopClause(dialect, max)
  }

  function FromPart(schema: Option<string>, from: string): string {
    "\r\n   from " + SchemaPrefix(schema) + from + "\r\n"
  }

  /** The select keyword, row limit and select list, as a reader would
      write it: the entries joined by commas. With no entries the source's
      removal of the trailing comma removes the keyword's last character. */
  function SelectHead(fields: seq<string>, aliases: seq<string>, dialect: Option<DbType>, max: Int32): string
    requires |fields| == |aliases|
  {
    var lead := SelectLead(dialect, max);
    if |fields| == 0 then DropLast(lead) else lead + Join(Items(fields, aliases, dialect), ",")
  }

  /** The complete SELECT text for a builder state. */
  function SelectText(fields: seq<string>, aliases: seq<string>, st: State): string
    requires |fields| == |aliases|
    requires st.from.Some? && st.orderBy.Some?
  {
    SelectHead(fields, aliases, st.dialect, st.maxResults)
    + FromPart(st.schema, st.from.value)
    + WherePart(st.whereSel) + RownumPart(st.dialect, st.maxResults, st.whereSel) + "\r\n"
    + OrderPart(st.orderBy.value)
    + LimitPart(st.dialect, st.maxResults) + NolockPart(st.dialect)
  }

  /** Whether `prepareSelect` runs to completion. */
  predicate SelectCompiles(st: State) {
    st.sqlSel.Some? && st.fieldsSel.Some?
    && (st.aliases.None? || |st.aliases.value| == |st.fieldsSel.value|)
    && st.from.Some? && st.from.value != "" && st.orderBy.Some?
  }

  /** `prepareSelect()`: appends the SELECT statement to the cached text.
      Only the cache and (through `validSqlAlias`) the aliases change; the
      cache only grows, and on a failure it keeps what was appended.

      The text below is what the call appends to the cache. The source's
      one removal of the trailing comma (`deleteCharAt`) always falls in
      that appended part, which is never empty at that point. */
  function PrepareSelect(st: State): (r: Step<()>)
    ensures r.state.(sqlSel := st.sqlSel, aliases := st.aliases) == st
    ensures st.sqlSel.Some? ==>
              r.state.aliases == (if ValidSqlAlias(st).Ok? then ValidSqlAlias(st).value.aliases else st.aliases)
    ensures st.sqlSel.None? ==> r == Step(st, Err(NullPointer))
    ensures st.sqlSel.Some? ==>
              r.state.sqlSel.Some? && StartsWith(r.state.sqlSel.value, st.sqlSel.value)
              && |r.state.sqlSel.value| > |st.sqlSel.value|
    ensures r.result.Ok? <==> SelectCompiles(st)
    ensures r.result.Err? ==> r.result.error in {NullPointer, Fail(FieldCountMismatch), Fail(FromMissing)}
    ensures st.sqlSel.Some? && st.fieldsSel.Some? && st.aliases.Some?
            && |st.aliases.value| != |st.fieldsSel.value| ==>
              r.result == Err(Fail(FieldCountMismatch))
              && r.state.sqlSel == Some(st.sqlSel.value + SelectLead(st.dialect, st.maxResults))
  {
    match st.sqlSel
    case None => Step(st, Err(NullPointer))
    case Some(cache) =>
      var lead := SelectLead(st.dialect, st.maxResults);
      match ValidSqlAlias(st)
      case Err(e) => Step(st.(sqlSel := Some(cache + lead)), Err(e))
      case Ok(st1) =>
        if st1.fieldsSel.None? then Step(st1.(sqlSel := Some(cache + lead)), Err(NullPointer))
        else if |st1.fieldsSel.value| != |st1.aliases.value| then
          Step(st1.(sqlSel := Some(cache + lead)), Err(Fail(FieldCountMismatch)))
        else
          var items := Items(st1.fieldsSel.value, st1.aliases.value, st.dialect);
          var listed := DropLast(lead + EachFollowedBy(items, ","));
          if st.from.None? || st.from.value == "" then
            Step(st1.(sqlSel := Some(cache + listed)), Err(Fail(FromMissing)))
          else
            var body := listed + FromPart(st.schema, st.from.value)
                        + WherePart(st.whereSel) + RownumPart(st.dialect, st.maxResults, st.whereSel)
                        + "\r\n";
            if st.orderBy.None? then Step(st1.(sqlSel := Some(cache + body)), Err(NullPointer))
            else
              var added := body + OrderPart(st.orderBy.value)
                           + LimitPart(st.dialect, st.maxResults) + NolockPart(st.dialect);
              Step(st1.(sqlSel := Some(cache + added)), Ok(()))
  }

  /** The aliases a compiling SELECT uses: the set ones or the defaults. */
  function AliasesUsed(st: State): (r: seq<string>)
    requires st.fieldsSel.Some?
  {
    if st.aliases.Some? then st.aliases.value else DefaultAliases(st.fieldsSel.value, st.dialect)
  }

  /** A successful compile appends exactly the reference SELECT text, with
      the select list joined by commas. */
  lemma PrepareSelectText(st: State)
    requires SelectCompiles(st)
    ensures |AliasesUsed(st)| == |st.fieldsSel.value|
    ensures PrepareSelect(st).state.sqlSel
         == Some(st.sqlSel.value + SelectText(st.fieldsSel.value, AliasesUsed(st), st))
  {
    var lead := SelectLead(st.dialect, st.maxResults);
    var items := Items(st.fieldsSel.value, AliasesUsed(st), st.dialect);
    assert ValidSqlAlias(st).value.aliases == Some(AliasesUsed(st));
    CutEachFollowedBy(lead, items, ",");
    assert DropLast(lead + EachFollowedBy(items, ","))
        == SelectHead(st.fieldsSel.value, AliasesUsed(st), st.dialect, st.maxResults);
  }

  /** A field/alias count mismatch fails after writing the keyword and row
      limit, which stay in the cache. */
  lemma MismatchKeepsPartialText(st: State)
    requires st.sqlSel.Some? && st.fieldsSel.Some? && st.aliases.Some?
    requires |st.aliases.value| != |st.fieldsSel.value|
    ensures PrepareSelect(st).result == Err(Fail(FieldCountMismatch))
    ensures PrepareSelect(st).state.sqlSel.value == st.sqlSel.value + "\r\nselect " + TopClause(st.dialect, st.maxResults)
  {
  }

  /** A missing FROM fails after the select list was written. */
  lemma MissingFromKeepsSelectList(st: State)
    requires st.sqlSel.Some? && st.fieldsSel.Some?
    requires st.aliases.None? || |st.aliases.value| == |st.fieldsSel.value|
    requires st.from.None? || st.from.value == ""
    ensures |AliasesUsed(st)| == |st.fieldsSel.value|
    ensures PrepareSelect(st).result == Err(Fail(FromMissing))
    ensures PrepareSelect(st).state.sqlSel
         == Some(st.sqlSel.value + SelectHead(st.fieldsSel.value, AliasesUsed(st), st.dialect, st.maxResults))
  {
    var items := Items(st.fieldsSel.value, AliasesUsed(st), st.dialect);
    CutEachFollowedBy(SelectLead(st.dialect, st.maxResults), items, ",");
  }

  /** A filtering where fragment is introduced by "where"; one that
      continues the FROM clause (a join or group by) is written bare. */
  lemma WhereKeyword(st: State)
    requires SelectCompiles(st) && HasWhere(st.whereSel)
    ensures WherePart(st.whereSel)
         == if ContinuesFrom(st.whereSel.value) then st.whereSel.value else "   where " + st.whereSel.value
    ensures Contains(PrepareSelect(st).state.sqlSel.value, WherePart(st.whereSel))
  {
    PrepareSelectText(st);
    var head := SelectHead(st.fieldsSel.value, AliasesUsed(st), st.dialect, st.maxResults)
                + FromPart(st.schema, st.from.value);
    var w := WherePart(st.whereSel);
    var s0 := head + w;
    ContainsEnd(head, w);
    var s1 := s0 + RownumPart(st.dialect, st.maxResults, st.whereSel);
    ContainsAppend(s0, w, RownumPart(st.dialect, st.maxResults, st.whereSel));
    var s2 := s1 + "\r\n";
    ContainsAppend(s1, w, "\r\n");
    var s3 := s2 + OrderPart(st.orderBy.value);
    ContainsAppend(s2, w, OrderPart(st.orderBy.value));
    var s4 := s3 + LimitPart(st.dialect, st.maxResults);
    ContainsAppend(s3, w, LimitPart(st.dialect, st.maxResults));
    ContainsAppend(s4, w, NolockPart(st.dialect));
    ContainsPrepend(st.sqlSel.value, s4 + NolockPart(st.dialect), w);
  }

  /** PostgreSQL always gets a limit clause, even without a positive
      `maxResults` (then "limit 0" or a negative limit). */
  lemma PostgresAlwaysLimited(st: State)
    requires SelectCompiles(st) && st.dialect == Some(POSTGRESQL)
    ensures Contains(PrepareSelect(st).state.sqlSel.value, "    limit " + Number(st.maxResults) + "\r\n")
  {
    PrepareSelectText(st);
    var limit := LimitPart(st.dialect, st.maxResults);
    var before := SelectHead(st.fieldsSel.value, AliasesUsed(st), st.dialect, st.maxResults)
                  + FromPart(st.schema, st.from.value)
                  + WherePart(st.whereSel) + RownumPart(st.dialect, st.maxResults, st.whereSel) + "\r\n"
                  + OrderPart(st.orderBy.value);
    ContainsEnd(before, limit);
    ContainsAppend(before + limit, limit, NolockPart(st.dialect));
    ContainsPrepend(st.sqlSel.value, before + limit + NolockPart(st.dialect), limit);
  }

  /** Which dialects limit the rows, and how, when `maxResults` is positive. */
  lemma RowLimitClauses(dialect: Option<DbType>, max: Int32, w: Option<string>)
    requires max > 0
    ensures UsesTop(dialect) ==> TopClause(dialect, max) == "top " + Number(max) + " "
    ensures dialect == Some(FIREBIRD) ==> TopClause(dialect, max) == "first " + Number(max) + " "
    ensures dialect == Some(ORACLE) ==>
              RownumPart(dialect, max, w)
              == (if HasWhere(w) then " and rownum <= " else "   where rownum <= ") + Number(max)
              && Contains(RownumPart(dialect, max, w), "rownum <= " + Number(max))
    ensures dialect == Some(MYSQL) ==> LimitPart(dialect, max) == "    limit " + Number(max) + "\r\n"
  {
    if dialect == Some(ORACLE) {
      OracleRownum(max, w);
    }
  }

  lemma OracleRownum(max: Int32, w: Option<string>)
    requires max > 0
    ensures Contains(RownumPart(Some(ORACLE), max, w), "rownum <= " + Number(max))
  {
    var lead := if HasWhere(w) then " and " else "   where ";
    assert RownumPart(Some(ORACLE), max, w) == lead + ("rownum <= " + Number(max));
    ContainsEnd(lead, "rownum <= " + Number(max));
  }

  /** The other dialects, and a missing type, get no row limit at all. */
  lemma NoRowLimitElsewhere(dialect: Option<DbType>, max: Int32, w: Option<string>)
    requires !UsesTop(dialect)
    requires dialect !in {Some(FIREBIRD), Some(ORACLE), Some(MYSQL), Some(POSTGRESQL)}
    ensures TopClause(dialect, max) == "" && RownumPart(dialect, max, w) == "" && LimitPart(dialect, max) == ""
  {
  }

  /** `getSelect()`: compiles (appending) and returns the whole cache. */
  function GetSelect(st: State): (r: Step<string>)
    ensures r.state == PrepareSelect(st).state
    ensures r.result.Ok? <==> SelectCompiles(st)
    ensures r.result.Ok? ==> |AliasesUsed(st)| == |st.fieldsSel.value|
                             && r.result.value == st.sqlSel.value + SelectText(st.fieldsSel.value, AliasesUsed(st), st)
    ensures r.result.Err? ==> r.result.error == PrepareSelect(st).result.error
  {
    var s := PrepareSelect(st);
    if s.result.Ok? then
      PrepareSelectText(st);
      Step(s.state, Ok(s.state.sqlSel.value))
    else Step(s.state, Err(s.result.error))
  }

  /** `getSelect()` is not idempotent: a second call appends the statement
      again after the first. */
  lemma GetSelectAppendsAgain(st: State)
    requires GetSelect(st).result.Ok?
    ensures GetSelect(GetSelect(st).state).result.Ok?
    ensures var first := GetSelect(st).result.value;
            var second := GetSelect(GetSelect(st).state).result.value;
            StartsWith(second, first) && |second| > |first|
  {
    var st1 := GetSelect(st).state;
    assert SelectCompiles(st1);
  }

  // ---------------------------------------------------------------- INSERT, UPDATE, DELETE

  /** A field name without its qualifier: everything after the first '.',
      when that dot is not the first character. */
  function StripQualifier(field: string): (r: string)
    ensures EndsWith(field, r)
    ensures IndexOf(field, ".") <= 0 ==> r == field
    ensures IndexOf(field, ".") > 0 ==>
              var p := IndexOf(field, ".");
              field == field[..p] + "." + r && !Contains(field[..p], ".")
  {
    var p := IndexOf(field, ".");
    if p > 0 then
      assert field == field[..p] + "." + field[p + 1..] by {
        assert field[p..p + 1] == ".";
      }
      assert !Contains(field[..p], ".") by {
        forall j | 0 <= j <= |field[..p]| ensures !OccursAt(field[..p], ".", j) {
          if j + 1 <= p {
            assert field[..p][j..j + 1] == field[j..j + 1];
            assert !OccursAt(field, ".", j);
          }
        }
      }
      field[p + 1..]
    else field
  }

  function StrippedFields(fields: seq<string>): (r: seq<string>)
    ensures |r| == |fields|
    ensures forall i :: 0 <= i < |fields| ==> r[i] == StripQualifier(fields[i])
  {
    seq(|fields|, i requires 0 <= i < |fields| => StripQualifier(fields[i]))
  }

  function Placeholders(n: nat): (r: seq<string>)
    ensures |r| == n && forall i :: 0 <= i < n ==> r[i] == "?"
  {
    seq(n, _ => "?")
  }

  predicate HasTable(st: State) {
    st.tableNames.Some? && st.tableNames.value != ""
  }

  function InsertLead(schema: Option<string>): string {
    "\r\ninsert into " + SchemaPrefix(schema)
  }

  function InsertHead(schema: Option<string>, table: string): string {
    InsertLead(schema) + table + "\r\n   ("
  }

  /** The INSERT text as a reader would write it: the stripped fields and
      one placeholder per field, each list joined by commas. */
  function InsertText(schema: Option<string>, table: string, fields: seq<string>): string {
    InsertBody(InsertHead(schema, table), fields)
  }

  /** The column and value lists after `head`. With no fields each list's
      trailing-comma removal eats its opening parenthesis. */
  function InsertBody(head: string, fields: seq<string>): string
    requires |head| > 0
  {
    var values := ")\r\n   values (";
    if |fields| == 0 then DropLast(DropLast(head) + values) + ")"
    else head + Join(StrippedFields(fields), ",") + values + Join(Placeholders(|fields|), ",") + ")"
  }

  /** What the column and placeholder loops of `prepareInsert` append. */
  function InsertLoops(head: string, fields: seq<string>): string
    requires |head| > 0
  {
    var cols := DropLast(head + EachFollowedBy(StrippedFields(fields), ",")) + ")\r\n   values (";
    DropLast(cols + EachFollowedBy(Placeholders(|fields|), ",")) + ")"
  }

  /** `prepareInsert()`: appends the INSERT statement; on success it is
      also recorded as the last SQL. As for SELECT, the text below is the
      part appended to the cache. */
  function PrepareInsert(st: State): (r: Step<()>)
    ensures r.state.(sqlIns := st.sqlIns, lastSql := st.lastSql) == st
    ensures st.sqlIns.None? ==> r == Step(st, Err(NullPointer))
    ensures st.sqlIns.Some? ==> r.state.sqlIns.Some? && StartsWith(r.state.sqlIns.value, st.sqlIns.value)
    ensures r.result.Ok? <==> st.sqlIns.Some? && HasTable(st) && st.fieldsIns.Some?
    ensures st.sqlIns.Some? && !HasTable(st) ==>
              r == Step(st.(sqlIns := Some(st.sqlIns.value + InsertLead(st.schema))),
                        Err(Fail(TableNameMissing)))
    ensures st.sqlIns.Some? && HasTable(st) && st.fieldsIns.None? ==> r.result == Err(NullPointer)
    ensures r.result.Ok? ==>
              r.state.sqlIns == Some(st.sqlIns.value + InsertText(st.schema, st.tableNames.value, st.fieldsIns.value))
              && r.state.lastSql == r.state.sqlIns
    ensures r.result.Err? ==> r.state.lastSql == st.lastSql
  {
    match st.sqlIns
    case None => Step(st, Err(NullPointer))
    case Some(cache) =>
      var lead := InsertLead(st.schema);
      if !HasTable(st) then Step(st.(sqlIns := Some(cache + lead)), Err(Fail(TableNameMissing)))
      else
        var head := InsertHead(st.schema, st.tableNames.value);
        if st.fieldsIns.None? then Step(st.(sqlIns := Some(cache + head)), Err(NullPointer))
        else
          var added := InsertLoops(head, st.fieldsIns.value);
          InsertTextMatches(head, st.fieldsIns.value);
          Step(st.(sqlIns := Some(cache + added), lastSql := Some(cache + added)), Ok(()))
  }

  /** The append loops of `prepareInsert` produce the reference text. */
  lemma InsertTextMatches(head: string, fields: seq<string>)
    requires |head| > 0
    ensures InsertLoops(head, fields) == InsertBody(head, fields)
  {
    var values := ")\r\n   values (";
    var stripped := StrippedFields(fields);
    var cols := DropLast(head + EachFollowedBy(stripped, ",")) + values;
    if |fields| == 0 {
      assert head + EachFollowedBy(stripped, ",") == head;
      assert cols + EachFollowedBy(Placeholders(0), ",") == cols;
    } else {
      ListsJoined(head, stripped, values, Placeholders(|fields|));
    }
  }

  /** Two append loops, each followed by a cut of its last comma, give the
      two joined lists. */
  lemma ListsJoined(head: string, first: seq<string>, between: string, second: seq<string>)
    requires |head| > 0 && |first| > 0 && |second| > 0
    ensures var cols := DropLast(head + EachFollowedBy(first, ",")) + between;
            DropLast(cols + EachFollowedBy(second, ",")) == head + Join(first, ",") + between + Join(second, ",")
  {
    var firstJoined := head + Join(first, ",");
    CutEachFollowedBy(head, first, ",");
    assert DropLast(head + EachFollowedBy(first, ",")) == firstJoined;
    var cols := firstJoined + between;
    CutEachFollowedBy(cols, second, ",");
    assert DropLast(cols + EachFollowedBy(second, ",")) == cols + Join(second, ",");
  }

  /** An INSERT has exactly one placeholder per field. */
  lemma {:induction false} PlaceholderCount(n: nat)
    ensures Count('?', Join(Placeholders(n), ",")) == n
  {
    if n > 1 {
      PlaceholderCount(n - 1);
      assert Placeholders(n)[1..] == Placeholders(n - 1);
      assert Join(Placeholders(n), ",") == "?" + "," + Join(Placeholders(n - 1), ",");
      CountAppend('?', "?,", Join(Placeholders(n - 1), ","));
      assert Count('?', "?,") == 1;
    } else if n == 1 {
      assert Join(Placeholders(n), ",") == "?";
    }
  }

  /** One `field=?` assignment of an UPDATE. */
  function Assignments(fields: seq<string>): (r: seq<string>)
    ensures |r| == |fields|
    ensures forall i :: 0 <= i < |fields| ==> r[i] == StripQualifier(fields[i]) + "=?"
  {
    seq(|fields|, i requires 0 <= i < |fields| => StripQualifier(fields[i]) + "=?")
  }

  function UpdateHead(schema: Option<string>, table: string): string {
    "\r\nupdate " + SchemaPrefix(schema) + table + "\r\n   set "
  }

  function UpdateWhere(where: string): string {
    if where == "" then "" else "   where " + where + "\r\n"
  }

  /** The UPDATE text as a reader would write it: the assignments joined
      by ", ". */
  function UpdateText(schema: Option<string>, table: string, fields: seq<string>, where: string): string {
    UpdateBody(UpdateHead(schema, table), fields) + UpdateWhere(where)
  }

  /** The assignments after `head`. With no fields the two-character cut
      eats into `head`. */
  function UpdateBody(head: string, fields: seq<string>): string
    requires |head| >= 2
  {
    (if |fields| == 0 then head[..|head| - 2] else head + Join(Assignments(fields), ", ")) + "\r\n"
  }

  /** What the assignment loop of `prepareUpdate` appends, after the two
      `deleteCharAt` calls. */
  function UpdateLoop(head: string, fields: seq<string>): string
    requires |head| >= 2
  {
    DropLast(DropLast(head + EachFollowedBy(Assignments(fields), ", "))) + "\r\n"
  }

  predicate UpdateCompiles(st: State) {
    st.sqlUpd.Some? && HasTable(st) && st.fieldsUpd.Some? && st.whereUpd.Some?
  }

  /** `prepareUpdate()`: appends the UPDATE statement, assignments joined
      by ", "; a null where fragment throws after the assignments. */
  function PrepareUpdate(st: State): (r: Step<()>)
    ensures r.state.(sqlUpd := st.sqlUpd, lastSql := st.lastSql) == st
    ensures st.sqlUpd.None? ==> r == Step(st, Err(NullPointer))
    ensures st.sqlUpd.Some? ==> r.state.sqlUpd.Some? && StartsWith(r.state.sqlUpd.value, st.sqlUpd.value)
    ensures r.result.Ok? <==> UpdateCompiles(st)
    ensures st.sqlUpd.Some? && !HasTable(st) ==> r.result == Err(Fail(TableNameMissing))
    ensures st.sqlUpd.Some? && HasTable(st) && !UpdateCompiles(st) ==> r.result == Err(NullPointer)
    ensures r.result.Ok? ==>
              r.state.sqlUpd == Some(st.sqlUpd.value
                                     + UpdateText(st.schema, st.tableNames.value, st.fieldsUpd.value, st.whereUpd.value))
              && r.state.lastSql == r.state.sqlUpd
    ensures r.result.Err? ==> r.state.lastSql == st.lastSql
  {
    match st.sqlUpd
    case None => Step(st, Err(NullPointer))
    case Some(cache) =>
      var lead := "\r\nupdate " + SchemaPrefix(st.schema);
      if !HasTable(st) then Step(st.(sqlUpd := Some(cache + lead)), Err(Fail(TableNameMissing)))
      else
        var head := UpdateHead(st.schema, st.tableNames.value);
        if st.fieldsUpd.None? then Step(st.(sqlUpd := Some(cache + head)), Err(NullPointer))
        else
          var setPart := UpdateLoop(head, st.fieldsUpd.value);
          if st.whereUpd.None? then Step(st.(sqlUpd := Some(cache + setPart)), Err(NullPointer))
          else
            var added := setPart + UpdateWhere(st.whereUpd.value);
            UpdateTextMatches(head, st.fieldsUpd.value);
            Step(st.(sqlUpd := Some(cache + added), lastSql := Some(cache + added)), Ok(()))
  }

  /** The assignment loop of `prepareUpdate` produces the reference text. */
  lemma UpdateTextMatches(head: string, fields: seq<string>)
    requires |head| >= 2
    ensures UpdateLoop(head, fields) == UpdateBody(head, fields)
  {
    var all := head + EachFollowedBy(Assignments(fields), ", ");
    CutEachFollowedBy(head, Assignments(fields), ", ");
    assert DropLast(DropLast(all)) == all[..|all| - 2];
  }

  predicate DeleteCompiles(st: State) {
    st.sqlDel.Some? && HasTable(st) && st.whereDel.Some?
  }

  function DeleteWhere(where: string): string {
    if where == "" then "" else "\r\n   where " + where
  }

  function DeleteText(schema: Option<string>, table: string, where: string): string {
    "delete from " + SchemaPrefix(schema) + table + DeleteWhere(where)
  }

  /** `prepareDelete()`: appends the DELETE statement (with no leading line
      break, unlike the other three). */
  function PrepareDelete(st: State): (r: Step<()>)
    ensures r.state.(sqlDel := st.sqlDel, lastSql := st.lastSql) == st
    ensures st.sqlDel.None? ==> r == Step(st, Err(NullPointer))
    ensures st.sqlDel.Some? ==> r.state.sqlDel.Some? && StartsWith(r.state.sqlDel.value, st.sqlDel.value)
    ensures r.result.Ok? <==> DeleteCompiles(st)
    ensures st.sqlDel.Some? && !HasTable(st) ==> r.result == Err(Fail(TableNameMissing))
    ensures st.sqlDel.Some? && HasTable(st) && st.whereDel.None? ==> r.result == Err(NullPointer)
    ensures r.result.Ok? ==>
              r.state.sqlDel == Some(st.sqlDel.value + DeleteText(st.schema, st.tableNames.value, st.whereDel.value))
              && r.state.lastSql == r.state.sqlDel
    ensures r.result.Err? ==> r.state.lastSql == st.lastSql
  {
    match st.sqlDel
    case None => Step(st, Err(NullPointer))
    case Some(cache) =>
      var lead := "delete from " + SchemaPrefix(st.schema);
      if !HasTable(st) then Step(st.(sqlDel := Some(cache + lead)), Err(Fail(TableNameMissing)))
      else
        var named := lead + st.tableNames.value;
        if st.whereDel.None? then Step(st.(sqlDel := Some(cache + named)), Err(NullPointer))
        else
          var added := named + DeleteWhere(st.whereDel.value);
          Step(st.(sqlDel := Some(cache + added), lastSql := Some(cache + added)), Ok(()))
  }

  /** `update(t)` and `delete(t)` null their where fragment, so compiling
      them without a later `where(...)` throws. */
  lemma UpdateDeleteNeedWhere(st: State, table: string)
    requires table != ""
    ensures PrepareUpdate(UpdateTable(st, Some(table))).result == Err(NullPointer)
    ensures PrepareDelete(DeleteFrom(st, Some(table))).result == Err(NullPointer)
  {
  }

  /** After `update(t)` and `where(w)`, any field list compiles. */
  lemma UpdateWithWhereCompiles(st: State, table: string, fields: seq<string>, w: string)
    requires table != ""
    ensures var s1 := UpdateTable(st, Some(table));
            var s2 := Fields(s1, Some(fields)).value;
            Where(s2, Some(w)).Ok? && PrepareUpdate(Where(s2, Some(w)).value).result.Ok?
  {
  }

  function GetInsert(st: State): (r: Step<string>)
    ensures r.state == PrepareInsert(st).state
    ensures r.result.Ok? <==> PrepareInsert(st).result.Ok?
    ensures r.result.Ok? ==> r.result.value == st.sqlIns.value + InsertText(st.schema, st.tableNames.value, st.fieldsIns.value)
    ensures r.result.Err? ==> r.result.error == PrepareInsert(st).result.error
  {
    var s := PrepareInsert(st);
    if s.result.Ok? then Step(s.state, Ok(s.state.sqlIns.value)) else Step(s.state, Err(s.result.error))
  }

  function GetUpdate(st: State): (r: Step<string>)
    ensures r.state == PrepareUpdate(st).state
    ensures r.result.Ok? <==> UpdateCompiles(st)
    ensures r.result.Ok? ==>
              r.result.value == st.sqlUpd.value + UpdateText(st.schema, st.tableNames.value, st.fieldsUpd.value, st.whereUpd.value)
    ensures r.result.Err? ==> r.result.error == PrepareUpdate(st).result.error
  {
    var s := PrepareUpdate(st);
    if s.result.Ok? then Step(s.state, Ok(s.state.sqlUpd.value)) else Step(s.state, Err(s.result.error))
  }

  function GetDelete(st: State): (r: Step<string>)
    ensures r.state == PrepareDelete(st).state
    ensures r.result.Ok? <==> DeleteCompiles(st)
    ensures r.result.Ok? ==> r.result.value == st.sqlDel.value + DeleteText(st.schema, st.tableNames.value, st.whereDel.value)
    ensures r.result.Err? ==> r.result.error == PrepareDelete(st).result.error
  {
    var s := PrepareDelete(st);
    if s.result.Ok? then Step(s.state, Ok(s.state.sqlDel.value)) else Step(s.state, Err(s.result.error))
  }
}

=== FILE: database_type.dfy ===
/** The supported database kinds and their case-insensitive lookup by name. */
module DataBaseType {
  import Text

  datatype DbType =
    | H2
    | MYSQL
    | ORACLE
    | FIREBIRD
    | POSTGRESQL
    | MSSQL
    | MSSQL_JTDS
    | PROGRESS
    | PERVASIVE_PSQL

  /** The constant's declared name (Java `Enum.name()`). */
  function Name(t: DbType): string {
    match t
    case H2 => "H2"
    case MYSQL => "MYSQL"
    case ORACLE => "ORACLE"
    case FIREBIRD => "FIREBIRD"
    case POSTGRESQL => "POSTGRESQL"
    case MSSQL => "MSSQL"
    case MSSQL_JTDS => "MSSQL_JTDS"
    case PROGRESS => "PROGRESS"
    case PERVASIVE_PSQL => "PERVASIVE_PSQL"
  }

  /** The nine constant names. */
  const KnownNames: set<string> :=
    {"H2", "MYSQL", "ORACLE", "FIREBIRD", "POSTGRESQL", "MSSQL", "MSSQL_JTDS",
     "PROGRESS", "PERVASIVE_PSQL"}

  /** The name is one of the nine constant names. */
  predicate IsKnownName(s: string) {
    s in KnownNames
  }

  /** `DataBaseType.fromString`: the upper-cased input is matched against the
      constant names; anything else yields POSTGRESQL. */
  function FromString(s: string): (r: DbType)
    ensures Text.ToUpper(s) == Name(r) || (r == POSTGRESQL && !IsKnownName(Text.ToUpper(s)))
  {
    ByUpperName(Text.ToUpper(s))
  }

  /** The `switch` over the already upper-cased name. */
  function ByUpperName(u: string): (r: DbType)
    ensures u == Name(r) || (r == POSTGRESQL && !IsKnownName(u))
  {
    match u
    case "H2" => H2
    case "MYSQL" => MYSQL
    case "ORACLE" => ORACLE
    case "FIREBIRD" => FIREBIRD
    case "POSTGRESQL" => POSTGRESQL
    case "MSSQL" => MSSQL
    case "MSSQL_JTDS" => MSSQL_JTDS
    case "PROGRESS" => PROGRESS
    case "PERVASIVE_PSQL" => PERVASIVE_PSQL
    case _ => POSTGRESQL
  }

  /** Constant names are upper case, so they survive `toUpperCase()`. */
  lemma NameIsUpper(t: DbType)
    ensures Text.ToUpper(Name(t)) == Name(t)
  {
    match t
    case H2 => NoLowerUpper("H2");
    case MYSQL => NoLowerUpper("MYSQL");
    case ORACLE => NoLowerUpper("ORACLE");
    case FIREBIRD => NoLowerUpper("FIREBIRD");
    case POSTGRESQL => NoLowerUpper("POSTGRESQL");
    case MSSQL => NoLowerUpper("MSSQL");
    case MSSQL_JTDS => NoLowerUpper("MSSQL_JTDS");
    case PROGRESS => NoLowerUpper("PROGRESS");
    case PERVASIVE_PSQL => NoLowerUpper("PERVASIVE_PSQL");
  }

  /** A text without lower-case letters is its own upper case. */
  lemma NoLowerUpper(s: string)
    requires forall i :: 0 <= i < |s| ==> !('a' <= s[i] <= 'z')
    ensures Text.ToUpper(s) == s
  {
  }

  /** Each of the nine names maps back to its own constant. */
  lemma FromStringName(t: DbType)
    ensures FromString(Name(t)) == t
  {
    NameIsUpper(t);
    NameInjective(t, FromString(Name(t)));
  }

  lemma NameInjective(a: DbType, b: DbType)
    ensures Name(a) == Name(b) ==> a == b
  {
  }

  /** The lookup ignores case: it sees only the upper-cased input. */
  lemma FromStringIgnoresCase(s: string)
    ensures FromString(s) == FromString(Text.ToUpper(s))
  {
    Text.ToUpperIdempotent(s);
    assert ByUpperName(Text.ToUpper(Text.ToUpper(s))) == ByUpperName(Text.ToUpper(s));
  }

  /** `fromString(s) == t` exactly when `s` upper-cases to `t`'s name, or
      `t` is the POSTGRESQL default and `s` names no constant. */
  lemma FromStringCharacterised(s: string, t: DbType)
    ensures FromString(s) == t
        <==> Text.ToUpper(s) == Name(t) || (t == POSTGRESQL && !IsKnownName(Text.ToUpper(s)))
  {
    var r := FromString(s);
    if Text.ToUpper(s) == Name(t) {
      NameInjective(r, t);
    }
  }

  /** A mixed-case spelling finds its constant. */
  lemma FromStringMixedCase()
    ensures FromString("Oracle") == ORACLE
  {
    var s := "Oracle";
    assert Text.UpperChar(s[0]) == 'O' && Text.UpperChar(s[1]) == 'R' && Text.UpperChar(s[2]) == 'A';
    assert Text.UpperChar(s[3]) == 'C' && Text.UpperChar(s[4]) == 'L' && Text.UpperChar(s[5]) == 'E';
    UpperOf(s, "ORACLE");
  }

  lemma UpperOf(s: string, u: string)
    requires |s| == |u|
    requires forall i :: 0 <= i < |s| ==> Text.UpperChar(s[i]) == u[i]
    ensures Text.ToUpper(s) == u
  {
  }
}

=== FILE: execute.dfy ===
/** `execute()` and `executeBatch()`: statements that return no rows.

    The database is a parameter: `run` says whether the driver's
    `executeUpdate`/`execute` of a statement with its bound parameters
    throws. Preparing and binding are taken to succeed. */
module Execution {
  import opened Wrappers
  import opened Errors
  import opened Text
  import opened Json
  import opened Builder
  import opened Compiler

  /** `setObject(position, value)` on a statement. */
  datatype Binding = Binding(position: int, value: Value)

  /** A statement as the driver receives it: the text it was prepared from
      and its bound parameters. */
  datatype Sent = Sent(text: string, bindings: seq<Binding>)

  /** A row-returning execution, as the driver delivers it: the rows read
      before the cursor was exhausted or failed, and the failure if any
      (from `executeQuery` itself when no row came before it). */
  datatype Cursor<R> = Cursor(rows: seq<R>, failure: Option<Error>)

  /** The binding loop: the parameters in order, at positions 1, 2, … */
  function Bind(params: seq<Value>): (r: seq<Binding>)
    ensures |r| == |params|
    ensures forall i :: 0 <= i < |r| ==> r[i].position == i + 1 && r[i].value == params[i]
  {
    seq(|params|, i requires 0 <= i < |params| => Binding(i + 1, params[i]))
  }

  /** Binding loses nothing: the values read back by position are the parameters. */
  lemma BindValues(params: seq<Value>)
    ensures seq(|Bind(params)|, i requires 0 <= i < |Bind(params)| => Bind(params)[i].value) == params
  {
  }

  /** The cached text of a command, compiled first when the cache is
      empty; a null cache throws. Compiling may change the state. */
  function CachedText(st: State, op: Op): (r: Step<string>)
    requires op in {Insert, Update, Delete}
    ensures r.result.Ok? ==> r.result.value != "" || op == Delete
    ensures op == Insert && st.sqlIns.Some? && st.sqlIns.value != "" ==> r == Step(st, Ok(st.sqlIns.value))
    ensures op == Update && st.sqlUpd.Some? && st.sqlUpd.value != "" ==> r == Step(st, Ok(st.sqlUpd.value))
    ensures op == Delete && st.sqlDel.Some? && st.sqlDel.value != "" ==> r == Step(st, Ok(st.sqlDel.value))
    ensures op == Insert && st.sqlIns == Some("") ==>
              r.state == PrepareInsert(st).state
              && (r.result.Ok? <==> PrepareInsert(st).result.Ok?)
              && (r.result.Ok? ==> r.result.value == InsertText(st.schema, st.tableNames.value, st.fieldsIns.value))
              && (r.result.Err? ==> r.result.error == PrepareInsert(st).result.error)
    ensures op == Update && st.sqlUpd == Some("") ==>
              r.state == PrepareUpdate(st).state
              && (r.result.Ok? <==> UpdateCompiles(st))
              && (r.result.Ok? ==>
                    r.result.value == UpdateText(st.schema, st.tableNames.value, st.fieldsUpd.value, st.whereUpd.value))
              && (r.result.Err? ==> r.result.error == PrepareUpdate(st).result.error)
    ensures op == Delete && st.sqlDel == Some("") ==>
              r.state == PrepareDelete(st).state
              && (r.result.Ok? <==> DeleteCompiles(st))
              && (r.result.Ok? ==> r.result.value == DeleteText(st.schema, st.tableNames.value, st.whereDel.value))
              && (r.result.Err? ==> r.result.error == PrepareDelete(st).result.error)
    ensures op == Insert && st.sqlIns.None? ==> r == Step(st, Err(NullPointer))
    ensures op == Update && st.sqlUpd.None? ==> r == Step(st, Err(NullPointer))
    ensures op == Delete && st.sqlDel.None? ==> r == Step(st, Err(NullPointer))
  {
    var cache := match op case Insert => st.sqlIns case Update => st.sqlUpd case _ => st.sqlDel;
    match cache
    case None => Step(st, Err(NullPointer))
    case Some(text) =>
      if text != "" then Step(st, Ok(text))
      else
        var compiled := match op case Insert => GetInsert(st) case Update => GetUpdate(st) case _ => GetDelete(st);
        assert compiled.result.Ok? && op == Insert ==> |InsertText(st.schema, st.tableNames.value, st.fieldsIns.value)| > 0;
        assert compiled.result.Ok? && op == Update ==>
                 |UpdateText(st.schema, st.tableNames.value, st.fieldsUpd.value, st.whereUpd.value)| > 0;
        compiled
  }

  /** The state after `execute`'s finally block: no parameters. */
  function Cleared(st: State): (r: State)
    ensures r.params == [] && r.(params := st.params) == st
  {
    st.(params := [])
  }

  /** `execute()`: runs the current INSERT, UPDATE, DELETE, CREATE or
      procedure call; SELECT and EMPTY do nothing. Whatever happens, the
      parameters are cleared afterwards. The result names the statement
      sent to the driver, if one was. */
  function Execute(st: State, run: Sent -> Option<Error>): (r: Step<Option<Sent>>)
    ensures r.state.params == []
    ensures st.operation.None? ==> r == Step(Cleared(st), Err(NullPointer))
    ensures st.operation in {Some(Select), Some(Empty)} ==> r == Step(Cleared(st), Ok(None))
    ensures r.result.Ok? && r.result.value.Some? && st.operation != Some(Create) ==>
              r.result.value.value.bindings == Bind(st.params)
    ensures r.result.Ok? && r.result.value.Some? && st.operation == Some(Create) ==>
              r.result.value.value.bindings == []
    ensures r.result.Ok? && r.result.value.Some? ==> run(r.result.value.value).None?
    ensures st.operation == Some(Procedure) && st.callable.None? ==> r == Step(Cleared(st), Err(NullPointer))
    ensures st.operation == Some(Procedure) && st.callable.Some? ==>
              var sent := Sent(st.callable.value, Bind(st.params));
              r.state == Cleared(st) && r.result == (if run(sent).Some? then Err(run(sent).value) else Ok(Some(sent)))
    ensures st.operation == Some(Create) ==>
              r.state.(creHandle := st.creHandle, params := st.params) == st
    ensures st.operation == Some(Create) ==>
              var text := if st.creHandle.Some? then st.creHandle else st.sqlCre;
              && (text.None? ==> r == Step(Cleared(st), Err(NullPointer)))
              && (text.Some? ==> r == Send(Cleared(st).(creHandle := text), Sent(text.value, []), run))
    ensures st.operation in {Some(Insert), Some(Update), Some(Delete)} ==>
              var compiled := CachedText(st, st.operation.value);
              && r.state == Cleared(compiled.state)
              && (compiled.result.Err? ==> r.result == Err(compiled.result.error))
              && (compiled.result.Ok? ==>
                    var sent := Sent(compiled.result.value, Bind(st.params));
                    r.result == (if run(sent).Some? then Err(run(sent).value) else Ok(Some(sent))))
  {
    match st.operation
    case None => Step(Cleared(st), Err(NullPointer))
    case Some(Select) => Step(Cleared(st), Ok(None))
    case Some(Empty) => Step(Cleared(st), Ok(None))
    case Some(Procedure) =>
      if st.callable.None? then Step(Cleared(st), Err(NullPointer))
      else Send(Cleared(st), Sent(st.callable.value, Bind(st.params)), run)
    case Some(Create) => ExecuteCreate(st, run)
    case Some(op) => ExecuteCompiled(st, op, run)
  }

  /** The CREATE branch of `execute`: the CREATE handle is reused and,
      unlike the others, not closed. */
  function ExecuteCreate(st: State, run: Sent -> Option<Error>): (r: Step<Option<Sent>>)
    ensures var text := if st.creHandle.Some? then st.creHandle else st.sqlCre;
            && (text.None? ==> r == Step(Cleared(st), Err(NullPointer)))
            && (text.Some? ==> r == Send(Cleared(st).(creHandle := text), Sent(text.value, []), run))
  {
    var text := if st.creHandle.Some? then st.creHandle else st.sqlCre;
    if text.None? then Step(Cleared(st), Err(NullPointer))
    else Send(Cleared(st).(creHandle := text), Sent(text.value, []), run)
  }

  /** The INSERT, UPDATE and DELETE branches of `execute`: the cached or
      freshly compiled text, sent with the parameters' bindings. */
  function ExecuteCompiled(st: State, op: Op, run: Sent -> Option<Error>): (r: Step<Option<Sent>>)
    requires op in {Insert, Update, Delete}
    ensures var compiled := CachedText(st, op);
            && r.state == Cleared(compiled.state)
            && (compiled.result.Err? ==> r.result == Err(compiled.result.error))
            && (compiled.result.Ok? ==>
                  var sent := Sent(compiled.result.value, Bind(st.params));
                  r.result == (if run(sent).Some? then Err(run(sent).value) else Ok(Some(sent))))
  {
    var compiled := CachedText(st, op);
    match compiled.result
    case Err(e) => Step(Cleared(compiled.state), Err(e))
    case Ok(text) => Send(Cleared(compiled.state), Sent(text, Bind(st.params)), run)
  }

  /** Hand a statement to the driver. */
  function Send(st: State, sent: Sent, run: Sent -> Option<Error>): (r: Step<Option<Sent>>)
    ensures r.state == st
    ensures r.result == if run(sent).Some? then Err(run(sent).value) else Ok(Some(sent))
  {
    match run(sent)
    case Some(e) => Step(st, Err(e))
    case None => Step(st, Ok(Some(sent)))
  }

  /** An INSERT is compiled on its first execution only: executing again
      sends the same text, with the new parameters, and compiles nothing. */
  lemma InsertCompiledOnce(st: State, params: seq<Value>, run: Sent -> Option<Error>)
    requires st.operation == Some(Insert) && st.sqlIns == Some("")
    requires PrepareInsert(st).result.Ok?
    ensures var first := Execute(st, run);
            var again := Execute(first.state.(params := params), run);
            var text := InsertText(st.schema, st.tableNames.value, st.fieldsIns.value);
            first.state.sqlIns == Some(text) && first.state.lastSql == Some(text)
            && (run(Sent(text, Bind(params))).None? ==> again.result == Ok(Some(Sent(text, Bind(params)))))
            && again.state.sqlIns == Some(text)
  {
    var text := InsertText(st.schema, st.tableNames.value, st.fieldsIns.value);
    var first := Execute(st, run);
    assert first.state.sqlIns == Some(text);
    assert |text| > 0;
  }

  /** An error while compiling still clears the parameters, and leaves the
      partial text in the cache. */
  lemma CompileErrorStillClears(st: State, run: Sent -> Option<Error>)
    requires st.operation == Some(Insert) && st.sqlIns == Some("") && !HasTable(st)
    ensures Execute(st, run) == Step(Cleared(st).(sqlIns := Some(InsertLead(st.schema))), Err(Fail(TableNameMissing)))
  {
  }

  // ---------------------------------------------------------------- batch

  /** Position j + 1 of a record can be bound: the j-th field exists and
      names a key of the record. */
  predicate Bindable(record: Obj, fields: seq<string>, j: int) {
    0 <= j < |fields| && fields[j] in record
  }

  /** The bindings of one record: `record.length()` positions, position
      i + 1 taking the record's value for the i-th insert field. A missing
      field name fails as the array access does, a missing key as the JSON
      getter does. */
  function BindRecord(record: Obj, fields: seq<string>, i: nat, n: nat): (r: Result<seq<Binding>, Error>)
    requires i <= n
    ensures r.Ok? <==> forall j :: i <= j < n ==> Bindable(record, fields, j)
    ensures r.Err? ==> r.error in {IndexOutOfBounds, JsonError}
    ensures r.Ok? ==> |r.value| == n - i
    ensures r.Ok? ==> forall j :: i <= j < n ==> Bindable(record, fields, j) && r.value[j - i] == Binding(j + 1, record[fields[j]])
    decreases n - i
  {
    if i == n then Ok([])
    else if i >= |fields| then
      assert !Bindable(record, fields, i);
      Err(IndexOutOfBounds)
    else if fields[i] !in record then
      assert !Bindable(record, fields, i);
      Err(JsonError)
    else
      var rest :- BindRecord(record, fields, i + 1, n);
      Ok([Binding(i + 1, record[fields[i]])] + rest)
  }

  /** Binding one record of a batch; any failure is rethrown naming the
      record (its JSON text, which `render` stands for). */
  function RecordBindings(record: Obj, fields: Option<seq<string>>, render: Json -> string): (r: Result<seq<Binding>, Error>)
    ensures r.Err? ==> r.error.BatchRecordError? && r.error.record == render(JObj(record))
    ensures |record| == 0 ==> r == Ok([])
    ensures |record| > 0 && fields.None? ==> r == Err(BatchRecordError(NullPointer, render(JObj(record))))
    ensures fields.Some? ==>
              (r.Ok? <==> forall j :: 0 <= j < |record| ==> Bindable(record, fields.value, j))
    ensures r.Ok? ==> |r.value| == |record|
    ensures r.Ok? ==> forall j :: 0 <= j < |record| ==>
                        Bindable(record, fields.value, j) && r.value[j] == Binding(j + 1, record[fields.value[j]])
  {
    if |record| == 0 then Ok([])
    else if fields.None? then Err(BatchRecordError(NullPointer, render(JObj(record))))
    else
      match BindRecord(record, fields.value, 0, |record|)
      case Err(e) => Err(BatchRecordError(e, render(JObj(record))))
      case Ok(b) => Ok(b)
  }

  /** The bindings of every record, stopping at the first that fails. */
  function BatchBindings(records: seq<Obj>, fields: Option<seq<string>>, render: Json -> string): (r: Result<seq<seq<Binding>>, Error>)
    ensures r.Ok? <==> forall i :: 0 <= i < |records| ==> RecordBindings(records[i], fields, render).Ok?
    ensures r.Ok? ==> |r.value| == |records|
                      && forall i :: 0 <= i < |records| ==> r.value[i] == RecordBindings(records[i], fields, render).value
    ensures r.Err? ==> exists i :: FirstUnbound(records, fields, render, i) && RecordBindings(records[i], fields, render) == Err(r.error)
  {
    if |records| == 0 then Ok([])
    else
      match RecordBindings(records[0], fields, render)
      case Err(e) =>
        assert FirstUnbound(records, fields, render, 0);
        Err(e)
      case Ok(b) =>
        match BatchBindings(records[1..], fields, render)
        case Err(e) =>
          assert exists i :: FirstUnbound(records, fields, render, i) && RecordBindings(records[i], fields, render) == Err(e) by {
            var i :| FirstUnbound(records[1..], fields, render, i) && RecordBindings(records[1..][i], fields, render) == Err(e);
            assert FirstUnbound(records, fields, render, i + 1);
          }
          Err(e)
        case Ok(rest) => Ok([b] + rest)
  }

  /** Record i is the first of the batch that fails to bind. */
  predicate FirstUnbound(records: seq<Obj>, fields: Option<seq<string>>, render: Json -> string, i: int) {
    0 <= i < |records| && RecordBindings(records[i], fields, render).Err?
    && forall j :: 0 <= j < i ==> RecordBindings(records[j], fields, render).Ok?
  }

  /** A batch as the driver receives it: the INSERT text and one binding
      list per record. */
  datatype Batch = Batch(text: string, rows: seq<seq<Binding>>)

  /** `executeBatch(records)`: the INSERT compiled as by `execute`, one set
      of bindings per record, all sent together; nothing is sent if any
      record fails to bind. The parameters are cleared whatever happens. */
  function ExecuteBatch(st: State, records: seq<Obj>, render: Json -> string, run: Batch -> Option<Error>): (r: Step<Option<Batch>>)
    ensures r.state.params == []
    ensures r.state == Cleared(CachedText(st, Insert).state)
    ensures r.result.Ok? <==>
              CachedText(st, Insert).result.Ok? && BatchBindings(records, st.fieldsIns, render).Ok?
              && run(Batch(CachedText(st, Insert).result.value, BatchBindings(records, st.fieldsIns, render).value)).None?
    ensures r.result.Ok? ==>
              && r.result.value.Some?
              && |r.result.value.value.rows| == |records|
              && r.result.value.value.text == CachedText(st, Insert).result.value
              && r.result.value.value.rows == BatchBindings(records, st.fieldsIns, render).value
    ensures r.result.Err? ==>
              r.result.error == if CachedText(st, Insert).result.Err? then CachedText(st, Insert).result.error
                                else if BatchBindings(records, st.fieldsIns, render).Err? then BatchBindings(records, st.fieldsIns, render).error
                                else run(Batch(CachedText(st, Insert).result.value, BatchBindings(records, st.fieldsIns, render).value)).value
  {
    var compiled := CachedText(st, Insert);
    var done := Cleared(compiled.state);
    match compiled.result
    case Err(e) => Step(done, Err(e))
    case Ok(text) =>
      match BatchBindings(records, st.fieldsIns, render)
      case Err(e) => Step(done, Err(e))
      case Ok(rows) =>
        var batch := Batch(text, rows);
        match run(batch)
        case Some(e) => Step(done, Err(e))
        case None => Step(done, Ok(Some(batch)))
  }

  /** A record with more keys than there are insert fields fails, and the
      error names the record. */
  lemma BatchRecordTooWide(record: Obj, fields: seq<string>, render: Json -> string)
    requires |record| > |fields|
    ensures RecordBindings(record, Some(fields), render).Err?
    ensures Message(RecordBindings(record, Some(fields), render).error).Some?
  {
    assert !Bindable(record, fields, |fields|);
  }
}

=== FILE: json.dfy ===
/** The JSON values the metadata objects are read from and written to, and
    the `opt*` readers of the JSON library they use. */
module Json {
  import opened Wrappers
  import Text

  datatype Json =
    | JNull
    | JBool(b: bool)
    | JNum(n: int)
    | JStr(s: string)
    | JArr(items: seq<Json>)
    | JObj(fields: Obj)

  /** A JSON object: keys to values (unordered, as the library's hash map). */
  type Obj = map<string, Json>

  /** `optString(key)`: "" for a missing key or JSON null, the text of a
      string, the decimal text of a number, "true"/"false" for a boolean.
      Arrays and objects yield their JSON text, which `render` stands for. */
  function OptString(o: Obj, key: string, render: Json -> string): string {
    if key !in o then ""
    else match o[key]
      case JNull => ""
      case JStr(s) => s
      case JNum(n) => Text.IntToString(n)
      case JBool(b) => if b then "true" else "false"
      case JArr(_) => render(o[key])
      case JObj(_) => render(o[key])
  }

  /** `optInt(key)`: a number's low 32 bits (`intValue()`); 0 otherwise. */
  function OptInt(o: Obj, key: string): Int32 {
    if key in o && o[key].JNum? then WrapInt32(o[key].n) else 0
  }

  /** `optBoolean(key)`: a boolean's value, a string equal to "true"
      ignoring case; false otherwise. */
  function OptBoolean(o: Obj, key: string): bool {
    if key !in o then false
    else match o[key]
      case JBool(b) => b
      case JStr(s) => Text.EqualsIgnoreCase(s, "true")
      case _ => false
  }

  /** `optJSONArray(key)`: the array's items, or null. */
  function OptArray(o: Obj, key: string): Option<seq<Json>> {
    if key in o && o[key].JArr? then Some(o[key].items) else None
  }
}

=== FILE: metadata_db.dfy ===
/** Reading a schema's catalogue: table lists, key and index columns, and a
    `Table` per table with its columns' Java types and foreign-key guesses.

    The driver's `DatabaseMetaData` is a `Meta` value whose cursors are
    sequences of rows; a missing metadata handle is `None`. */
module MetadataDB {
  import opened Wrappers
  import opened Errors
  import Text
  import opened Columns
  import opened Tables

  /** A row of `getTables`: the TABLE_NAME and TABLE_TYPE columns. */
  datatype TableRow = TableRow(tableName: string, tableType: string)

  /** A row of `getColumns`: COLUMN_NAME, DATA_TYPE, TYPE_NAME, COLUMN_SIZE, IS_NULLABLE. */
  datatype ColumnRow = ColumnRow(
    columnName: string,
    dataType: Int32,
    typeName: string,
    columnSize: Int32,
    isNullable: string)

  /** What the driver's metadata answers, per (catalog, schema[, table]).
      An index row's COLUMN_NAME is null (`None`) for a table statistic row. */
  datatype Meta = Meta(
    catalogs: seq<string>,
    schemas: seq<string>,
    tables: (Option<string>, Option<string>) -> seq<TableRow>,
    primaryKeys: (Option<string>, Option<string>, Option<string>) -> seq<string>,
    indexInfo: (Option<string>, Option<string>, Option<string>) -> seq<Option<string>>,
    columns: (Option<string>, Option<string>, Option<string>) -> seq<ColumnRow>)

  /** A `MetadataDB` object: the metadata handle and the table-name cache,
      which is filled on the first `getTable` and never refreshed. */
  datatype MetaState = MetaState(dmd: Option<Meta>, tableMap: Option<set<string>>)

  /** The new state and the value or exception of a call. */
  datatype Outcome<T> = Outcome(state: MetaState, result: Result<T, Error>)

  /** `new MetadataDB(dmd)`. */
  function NewMetadataDB(dmd: Option<Meta>): (r: MetaState)
    ensures r.dmd == dmd && r.tableMap == None
  {
    MetaState(dmd, None)
  }

  /** `getCatalogs()`: the TABLE_CAT column; empty without a metadata handle. */
  function GetCatalogs(st: MetaState): (r: seq<string>)
    ensures st.dmd.None? ==> r == []
    ensures st.dmd.Some? ==> r == st.dmd.value.catalogs
  {
    if st.dmd.Some? then st.dmd.value.catalogs else []
  }

  /** `getSchemas()`: the TABLE_SCHEM column; empty without a metadata handle. */
  function GetSchemas(st: MetaState): (r: seq<string>)
    ensures st.dmd.None? ==> r == []
    ensures st.dmd.Some? ==> r == st.dmd.value.schemas
  {
    if st.dmd.Some? then st.dmd.value.schemas else []
  }

  /** A TABLE_TYPE the listing keeps: "TABLE" in any letter case. Views,
      system tables and the like are left out. */
  predicate IsTableType(tableType: string) {
    Text.ToUpper(tableType) == "TABLE"
  }

  /** The names of the rows whose type is a table, in cursor order. */
  function FilterTables(rows: seq<TableRow>): (r: seq<string>)
    ensures |r| <= |rows|
    ensures forall n :: n in r <==>
              exists i :: 0 <= i < |rows| && rows[i].tableName == n && IsTableType(rows[i].tableType)
  {
    if |rows| == 0 then []
    else
      var rest := FilterTables(rows[1..]);
      assert forall i :: 1 <= i < |rows| ==> rows[i] == rows[1..][i - 1];
      if IsTableType(rows[0].tableType) then [rows[0].tableName] + rest else rest
  }

  /** Filtering keeps the cursor order: it distributes over concatenation. */
  lemma {:induction false} FilterTablesAppend(a: seq<TableRow>, b: seq<TableRow>)
    ensures FilterTables(a + b) == FilterTables(a) + FilterTables(b)
    decreases |a|
  {
    if |a| > 0 {
      assert (a + b)[1..] == a[1..] + b;
      FilterTablesAppend(a[1..], b);
    } else {
      assert a + b == b;
    }
  }

  /** `getTableList(catalog, schema)`: the tables (not views) of the scope. */
  function GetTableList(st: MetaState, catalog: Option<string>, schema: Option<string>): (r: seq<string>)
    ensures st.dmd.None? ==> r == []
    ensures st.dmd.Some? ==> r == FilterTables(st.dmd.value.tables(catalog, schema))
    ensures st.dmd.Some? ==> forall n :: n in r <==>
              exists row :: row in st.dmd.value.tables(catalog, schema)
                            && row.tableName == n && IsTableType(row.tableType)
  {
    if st.dmd.Some? then
      var rows := st.dmd.value.tables(catalog, schema);
      var r := FilterTables(rows);
      assert forall n :: n in r ==>
        exists row :: row in rows && row.tableName == n && IsTableType(row.tableType);
      r
    else []
  }

  /** `getTableListAsMap`: loads the table-name cache from the given scope
      only when it is still empty. */
  function LoadTableMap(st: MetaState, catalog: Option<string>, schema: Option<string>): (r: MetaState)
    ensures r.dmd == st.dmd && r.tableMap.Some?
    ensures st.tableMap.Some? ==> r == st
    ensures st.tableMap.None? ==> forall n :: n in r.tableMap.value <==> n in GetTableList(st, catalog, schema)
  {
    if st.tableMap.Some? then st
    else
      var names := GetTableList(st, catalog, schema);
      st.(tableMap := Some(set n | n in names))
  }

  /** `getPrimaryKeys`: the primary key's columns; the metadata handle is
      dereferenced unchecked. */
  function GetPrimaryKeys(st: MetaState, catalog: Option<string>, schema: Option<string>, table: Option<string>)
    : (r: Result<seq<string>, Error>)
    ensures st.dmd.None? <==> r == Err(NullPointer)
    ensures st.dmd.Some? ==> r == Ok(st.dmd.value.primaryKeys(catalog, schema, table))
  {
    if st.dmd.Some? then Ok(st.dmd.value.primaryKeys(catalog, schema, table)) else Err(NullPointer)
  }

  /** `getIndexedColumns`: every column of every index, as listed, a null
      name included. */
  function GetIndexedColumns(st: MetaState, catalog: Option<string>, schema: Option<string>, table: Option<string>)
    : (r: Result<seq<Option<string>>, Error>)
    ensures st.dmd.None? <==> r == Err(NullPointer)
    ensures st.dmd.Some? ==> r == Ok(st.dmd.value.indexInfo(catalog, schema, table))
  {
    if st.dmd.Some? then Ok(st.dmd.value.indexInfo(catalog, schema, table)) else Err(NullPointer)
  }

  /** `getPrimaryKeysAsMap`: the key columns as a lookup set. */
  function PrimaryKeySet(m: Meta, catalog: Option<string>, schema: Option<string>, table: Option<string>)
    : (r: set<string>)
    ensures forall n :: n in r <==> n in m.primaryKeys(catalog, schema, table)
  {
    set n | n in m.primaryKeys(catalog, schema, table)
  }

  /** `getIndexedColumnsAsMap`: the indexed columns except one named exactly
      "id" (the comparison is case-sensitive, so "ID" stays). A null name
      is dereferenced by that comparison and throws. */
  function IndexedSet(m: Meta, catalog: Option<string>, schema: Option<string>, table: Option<string>)
    : (r: Result<set<string>, Error>)
    ensures r.Err? <==> None in m.indexInfo(catalog, schema, table)
    ensures r.Err? ==> r.error == NullPointer
    ensures r.Ok? ==> forall n :: n in r.value <==> Some(n) in m.indexInfo(catalog, schema, table) && n != "id"
  {
    NamesExceptId(m.indexInfo(catalog, schema, table))
  }

  /** The index loop: stops at the first null name. */
  function NamesExceptId(names: seq<Option<string>>): (r: Result<set<string>, Error>)
    ensures r.Err? <==> None in names
    ensures r.Err? ==> r.error == NullPointer
    ensures r.Ok? ==> forall n :: n in r.value <==> Some(n) in names && n != "id"
  {
    if |names| == 0 then Ok({})
    else
      match names[0]
      case None => Err(NullPointer)
      case Some(n) =>
        var rest := NamesExceptId(names[1..]);
        assert forall x :: x in names <==> x == names[0] || x in names[1..];
        if rest.Err? then rest
        else Ok(if n != "id" then rest.value + {n} else rest.value)
  }

  // java.sql.Types codes the type switch recognises.
  const BIGINT: int := -5
  const INTEGER: int := 4
  const SMALLINT: int := 5
  const TINYINT: int := -6
  const DECIMAL: int := 3
  const DOUBLE: int := 8
  const FLOAT: int := 6
  const NUMERIC: int := 2
  const REAL: int := 7
  const CHAR: int := 1
  const VARCHAR: int := 12
  const LONGNVARCHAR: int := -16
  const LONGVARCHAR: int := -1
  const NCHAR: int := -15
  const BINARY: int := -2
  const BIT: int := -7
  const VARBINARY: int := -3
  const TIME: int := 92
  const TIMESTAMP: int := 93
  const TIME_WITH_TIMEZONE: int := 2013
  const TIMESTAMP_WITH_TIMEZONE: int := 2014
  const CLOB: int := 2005
  const ARRAY: int := 2003
  const JAVA_OBJECT: int := 2000
  // Codes the switch does not list, so the type name decides.
  const DATE: int := 91
  const BOOLEAN: int := 16

  /** The Java types a column can be classified as. */
  const JavaTypes: set<string> :=
    {"Long", "Integer", "BigDecimal", "String", "Boolean", "Date", "List", "Object"}

  /** The first stage: the switch over the JDBC type code. */
  function TypeByCode(code: int): (r: Option<string>)
    ensures r.Some? ==> r.value in JavaTypes
  {
    if code == BIGINT then Some("Long")
    else if code == INTEGER || code == SMALLINT || code == TINYINT then Some("Integer")
    else if code == DECIMAL || code == DOUBLE || code == FLOAT || code == NUMERIC || code == REAL
    then Some("BigDecimal")
    else if code == CHAR || code == VARCHAR || code == LONGNVARCHAR || code == LONGVARCHAR
         || code == NCHAR || code == CLOB
    then Some("String")
    else if code == BINARY || code == BIT || code == VARBINARY then Some("Boolean")
    else if code == TIME || code == TIMESTAMP || code == TIME_WITH_TIMEZONE
         || code == TIMESTAMP_WITH_TIMEZONE
    then Some("Date")
    else if code == ARRAY then Some("List")
    else if code == JAVA_OBJECT then Some("Object")
    else None
  }

  /** The second stage: the switch over the lower-cased type name. */
  function TypeByName(lowerName: string): (r: Option<string>)
    ensures r.Some? ==> r.value in JavaTypes
  {
    match lowerName
    case "int" => Some("Integer")
    case "date" => Some("Date")
    case "varchar" => Some("String")
    case "bit" => Some("Boolean")
    case "enum" => Some("String")
    case _ => None
  }

  /** A column's Java type: by type code, else by lower-cased type name,
      else "String". */
  function ClassifyType(code: int, typeName: string): (r: string)
    ensures r in JavaTypes
    ensures TypeByCode(code).Some? ==> r == TypeByCode(code).value
    ensures TypeByCode(code).None? && TypeByName(Text.ToLower(typeName)).Some?
            ==> r == TypeByName(Text.ToLower(typeName)).value
    ensures TypeByCode(code).None? && TypeByName(Text.ToLower(typeName)).None? ==> r == "String"
  {
    match TypeByCode(code)
    case Some(t) => t
    case None => TypeByName(Text.ToLower(typeName)).GetOr("String")
  }

  /** A recognised code decides alone; the type name is not looked at. */
  lemma ClassifyKnownCodeIgnoresName(code: int, a: string, b: string)
    requires TypeByCode(code).Some?
    ensures ClassifyType(code, a) == ClassifyType(code, b)
  {
  }

  /** The name fallback ignores the letter case of the type name. */
  lemma ClassifyNameIgnoresCase(code: int, a: string, b: string)
    requires Text.ToLower(a) == Text.ToLower(b)
    ensures ClassifyType(code, a) == ClassifyType(code, b)
  {
  }

  /** DATE (91) is not in the code switch but its type name rescues it;
      BOOLEAN (16) is not either and its name "boolean" is not in the name
      switch, so it ends up as a String. */
  lemma UnlistedCodes()
    ensures ClassifyType(DATE, "DATE") == "Date"
    ensures ClassifyType(BOOLEAN, "BOOLEAN") == "String"
    ensures ClassifyType(BOOLEAN, "bit") == "Boolean"
  {
    DateByName("DATE");
    BooleanByName("BOOLEAN");
    BitByName("bit");
  }

  lemma DateByName(name: string)
    requires name == "DATE"
    ensures ClassifyType(DATE, name) == "Date"
  {
    LowerOfString(name, "date");
  }

  lemma BooleanByName(name: string)
    requires name == "BOOLEAN"
    ensures ClassifyType(BOOLEAN, name) == "String"
  {
    LowerOfString(name, "boolean");
  }

  lemma BitByName(name: string)
    requires name == "bit"
    ensures ClassifyType(BOOLEAN, name) == "Boolean"
  {
    LowerOfString(name, "bit");
  }

  lemma LowerOfString(s: string, u: string)
    requires |s| == |u|
    requires forall i :: 0 <= i < |s| ==> Text.LowerChar(s[i]) == u[i]
    ensures Text.ToLower(s) == u
  {
  }

  /** The table a column name ending in "_id" refers to: its prefix before
      the last "_id", when that prefix is a known table. */
  function FkTable(columnName: string, tables: set<string>): (r: Option<string>)
    ensures r.Some? ==> r.value in tables && columnName == r.value + "_id"
  {
    if Text.EndsWith(columnName, "_id") then
      var p := Text.LastIndexOf(columnName, "_id");
      Text.EndsWithLastIndex(columnName, "_id");
      var tbn := columnName[..p];
      assert columnName == tbn + "_id";
      if tbn in tables then Some(tbn) else None
    else None
  }

  /** The inference in both directions: a column points at `t` exactly when
      it is named `t` + "_id" and `t` is a known table. */
  lemma FkTableCharacterised(columnName: string, tables: set<string>, t: string)
    ensures FkTable(columnName, tables) == Some(t) <==> columnName == t + "_id" && t in tables
  {
    if columnName == t + "_id" {
      assert Text.EndsWith(columnName, "_id") by {
        assert columnName[|columnName| - 3..] == "_id";
      }
      Text.EndsWithLastIndex(columnName, "_id");
      assert columnName[..|columnName| - 3] == t;
    }
  }

  /** One iteration of the `getColumns` loop. */
  function BuildColumn(row: ColumnRow, pks: set<string>, idxs: set<string>, tables: set<string>)
    : (r: Column)
    ensures r.columnName == row.columnName
    ensures r.columnType == ClassifyType(row.dataType, row.typeName)
    ensures r.columnSize == row.columnSize
    ensures r.nullable <==> Text.EqualsIgnoreCase(row.isNullable, "yes")
    ensures r.isPrimaryKey <==> row.columnName in pks
    ensures r.isIndexed <==> row.columnName in idxs
    ensures r.fkTableName == FkTable(row.columnName, tables)
  {
    ColumnOf(row.columnName, ClassifyType(row.dataType, row.typeName)).(
      columnSize := row.columnSize,
      nullable := Text.EqualsIgnoreCase(row.isNullable, "yes"),
      isPrimaryKey := row.columnName in pks,
      isIndexed := row.columnName in idxs,
      fkTableName := FkTable(row.columnName, tables))
  }

  /** `addColumn` for each built column, in cursor order. */
  function AddAll(t: Table, rows: seq<ColumnRow>, pks: set<string>, idxs: set<string>, tables: set<string>)
    : (r: Table)
    ensures r.(columns := t.columns) == t
    decreases |rows|
  {
    if |rows| == 0 then t
    else AddAll(AddColumn(t, BuildColumn(rows[0], pks, idxs, tables)), rows[1..], pks, idxs, tables)
  }

  /** The columns built from the rows, in cursor order. */
  function BuildAll(rows: seq<ColumnRow>, pks: set<string>, idxs: set<string>, tables: set<string>)
    : (r: seq<Column>)
    ensures |r| == |rows|
    ensures forall i :: 0 <= i < |rows| ==> r[i] == BuildColumn(rows[i], pks, idxs, tables)
  {
    if |rows| == 0 then []
    else [BuildColumn(rows[0], pks, idxs, tables)] + BuildAll(rows[1..], pks, idxs, tables)
  }

  /** Adding the rows' columns to a column-less table leaves it column-less
      when there are no rows, and otherwise gives one column per row. */
  lemma {:induction false} AddAllColumns(t: Table, rows: seq<ColumnRow>, pks: set<string>, idxs: set<string>, tables: set<string>)
    ensures AddAll(t, rows, pks, idxs, tables).columns
         == if |rows| == 0 then t.columns else Some(t.columns.GetOr([]) + BuildAll(rows, pks, idxs, tables))
    decreases |rows|
  {
    if |rows| > 0 {
      var c := BuildColumn(rows[0], pks, idxs, tables);
      var t1 := AddColumn(t, c);
      var a := t.columns.GetOr([]);
      var rest := BuildAll(rows[1..], pks, idxs, tables);
      assert t1.columns == Some(a + [c]);
      assert BuildAll(rows, pks, idxs, tables) == [c] + rest;
      AddAllColumns(t1, rows[1..], pks, idxs, tables);
      SnocThenAppend(a, c, rest);
    }
  }

  lemma SnocThenAppend<T>(a: seq<T>, c: T, rest: seq<T>)
    ensures (a + [c]) + rest == a + ([c] + rest)
    ensures rest == [] ==> a + [c] == a + ([c] + rest)
  {
  }

  /** `getTable(catalog, schema, tableName)`. The table-name cache is loaded
      first (from this call's scope if it is still empty), so a missing
      metadata handle leaves an empty cache behind before the key lookup
      fails. The table has type "TABLE" and one column per `getColumns`
      row; with no rows its column list stays null. */
  function GetTable(st: MetaState, catalog: Option<string>, schema: Option<string>, tableName: Option<string>)
    : (o: Outcome<Table>)
    ensures o.state == LoadTableMap(st, catalog, schema)
    ensures o.result.Err? <==> st.dmd.None? || None in st.dmd.value.indexInfo(catalog, schema, tableName)
    ensures o.result.Err? ==> o.result.error == NullPointer
    ensures o.result.Ok? ==> o.result.value.catalog == catalog && o.result.value.schema == schema
    ensures o.result.Ok? ==> o.result.value.tableName == tableName
    ensures o.result.Ok? ==> o.result.value.tableType == Some("TABLE")
    ensures o.result.Ok? ==>
              (o.result.value.columns.None? <==> |st.dmd.value.columns(catalog, schema, tableName)| == 0)
  {
    var st1 := LoadTableMap(st, catalog, schema);
    match st1.dmd
    case None => Outcome(st1, Err(NullPointer))
    case Some(m) =>
      var pks := PrimaryKeySet(m, catalog, schema, tableName);
      match IndexedSet(m, catalog, schema, tableName)
      case Err(e) => Outcome(st1, Err(e))
      case Ok(idxs) =>
        var rows := m.columns(catalog, schema, tableName);
        var base := NewTable().(catalog := catalog, schema := schema, tableName := tableName,
                                tableType := Some("TABLE"));
        AddAllColumns(base, rows, pks, idxs, st1.tableMap.value);
        Outcome(st1, Ok(AddAll(base, rows, pks, idxs, st1.tableMap.value)))
  }

  /** Each column of `getTable` carries its row's name, classified type,
      size and nullability; it is a key column exactly when the primary key
      lists it, indexed exactly when an index lists it under a name other
      than "id", and refers to `t` exactly when it is named `t` + "_id" for
      a cached table name `t`. */
  lemma GetTableColumns(st: MetaState, catalog: Option<string>, schema: Option<string>,
                        tableName: Option<string>, i: int)
    requires st.dmd.Some? && None !in st.dmd.value.indexInfo(catalog, schema, tableName)
    requires 0 <= i < |st.dmd.value.columns(catalog, schema, tableName)|
    ensures GetTable(st, catalog, schema, tableName).result.Ok?
    ensures var t := GetTable(st, catalog, schema, tableName).result.value;
            var row := st.dmd.value.columns(catalog, schema, tableName)[i];
            var m := st.dmd.value;
            var cached := LoadTableMap(st, catalog, schema).tableMap.value;
            t.columns.Some? && |t.columns.value| == |m.columns(catalog, schema, tableName)|
            && t.columns.value[i].columnName == row.columnName
            && t.columns.value[i].columnType == ClassifyType(row.dataType, row.typeName)
            && t.columns.value[i].columnSize == row.columnSize
            && (t.columns.value[i].nullable <==> Text.EqualsIgnoreCase(row.isNullable, "yes"))
            && (t.columns.value[i].isPrimaryKey <==> row.columnName in m.primaryKeys(catalog, schema, tableName))
            && (t.columns.value[i].isIndexed <==>
                  Some(row.columnName) in m.indexInfo(catalog, schema, tableName) && row.columnName != "id")
            && (forall ft :: t.columns.value[i].fkTableName == Some(ft) <==>
                  row.columnName == ft + "_id" && ft in cached)
  {
    var m := st.dmd.value;
    var st1 := LoadTableMap(st, catalog, schema);
    var rows := m.columns(catalog, schema, tableName);
    var pks := PrimaryKeySet(m, catalog, schema, tableName);
    var idxs := IndexedSet(m, catalog, schema, tableName).value;
    var base := NewTable().(catalog := catalog, schema := schema, tableName := tableName,
                            tableType := Some("TABLE"));
    AddAllColumns(base, rows, pks, idxs, st1.tableMap.value);
    var c := BuildColumn(rows[i], pks, idxs, st1.tableMap.value);
    forall ft
      ensures c.fkTableName == Some(ft) <==> rows[i].columnName == ft + "_id" && ft in st1.tableMap.value
    {
      FkTableCharacterised(rows[i].columnName, st1.tableMap.value, ft);
    }
  }

  /** The cache is filled once: a second `getTable`, whatever its catalog
      and schema, keeps the table names of the first call's scope. */
  lemma TableMapFilledOnce(st: MetaState, c1: Option<string>, s1: Option<string>, t1: Option<string>,
                           c2: Option<string>, s2: Option<string>, t2: Option<string>)
    ensures var first := GetTable(st, c1, s1, t1).state;
            GetTable(first, c2, s2, t2).state == first
  {
  }

  /** Without a metadata handle `getTable` fails, and an empty cache it
      filled stays empty for good, so later calls never infer a foreign key. */
  lemma NoMetadataCachesNothing(st: MetaState, catalog: Option<string>, schema: Option<string>,
                                tableName: Option<string>)
    requires st.dmd.None? && st.tableMap.None?
    ensures GetTable(st, catalog, schema, tableName).result == Err(NullPointer)
    ensures GetTable(st, catalog, schema, tableName).state.tableMap == Some({})
  {
    var r := LoadTableMap(st, catalog, schema);
    assert GetTableList(st, catalog, schema) == [];
    assert forall n :: n !in r.tableMap.value;
    assert r.tableMap.value == {};
  }

  /** A column called "id" is never marked indexed, while "ID" is when an
      index lists it. */
  lemma IdIsNeverIndexed(m: Meta, catalog: Option<string>, schema: Option<string>, table: Option<string>)
    requires None !in m.indexInfo(catalog, schema, table)
    ensures "id" !in IndexedSet(m, catalog, schema, table).value
    ensures Some("ID") in m.indexInfo(catalog, schema, table) ==> "ID" in IndexedSet(m, catalog, schema, table).value
  {
  }
}

=== FILE: query.dfy ===
/** The row-returning entry points: `query()`, `querySelect()`,
    `queryProcedure(false)`, `queryUnique()` and `queryCount()`.

    The database is a parameter: `exec` is the cursor the driver returns for
    a statement with its bound parameters. Rows become JSON-like records
    keyed by the SQL aliases. Each entry point decides by the exception's
    message whether a failure is rethrown or swallowed, in which case the
    records read so far are returned. */
module Query {
  import opened Wrappers
  import opened Errors
  import opened Text
  import opened Builder
  import opened Compiler
  import opened Execution

  const NoDataAvailable := "No data available"
  const NoCurrentRow := "The result set has no current row"

  /** A column value as `ResultSet.getObject` returns it. Dates and
      timestamps carry their instant; a CLOB carries its text. */
  datatype Cell =
    | SqlNull
    | Text(s: string)
    | Whole(n: int)
    | Flag(b: bool)
    | SqlDate(instant: int)
    | SqlTimestamp(instant: int)
    | Clob(content: string)
    | Opaque(id: int)          // any other driver object, passed through as is
    | Unreadable(e: Error)     // a value whose read throws `e` in the driver

  /** A row of the cursor: column labels and values, in column order. */
  type Row = seq<(string, Cell)>

  /** The driver's exception for a name the row does not have; its
      wording is the driver's, represented here by a fixed text that starts
      with neither no-data prefix. */
  function ColumnNotFound(name: string): Error {
    SqlError(Some("Column not found: " + name))
  }

  /** The index of the first column whose name equals `name` ignoring
      case (JDBC's rule for `getObject(String)`), or -1. */
  function ColumnIndex(row: Row, name: string): (r: int)
    ensures -1 <= r < |row|
    ensures r >= 0 ==> EqualsIgnoreCase(row[r].0, name)
    ensures r >= 0 ==> forall j :: 0 <= j < r ==> !EqualsIgnoreCase(row[j].0, name)
    ensures r == -1 <==> forall j :: 0 <= j < |row| ==> !EqualsIgnoreCase(row[j].0, name)
  {
    if |row| == 0 then -1
    else if EqualsIgnoreCase(row[0].0, name) then 0
    else
      var k := ColumnIndex(row[1..], name);
      assert forall j :: 1 <= j < |row| ==> row[j] == row[1..][j - 1];
      if k < 0 then -1 else k + 1
  }

  /** `rs.getObject(name)`: the first column of that label, or the
      driver's exception for a missing label or an unreadable value. */
  function GetObject(row: Row, name: string): (r: Result<Cell, Error>)
    ensures (forall j :: 0 <= j < |row| ==> !EqualsIgnoreCase(row[j].0, name)) ==> r == Err(ColumnNotFound(name))
    ensures r.Ok? ==> !r.value.Unreadable?
    ensures r.Ok? ==> exists j :: 0 <= j < |row| && EqualsIgnoreCase(row[j].0, name) && row[j].1 == r.value
  {
    var k := ColumnIndex(row, name);
    if k < 0 then Err(ColumnNotFound(name))
    else if row[k].1.Unreadable? then Err(row[k].1.e)
    else Ok(row[k].1)
  }

  /** The read goes to the first column carrying the label: its value, or
      the exception reading it throws. */
  lemma GetObjectReadsFirst(row: Row, name: string, j: int)
    requires 0 <= j < |row| && EqualsIgnoreCase(row[j].0, name)
    requires forall i :: 0 <= i < j ==> !EqualsIgnoreCase(row[i].0, name)
    ensures GetObject(row, name) == (if row[j].1.Unreadable? then Err(row[j].1.e) else Ok(row[j].1))
  {
    assert ColumnIndex(row, name) == j;
  }

  /** A record field: JSON null for SQL NULL, a string, or the value itself. */
  datatype Field = NullMarker | Str(s: string) | Raw(cell: Cell)

  /** A record: aliases to fields (a `JSONObject`, so a repeated alias
      keeps its last value). */
  type Record = map<string, Field>

  /** How a value is stored: NULL as the JSON null, dates and timestamps as
      `fmt` of their instant (the date formatter, not modelled), a CLOB as
      its text only where the caller reads CLOBs as strings. */
  function Normalize(c: Cell, clobAsText: bool, fmt: int -> string): (r: Field)
    ensures r == NullMarker <==> c == SqlNull
    ensures c.SqlDate? || c.SqlTimestamp? ==> r == Str(fmt(c.instant))
    ensures c.Clob? ==> r == (if clobAsText then Str(c.content) else Raw(c))
    ensures r.Raw? ==> r.cell == c && !c.SqlDate? && !c.SqlTimestamp?
  {
    match c
    case SqlNull => NullMarker
    case SqlDate(t) => Str(fmt(t))
    case SqlTimestamp(t) => Str(fmt(t))
    case Clob(text) => if clobAsText then Str(text) else Raw(c)
    case _ => Raw(c)
  }

  /** A record being filled, and the failure that stopped it, if any. */
  datatype Filled = Filled(record: Record, failure: Option<Error>)

  /** The value a record holds for an alias the row has. */
  predicate Stored(rec: Record, row: Row, a: string, clobAsText: bool, fmt: int -> string) {
    a in rec && GetObject(row, a).Ok? && rec[a] == Normalize(GetObject(row, a).value, clobAsText, fmt)
  }

  /** The k-th alias is the first whose read throws. */
  predicate FailsFirstAt(row: Row, aliases: seq<string>, k: int) {
    0 <= k < |aliases| && GetObject(row, aliases[k]).Err?
    && forall i :: 0 <= i < k ==> GetObject(row, aliases[i]).Ok?
  }

  /** The alias loop: each alias's value, in order, until the first read
      that throws; the failure is that read's. `FillRecordFirstFailure`
      states which read that is and which aliases the record holds;
      `FillRecordStores` states their values. */
  function FillRecord(row: Row, aliases: seq<string>, clobAsText: bool, fmt: int -> string): (r: Filled)
    ensures r.failure.None? <==> forall i :: 0 <= i < |aliases| ==> GetObject(row, aliases[i]).Ok?
    ensures r.failure.Some? ==> exists i :: 0 <= i < |aliases| && GetObject(row, aliases[i]) == Err(r.failure.value)
    decreases |aliases|
  {
    if |aliases| == 0 then Filled(map[], None)
    else
      var front := aliases[..|aliases| - 1];
      var a := aliases[|aliases| - 1];
      var prev := FillRecord(row, front, clobAsText, fmt);
      assert aliases == front + [a];
      if prev.failure.Some? then prev
      else
        match GetObject(row, a)
        case Err(e) => Filled(prev.record, Some(e))
        case Ok(c) => Filled(prev.record[a := Normalize(c, clobAsText, fmt)], None)
  }

  /** The record holds exactly the aliases read before the failure: all of
      them without one, else those before the first read that throws, whose
      exception is the failure. */
  lemma {:induction false} FillRecordFirstFailure(row: Row, aliases: seq<string>, clobAsText: bool, fmt: int -> string)
    ensures var r := FillRecord(row, aliases, clobAsText, fmt);
            r.failure.None? ==> r.record.Keys == set a | a in aliases
    ensures var r := FillRecord(row, aliases, clobAsText, fmt);
            r.failure.Some? ==>
              exists k :: FailsFirstAt(row, aliases, k) && GetObject(row, aliases[k]) == Err(r.failure.value)
                          && r.record.Keys == set a | a in aliases[..k]
    decreases |aliases|
  {
    if |aliases| > 0 {
      var front := aliases[..|aliases| - 1];
      var a := aliases[|aliases| - 1];
      SplitLast(aliases);
      FillRecordFirstFailure(row, front, clobAsText, fmt);
      var prev := FillRecord(row, front, clobAsText, fmt);
      if prev.failure.Some? {
        var k :| FailsFirstAt(row, front, k) && GetObject(row, front[k]) == Err(prev.failure.value)
                 && prev.record.Keys == set b | b in front[..k];
        EarlierFailureKept(row, front, a, k);
      } else if GetObject(row, a).Err? {
        LastFailure(row, front, a);
      } else {
        SetOfSnoc(front, a);
      }
    }
  }

  /** A read that threw stays the first to throw when an alias is added. */
  lemma EarlierFailureKept(row: Row, front: seq<string>, a: string, k: int)
    requires FailsFirstAt(row, front, k)
    ensures FailsFirstAt(row, front + [a], k)
    ensures (front + [a])[k] == front[k] && (front + [a])[..k] == front[..k]
  {
    assert forall i :: 0 <= i <= k ==> (front + [a])[i] == front[i];
  }

  /** After reads that all succeeded, a throwing read is the first. */
  lemma LastFailure(row: Row, front: seq<string>, a: string)
    requires forall i :: 0 <= i < |front| ==> GetObject(row, front[i]).Ok?
    requires GetObject(row, a).Err?
    ensures FailsFirstAt(row, front + [a], |front|) && (front + [a])[..|front|] == front
  {
    assert forall i :: 0 <= i < |front| ==> (front + [a])[i] == front[i];
  }

  /** Every key of a (possibly partial) record is an alias holding the
      normalised value of its column; a complete record has every alias. */
  lemma {:induction false} FillRecordStores(row: Row, aliases: seq<string>, clobAsText: bool, fmt: int -> string)
    ensures var r := FillRecord(row, aliases, clobAsText, fmt);
            forall a :: a in r.record ==> a in aliases && Stored(r.record, row, a, clobAsText, fmt)
    ensures var r := FillRecord(row, aliases, clobAsText, fmt);
            r.failure.None? ==> forall i :: 0 <= i < |aliases| ==> Stored(r.record, row, aliases[i], clobAsText, fmt)
    decreases |aliases|
  {
    if |aliases| > 0 {
      var front := aliases[..|aliases| - 1];
      var a := aliases[|aliases| - 1];
      SplitLast(aliases);
      FillRecordStores(row, front, clobAsText, fmt);
      var prev := FillRecord(row, front, clobAsText, fmt);
      if prev.failure.None? && GetObject(row, a).Ok? {
        StoreStep(prev.record, row, front, a, GetObject(row, a).value, clobAsText, fmt);
      }
    }
  }

  /** A non-empty sequence is its front followed by its last element. */
  lemma SplitLast<T>(s: seq<T>)
    requires |s| > 0
    ensures s == s[..|s| - 1] + [s[|s| - 1]]
  {
  }

  /** The elements of a sequence with one more at the end. */
  lemma SetOfSnoc<T>(s: seq<T>, a: T)
    ensures (set b | b in s + [a]) == (set b | b in s) + {a}
  {
  }

  /** Storing one more alias keeps every earlier alias stored. */
  lemma StoreStep(prev: Record, row: Row, front: seq<string>, a: string, c: Cell, clobAsText: bool, fmt: int -> string)
    requires GetObject(row, a) == Ok(c)
    requires forall b :: b in prev ==> b in front && Stored(prev, row, b, clobAsText, fmt)
    requires forall i :: 0 <= i < |front| ==> Stored(prev, row, front[i], clobAsText, fmt)
    ensures var rec := prev[a := Normalize(c, clobAsText, fmt)];
            && (forall b :: b in rec ==> b in front + [a] && Stored(rec, row, b, clobAsText, fmt))
            && (forall i :: 0 <= i < |front + [a]| ==> Stored(rec, row, (front + [a])[i], clobAsText, fmt))
  {
    var rec := prev[a := Normalize(c, clobAsText, fmt)];
    forall b | b in rec
      ensures b in front + [a] && Stored(rec, row, b, clobAsText, fmt)
    {
      if b != a {
        assert Stored(prev, row, b, clobAsText, fmt);
      }
    }
    forall i | 0 <= i < |front + [a]|
      ensures Stored(rec, row, (front + [a])[i], clobAsText, fmt)
    {
      if i < |front| && front[i] != a {
        assert Stored(prev, row, front[i], clobAsText, fmt);
      }
    }
  }

  /** The records of the rows read, stopping at the first row that cannot
      be filled (whose partial record is dropped), with that row's failure. */
  datatype Read = Read(records: seq<Record>, failure: Option<Error>)

  function ReadRows(rows: seq<Row>, aliases: seq<string>, clobAsText: bool, fmt: int -> string): (r: Read)
    ensures |r.records| <= |rows|
    ensures forall i :: 0 <= i < |r.records| ==> r.records[i] == FillRecord(rows[i], aliases, clobAsText, fmt).record
    ensures forall i :: 0 <= i < |r.records| ==> FillRecord(rows[i], aliases, clobAsText, fmt).failure.None?
    ensures r.failure.None? <==> |r.records| == |rows|
    ensures r.failure.Some? ==> r.failure == FillRecord(rows[|r.records|], aliases, clobAsText, fmt).failure
  {
    ReadFilled(FillAll(rows, aliases, clobAsText, fmt))
  }

  /** Each row's record, filled independently. */
  function FillAll(rows: seq<Row>, aliases: seq<string>, clobAsText: bool, fmt: int -> string): (r: seq<Filled>)
    ensures |r| == |rows|
    ensures forall i :: 0 <= i < |rows| ==> r[i] == FillRecord(rows[i], aliases, clobAsText, fmt)
  {
    if |rows| == 0 then []
    else [FillRecord(rows[0], aliases, clobAsText, fmt)] + FillAll(rows[1..], aliases, clobAsText, fmt)
  }

  /** The row loop over already-filled records: complete records are
      collected until the first one that failed. */
  function ReadFilled(fills: seq<Filled>): (r: Read)
    ensures |r.records| <= |fills|
    ensures forall i :: 0 <= i < |r.records| ==> r.records[i] == fills[i].record && fills[i].failure.None?
    ensures r.failure.None? <==> |r.records| == |fills|
    ensures r.failure.Some? ==> r.failure == fills[|r.records|].failure
  {
    if |fills| == 0 then Read([], None)
    else if fills[0].failure.Some? then Read([], fills[0].failure)
    else
      var rest := ReadFilled(fills[1..]);
      var records := [fills[0].record] + rest.records;
      assert forall i :: 1 <= i < |records| ==> records[i] == rest.records[i - 1] && fills[i] == fills[1..][i - 1];
      Read(records, rest.failure)
  }

  /** The whole cursor: its rows, then the cursor's own failure. */
  function ReadCursor(cur: Cursor<Row>, aliases: seq<string>, clobAsText: bool, fmt: int -> string): (r: Read)
    ensures |r.records| <= |cur.rows|
    ensures forall i :: 0 <= i < |r.records| ==>
              r.records[i] == FillRecord(cur.rows[i], aliases, clobAsText, fmt).record
              && FillRecord(cur.rows[i], aliases, clobAsText, fmt).failure.None?
    ensures |r.records| < |cur.rows| ==>
              r.failure.Some? && r.failure == FillRecord(cur.rows[|r.records|], aliases, clobAsText, fmt).failure
    ensures |r.records| == |cur.rows| ==> r.failure == cur.failure
  {
    var rows := ReadRows(cur.rows, aliases, clobAsText, fmt);
    if rows.failure.Some? then rows else Read(rows.records, cur.failure)
  }

  /** `querySelect` and `queryProcedure` rethrow only an exception that
      has a message not starting with "No data available". */
  predicate SelectSwallows(e: Error) {
    Message(e).None? || StartsWith(Message(e).value, NoDataAvailable)
  }

  /** `queryUnique` rethrows an exception without a message, and one whose
      message starts with neither "No data available" nor "The result set
      has no current row". */
  predicate UniqueSwallows(e: Error) {
    Message(e).Some? && (StartsWith(Message(e).value, NoDataAvailable) || StartsWith(Message(e).value, NoCurrentRow))
  }

  /** The two filters disagree on a message-less exception (a null
      dereference): the list queries swallow it, `queryUnique` rethrows it.
      A no-data message is swallowed by both; a no-current-row message only
      by `queryUnique`. */
  lemma FiltersDiffer(m: string)
    ensures SelectSwallows(NullPointer) && !UniqueSwallows(NullPointer)
    ensures StartsWith(m, NoDataAvailable) ==> SelectSwallows(SqlError(Some(m))) && UniqueSwallows(SqlError(Some(m)))
    ensures StartsWith(m, NoCurrentRow) ==> !SelectSwallows(SqlError(Some(m))) && UniqueSwallows(SqlError(Some(m)))
  {
    if StartsWith(m, NoCurrentRow) {
      assert m[..|NoCurrentRow|][0] == 'T';
      assert m[0] == 'T';
    }
  }

  /** An entry point's effect: the state afterwards, the statement
      executed (if the driver was reached) and the value or exception. */
  datatype Run<T> = Run(state: State, sent: Option<Sent>, result: Result<T, Error>)

  /** The end of a list query: the finally block clears the parameters and
      closes the SELECT handle; a swallowed failure still returns the
      records read before it. */
  function Finish(st: State, sent: Option<Sent>, read: Read): (r: Run<seq<Record>>)
    ensures r.state == st.(params := [], selHandle := None) && r.sent == sent
    ensures r.result.Ok? <==> read.failure.None? || SelectSwallows(read.failure.value)
    ensures r.result.Ok? ==> r.result.value == read.records
    ensures r.result.Err? ==> r.result == Err(read.failure.value)
  {
    var done := st.(params := [], selHandle := None);
    if read.failure.Some? && !SelectSwallows(read.failure.value) then Run(done, sent, Err(read.failure.value))
    else Run(done, sent, Ok(read.records))
  }

  /** The SELECT text a query runs, compiling an empty cache first (and
      recording the result as the last SQL); a null cache throws. */
  function SelectStatement(st: State): (r: Step<string>)
    ensures st.sqlSel.None? ==> r == Step(st, Err(NullPointer))
    ensures st.sqlSel.Some? && st.sqlSel.value != "" ==> r == Step(st, Ok(st.sqlSel.value))
    ensures st.sqlSel == Some("") && !SelectCompiles(st) ==> r == Step(PrepareSelect(st).state, Err(PrepareSelect(st).result.error))
    ensures st.sqlSel == Some("") && SelectCompiles(st) ==>
              |AliasesUsed(st)| == |st.fieldsSel.value|
              && var text := Compiler.SelectText(st.fieldsSel.value, AliasesUsed(st), st);
                 r == Step(PrepareSelect(st).state.(lastSql := Some(text)), Ok(text))
  {
    match st.sqlSel
    case None => Step(st, Err(NullPointer))
    case Some(cache) =>
      if cache != "" then Step(st, Ok(cache))
      else
        var compiled := PrepareSelect(st);
        match compiled.result
        case Err(e) => Step(compiled.state, Err(e))
        case Ok(_) =>
          PrepareSelectText(st);
          var text := compiled.state.sqlSel.value;
          Step(compiled.state.(lastSql := Some(text)), Ok(text))
  }

  /** `querySelect()`. Compiling, preparing and binding happen before the
      try block, so a compile error leaves the parameters and the handle
      alone. An existing SELECT handle is reused, whatever text it was
      prepared from. Inside the try, `validSqlAlias` and the rows are
      filtered by `SelectSwallows`; CLOBs are read as text. */
  function QuerySelect(st: State, exec: Sent -> Cursor<Row>, fmt: int -> string): (r: Run<seq<Record>>)
    ensures SelectStatement(st).result.Err? ==>
              r == Run(SelectStatement(st).state, None, Err(SelectStatement(st).result.error))
    ensures SelectStatement(st).result.Ok? ==>
              var s1 := SelectStatement(st).state;
              r.state == (if ValidSqlAlias(s1).Ok? then ValidSqlAlias(s1).value else s1).(params := [], selHandle := None)
    ensures SelectStatement(st).result.Ok? && r.sent.Some? ==>
              r.sent.value.text == st.selHandle.GetOr(SelectStatement(st).result.value)
              && r.sent.value.bindings == Bind(st.params)
    ensures SelectStatement(st).result.Ok? && r.result.Err? ==> !SelectSwallows(r.result.error)
    ensures SelectStatement(st).result.Ok? && ValidSqlAlias(SelectStatement(st).state).Err? ==>
              r.sent == None && r.result == Ok([])
    ensures SelectStatement(st).result.Ok? && ValidSqlAlias(SelectStatement(st).state).Ok? ==>
              var sent := Sent(st.selHandle.GetOr(SelectStatement(st).result.value), Bind(st.params));
              var rd := ReadCursor(exec(sent), ValidSqlAlias(SelectStatement(st).state).value.aliases.value, true, fmt);
              && r.sent == Some(sent)
              && (r.result.Ok? <==> rd.failure.None? || SelectSwallows(rd.failure.value))
              && (r.result.Ok? ==> r.result.value == rd.records)
              && (r.result.Err? ==> r.result.error == rd.failure.value)
  {
    var stmt := SelectStatement(st);
    match stmt.result
    case Err(e) => Run(stmt.state, None, Err(e))
    case Ok(text) =>
      var st1 := stmt.state;
      var sent := Sent(st.selHandle.GetOr(text), Bind(st1.params));
      match ValidSqlAlias(st1)
      case Err(e) => Finish(st1, None, Read([], Some(e)))
      case Ok(st2) =>
        Finish(st2, Some(sent), ReadCursor(exec(sent), st2.aliases.value, true, fmt))
  }

  /** A hand-written SELECT with neither aliases nor fields fails in
      `validSqlAlias` with a message-less exception, which is swallowed:
      the query returns no records and executes nothing. */
  lemma SelectWithoutAliasesIsEmpty(st: State, exec: Sent -> Cursor<Row>, fmt: int -> string)
    requires st.sqlSel.Some? && st.sqlSel.value != ""
    requires st.aliases.None? && st.fieldsSel.None?
    ensures QuerySelect(st, exec, fmt) == Run(st.(params := [], selHandle := None), None, Ok([]))
  {
    assert SelectSwallows(NullPointer);
  }

  /** A stale handle wins: when a SELECT handle is open, the query runs the
      text it was prepared from, not the current cache. */
  lemma StaleHandleIsReused(st: State, exec: Sent -> Cursor<Row>, fmt: int -> string)
    requires st.sqlSel.Some? && st.sqlSel.value != "" && st.selHandle.Some?
    requires st.aliases.Some?
    ensures QuerySelect(st, exec, fmt).sent == Some(Sent(st.selHandle.value, Bind(st.params)))
  {
  }

  /** Rows before a no-data failure are kept: the query returns the
      records of every row read before it. */
  lemma NoDataKeepsEarlierRows(st: State, exec: Sent -> Cursor<Row>, fmt: int -> string, m: string)
    requires st.sqlSel.Some? && st.sqlSel.value != "" && st.aliases.Some?
    requires var sent := Sent(st.selHandle.GetOr(st.sqlSel.value), Bind(st.params));
             exec(sent).failure == Some(SqlError(Some(m)))
             && ReadRows(exec(sent).rows, st.aliases.value, true, fmt).failure.None?
    requires StartsWith(m, NoDataAvailable)
    ensures var sent := Sent(st.selHandle.GetOr(st.sqlSel.value), Bind(st.params));
            var records := QuerySelect(st, exec, fmt).result;
            records.Ok? && |records.value| == |exec(sent).rows|
            && forall i :: 0 <= i < |records.value| ==>
                 records.value[i] == FillRecord(exec(sent).rows[i], st.aliases.value, true, fmt).record
  {
  }

  /** `queryProcedure(false)`: the parameters are bound to the callable
      statement before the try block (a missing one with parameters
      throws there, leaving the state alone); inside the try a missing
      callable statement is a message-less exception and is swallowed. CLOBs
      are passed through. The finally block closes the SELECT handle. */
  function QueryProcedure(st: State, exec: Sent -> Cursor<Row>, fmt: int -> string): (r: Run<seq<Record>>)
    ensures st.callable.None? && |st.params| > 0 ==> r == Run(st, None, Err(NullPointer))
    ensures !(st.callable.None? && |st.params| > 0) ==>
              r.state == (if ValidSqlAlias(st).Ok? then ValidSqlAlias(st).value else st).(params := [], selHandle := None)
    ensures st.callable.None? && |st.params| == 0 ==> r.result == Ok([]) && r.sent == None
    ensures r.sent.Some? ==> r.sent == Some(Sent(st.callable.value, Bind(st.params)))
    ensures !(st.callable.None? && |st.params| > 0) && ValidSqlAlias(st).Err? ==>
              r.sent == None && r.result == Ok([])
    ensures st.callable.Some? && ValidSqlAlias(st).Ok? ==>
              var sent := Sent(st.callable.value, Bind(st.params));
              var rd := ReadCursor(exec(sent), ValidSqlAlias(st).value.aliases.value, false, fmt);
              && r.sent == Some(sent)
              && (r.result.Ok? <==> rd.failure.None? || SelectSwallows(rd.failure.value))
              && (r.result.Ok? ==> r.result.value == rd.records)
              && (r.result.Err? ==> r.result.error == rd.failure.value)
  {
    if st.callable.None? && |st.params| > 0 then Run(st, None, Err(NullPointer))
    else
      match ValidSqlAlias(st)
      case Err(e) => Finish(st, None, Read([], Some(e)))
      case Ok(st1) =>
        if st.callable.None? then Finish(st1, None, Read([], Some(NullPointer)))
        else
          var sent := Sent(st.callable.value, Bind(st.params));
          Finish(st1, Some(sent), ReadCursor(exec(sent), st1.aliases.value, false, fmt))
  }

  /** `queryUnique()`: always prepares a fresh handle from the current
      text. `validSqlAlias` runs outside the try block, so its failure
      leaves the parameters and the fresh handle in place. Only the first
      row is read; a swallowed failure part-way returns the partial record
      (`UniqueKeepsPartialRecord`). */
  function QueryUnique(st: State, exec: Sent -> Cursor<Row>, fmt: int -> string): (r: Run<Record>)
    ensures SelectStatement(st).result.Err? ==>
              r == Run(SelectStatement(st).state, None, Err(SelectStatement(st).result.error))
    ensures SelectStatement(st).result.Ok? && ValidSqlAlias(SelectStatement(st).state).Err? ==>
              r.result == Err(NullPointer) && r.sent == None
              && r.state == SelectStatement(st).state.(selHandle := Some(SelectStatement(st).result.value))
    ensures SelectStatement(st).result.Ok? && ValidSqlAlias(SelectStatement(st).state).Ok? ==>
              r.state == ValidSqlAlias(SelectStatement(st).state).value.(params := [], selHandle := None)
              && r.sent == Some(Sent(SelectStatement(st).result.value, Bind(st.params)))
    ensures r.result.Err? && r.sent.Some? ==> !UniqueSwallows(r.result.error)
    ensures SelectStatement(st).result.Ok? && ValidSqlAlias(SelectStatement(st).state).Ok? ==>
              var cur := exec(Sent(SelectStatement(st).result.value, Bind(st.params)));
              |cur.rows| == 0 ==>
                && (r.result.Ok? <==> cur.failure.None? || UniqueSwallows(cur.failure.value))
                && (r.result.Ok? ==> r.result.value == map[])
                && (r.result.Err? ==> r.result.error == cur.failure.value)
    ensures SelectStatement(st).result.Ok? && ValidSqlAlias(SelectStatement(st).state).Ok? ==>
              var cur := exec(Sent(SelectStatement(st).result.value, Bind(st.params)));
              var first := if |cur.rows| == 0 then Filled(map[], None)
                           else FillRecord(cur.rows[0], ValidSqlAlias(SelectStatement(st).state).value.aliases.value, false, fmt);
              |cur.rows| > 0 ==>
                && (r.result.Ok? <==> first.failure.None? || UniqueSwallows(first.failure.value))
                && (r.result.Ok? ==> r.result.value == first.record)
                && (r.result.Err? ==> r.result.error == first.failure.value)
  {
    var stmt := SelectStatement(st);
    match stmt.result
    case Err(e) => Run(stmt.state, None, Err(e))
    case Ok(text) =>
      var st1 := stmt.state.(selHandle := Some(text));
      match ValidSqlAlias(st1)
      case Err(e) => Run(st1, None, Err(e))
      case Ok(st2) => UniqueRun(st2, text, exec, fmt)
  }

  /** The try block of `queryUnique`, once the aliases are valid: the first
      row only, filtered by `UniqueSwallows`, then the finally block. */
  function UniqueRun(st: State, text: string, exec: Sent -> Cursor<Row>, fmt: int -> string): (r: Run<Record>)
    requires st.aliases.Some?
    ensures r.state == st.(params := [], selHandle := None)
    ensures r.sent == Some(Sent(text, Bind(st.params)))
    ensures var cur := exec(Sent(text, Bind(st.params)));
            |cur.rows| == 0 ==>
              && (r.result.Ok? <==> cur.failure.None? || UniqueSwallows(cur.failure.value))
              && (r.result.Ok? ==> r.result.value == map[])
              && (r.result.Err? ==> r.result.error == cur.failure.value)
    ensures var cur := exec(Sent(text, Bind(st.params)));
            var first := if |cur.rows| == 0 then Filled(map[], None)
                         else FillRecord(cur.rows[0], st.aliases.value, false, fmt);
            |cur.rows| > 0 ==>
              && (r.result.Ok? <==> first.failure.None? || UniqueSwallows(first.failure.value))
              && (r.result.Ok? ==> r.result.value == first.record)
              && (r.result.Err? ==> r.result.error == first.failure.value)
  {
    var sent := Sent(text, Bind(st.params));
    var cur := exec(sent);
    var filled := if |cur.rows| == 0 then Filled(map[], cur.failure)
                  else FillRecord(cur.rows[0], st.aliases.value, false, fmt);
    var done := st.(params := [], selHandle := None);
    if filled.failure.Some? && !UniqueSwallows(filled.failure.value) then
      Run(done, Some(sent), Err(filled.failure.value))
    else Run(done, Some(sent), Ok(filled.record))
  }

  /** The same message-less failure from the driver is swallowed by
      `querySelect`, which returns no records, and rethrown by `queryUnique`. */
  lemma MessagelessFailureFiltered(st: State, exec: Sent -> Cursor<Row>, fmt: int -> string)
    requires st.sqlSel.Some? && st.sqlSel.value != "" && st.selHandle.None? && st.aliases.Some?
    requires exec(Sent(st.sqlSel.value, Bind(st.params))) == Cursor([], Some(NullPointer))
    ensures QuerySelect(st, exec, fmt).result == Ok([])
    ensures QueryUnique(st, exec, fmt).result == Err(NullPointer)
  {
    FiltersDiffer("");
  }

  /** A no-data failure part-way through the first row is swallowed, and
      `queryUnique` returns the record of the aliases read before it. */
  lemma UniqueKeepsPartialRecord(st: State, exec: Sent -> Cursor<Row>, fmt: int -> string, k: int, m: string)
    requires st.sqlSel.Some? && st.sqlSel.value != "" && st.aliases.Some?
    requires var cur := exec(Sent(st.sqlSel.value, Bind(st.params)));
             |cur.rows| > 0 && FailsFirstAt(cur.rows[0], st.aliases.value, k)
             && GetObject(cur.rows[0], st.aliases.value[k]) == Err(SqlError(Some(m)))
    requires StartsWith(m, NoDataAvailable)
    ensures var r := QueryUnique(st, exec, fmt).result;
            r.Ok? && r.value.Keys == set a | a in st.aliases.value[..k]
  {
    var row := exec(Sent(st.sqlSel.value, Bind(st.params))).rows[0];
    var first := FillRecord(row, st.aliases.value, false, fmt);
    FillRecordFirstFailure(row, st.aliases.value, false, fmt);
    var j :| FailsFirstAt(row, st.aliases.value, j) && GetObject(row, st.aliases.value[j]) == Err(first.failure.value)
             && first.record.Keys == set a | a in st.aliases.value[..j];
    assert j == k;
    FiltersDiffer(m);
  }

  /** `queryUnique` returns the first row's record, ignoring later rows. */
  lemma UniqueReadsFirstRow(st: State, exec: Sent -> Cursor<Row>, fmt: int -> string)
    requires st.sqlSel.Some? && st.sqlSel.value != "" && st.aliases.Some?
    requires var cur := exec(Sent(st.sqlSel.value, Bind(st.params)));
             |cur.rows| > 0 && FillRecord(cur.rows[0], st.aliases.value, false, fmt).failure.None?
    ensures QueryUnique(st, exec, fmt).result
         == Ok(FillRecord(exec(Sent(st.sqlSel.value, Bind(st.params))).rows[0], st.aliases.value, false, fmt).record)
  {
  }

  /** `queryCount()`: runs the open SELECT handle or the cached text as it
      is (never compiling it), and returns the value of the LAST row's
      first column, or 0 without rows. Failures are not filtered; the
      finally block clears the parameters and closes the handle. */
  function QueryCount(st: State, exec: Sent -> Cursor<Int64>): (r: Run<Int64>)
    ensures st.selHandle.None? && st.sqlSel.None? ==> r == Run(st, None, Err(NullPointer))
    ensures st.selHandle.Some? || st.sqlSel.Some? ==>
              r.state == st.(params := [], selHandle := None)
              && r.sent == Some(Sent(if st.selHandle.Some? then st.selHandle.value else st.sqlSel.value, Bind(st.params)))
    ensures r.sent.Some? ==>
              var cur := exec(r.sent.value);
              r.result == if cur.failure.Some? then Err(cur.failure.value)
                          else if |cur.rows| == 0 then Ok(0) else Ok(cur.rows[|cur.rows| - 1])
  {
    var text := if st.selHandle.Some? then st.selHandle else st.sqlSel;
    match text
    case None => Run(st, None, Err(NullPointer))
    case Some(t) =>
      var sent := Sent(t, Bind(st.params));
      var cur := exec(sent);
      var done := st.(params := [], selHandle := None);
      match cur.failure
      case Some(e) => Run(done, Some(sent), Err(e))
      case None => Run(done, Some(sent), Ok(LastOr(cur.rows, 0)))
  }

  /** The loop `while (rs.next()) count = rs.getLong(1)`: the last value
      read, or the initial one. */
  function LastOr(values: seq<Int64>, initial: Int64): (r: Int64)
    ensures |values| == 0 ==> r == initial
    ensures |values| > 0 ==> r == values[|values| - 1]
  {
    if |values| == 0 then initial else LastOr(values[1..], values[0])
  }

  /** The name `String.valueOf(operation)` gives in the `query()` error. */
  function OpName(op: Option<Op>): string {
    match op
    case None => "null"
    case Some(Select) => "SELECT"
    case Some(Insert) => "INSERT"
    case Some(Update) => "UPDATE"
    case Some(Delete) => "DELETE"
    case Some(Create) => "CREATE"
    case Some(Procedure) => "PROCEDURE"
    case Some(Empty) => "EMPTY"
  }

  const InvalidOperation := "Operacao invalida!: nao foi indicada SQL_SELECT ou SQL_PROCEDURE: "

  /** `query()`: a SELECT or a procedure call; anything else throws with
      the command's name and changes nothing. */
  function DoQuery(st: State, exec: Sent -> Cursor<Row>, fmt: int -> string): (r: Run<seq<Record>>)
    ensures st.operation == Some(Select) ==> r == QuerySelect(st, exec, fmt)
    ensures st.operation == Some(Procedure) ==> r == QueryProcedure(st, exec, fmt)
    ensures st.operation != Some(Select) && st.operation != Some(Procedure) ==>
              r == Run(st, None, Err(SqlError(Some(InvalidOperation + OpName(st.operation)))))
  {
    if st.operation == Some(Select) then QuerySelect(st, exec, fmt)
    else if st.operation == Some(Procedure) then QueryProcedure(st, exec, fmt)
    else Run(st, None, Err(SqlError(Some(InvalidOperation + OpName(st.operation)))))
  }
}

=== FILE: string_util.dfy ===
/** Underscore-separated names to camel case (`StringUtil`). */
module StringUtil {
  import opened Wrappers
  import opened Errors
  import Text

  /** Total length of all pieces. */
  function SumLen(pieces: seq<string>): nat {
    if |pieces| == 0 then 0 else |pieces[0]| + SumLen(pieces[1..])
  }

  /** One piece: its first char upper- or lower-cased, the rest lower-cased.
      `charAt(0)` of an empty piece throws. */
  function CasePiece(p: string, upperFirst: bool): Result<string, Error> {
    if |p| == 0 then Err(IndexOutOfBounds)
    else
      var first := if upperFirst then Text.UpperChar(p[0]) else Text.LowerChar(p[0]);
      Ok([first] + Text.ToLower(p[1..]))
  }

  lemma CasePieceNoUnderscore(p: string, upperFirst: bool)
    ensures '_' !in p && CasePiece(p, upperFirst).Ok? ==> '_' !in CasePiece(p, upperFirst).value
  {
    if |p| > 0 && '_' !in p {
      var q := CasePiece(p, upperFirst).value;
      forall i | 0 <= i < |q| ensures q[i] != '_' {
        assert p[i] != '_';
      }
    }
  }

  /** The loop of both conversions: the first piece is cased by
      `upperFirst`, every later piece is capitalised. */
  function CamelPieces(pieces: seq<string>, upperFirst: bool): (r: Result<string, Error>)
    ensures r.Ok? <==> forall i :: 0 <= i < |pieces| ==> pieces[i] != ""
    ensures r.Err? ==> r.error == IndexOutOfBounds
    ensures r.Ok? ==> |r.value| == SumLen(pieces)
    ensures r.Ok? && (forall i :: 0 <= i < |pieces| ==> '_' !in pieces[i]) ==> '_' !in r.value
  {
    if |pieces| == 0 then Ok("")
    else
      var head := CasePiece(pieces[0], upperFirst);
      if head.Err? then Err(head.error)
      else
        var tail := CamelPieces(pieces[1..], true);
        if tail.Err? then
          assert pieces[1..][0] == pieces[1];
          Err(tail.error)
        else
          assert forall i :: 1 <= i < |pieces| ==> pieces[i] == pieces[1..][i - 1];
          CasePieceNoUnderscore(pieces[0], upperFirst);
          Ok(head.value + tail.value)
  }

  /** Where piece `i` starts in the concatenation of `pieces`. */
  function Offset(pieces: seq<string>, i: nat): (r: nat)
    requires i < |pieces|
    ensures r + |pieces[i]| <= SumLen(pieces)
  {
    if i == 0 then 0 else |pieces[0]| + Offset(pieces[1..], i - 1)
  }

  /** The case a conversion gives character `k` of piece `i`: the first
      character of every piece is upper-cased, except that of the first
      piece when `upperFirst` is off; every other character is lower-cased. */
  function CasedChar(c: char, i: nat, k: nat, upperFirst: bool): char {
    if k > 0 || (i == 0 && !upperFirst) then Text.LowerChar(c) else Text.UpperChar(c)
  }

  /** `out` is the pieces, in order and back to back, each character cased
      as `CasedChar` says. */
  predicate CamelCased(pieces: seq<string>, upperFirst: bool, out: string) {
    && |out| == SumLen(pieces)
    && forall i, k :: 0 <= i < |pieces| && 0 <= k < |pieces[i]| ==>
         out[Offset(pieces, i) + k] == CasedChar(pieces[i][k], i, k, upperFirst)
  }

  /** The pieces' characters, cased piece by piece, make up the result. */
  lemma {:induction false} CamelPiecesChars(pieces: seq<string>, upperFirst: bool)
    requires CamelPieces(pieces, upperFirst).Ok?
    ensures CamelCased(pieces, upperFirst, CamelPieces(pieces, upperFirst).value)
    decreases |pieces|
  {
    if |pieces| > 0 {
      var p := pieces[0];
      var rest := pieces[1..];
      CamelPiecesUnfold(pieces, upperFirst);
      CamelPiecesChars(rest, true);
      var head := CasePiece(p, upperFirst).value;
      var tail := CamelPieces(rest, true).value;
      var out := CamelPieces(pieces, upperFirst).value;
      assert out == head + tail;
      forall i, k | 0 <= i < |pieces| && 0 <= k < |pieces[i]|
        ensures out[Offset(pieces, i) + k] == CasedChar(pieces[i][k], i, k, upperFirst)
      {
        if i == 0 {
          HeadPieceChar(p, upperFirst, k);
        } else {
          TailPieceChar(pieces, upperFirst, i, k, tail);
        }
      }
    }
  }

  lemma HeadPieceChar(p: string, upperFirst: bool, k: nat)
    requires k < |p|
    ensures CasePiece(p, upperFirst).Ok? && |CasePiece(p, upperFirst).value| == |p|
    ensures CasePiece(p, upperFirst).value[k] == CasedChar(p[k], 0, k, upperFirst)
  {
    if k > 0 {
      assert CasePiece(p, upperFirst).value[k] == Text.ToLower(p[1..])[k - 1];
    }
  }

  lemma TailPieceChar(pieces: seq<string>, upperFirst: bool, i: nat, k: nat, tail: string)
    requires 0 < i < |pieces| && k < |pieces[i]|
    requires CamelCased(pieces[1..], true, tail)
    ensures Offset(pieces, i) == |pieces[0]| + Offset(pieces[1..], i - 1)
    ensures tail[Offset(pieces[1..], i - 1) + k] == CasedChar(pieces[i][k], i, k, upperFirst)
  {
    assert pieces[i] == pieces[1..][i - 1];
  }

  /** `StringUtil.toCamelCase`: the '_'-separated pieces, each capitalised;
      an empty piece makes `charAt(0)` throw. */
  function ToCamelCase(value: string): (r: Result<string, Error>)
    ensures r.Ok? <==> forall i :: 0 <= i < |Text.JavaSplit(value, '_')| ==> Text.JavaSplit(value, '_')[i] != ""
    ensures r.Err? ==> r.error == IndexOutOfBounds
    ensures r.Ok? ==> CamelCased(Text.JavaSplit(value, '_'), true, r.value)
  {
    var r := CamelPieces(Text.JavaSplit(value, '_'), true);
    if r.Ok? then CamelPiecesChars(Text.JavaSplit(value, '_'), true); r else r
  }

  /** `StringUtil.varNameToCamelCase`: as `toCamelCase`, but the first
      piece starts in lower case. */
  function VarNameToCamelCase(value: string): (r: Result<string, Error>)
    ensures r.Ok? <==> forall i :: 0 <= i < |Text.JavaSplit(value, '_')| ==> Text.JavaSplit(value, '_')[i] != ""
    ensures r.Err? ==> r.error == IndexOutOfBounds
    ensures r.Ok? ==> CamelCased(Text.JavaSplit(value, '_'), false, r.value)
  {
    var r := CamelPieces(Text.JavaSplit(value, '_'), false);
    if r.Ok? then CamelPiecesChars(Text.JavaSplit(value, '_'), false); r else r
  }

  lemma {:induction false} SumLenAppend(a: seq<string>, b: seq<string>)
    ensures SumLen(a + b) == SumLen(a) + SumLen(b)
    decreases |a|
  {
    if |a| > 0 {
      assert (a + b)[1..] == a[1..] + b;
      SumLenAppend(a[1..], b);
    } else {
      assert a + b == b;
    }
  }

  lemma {:induction false} SumLenSplitAll(s: string, c: char)
    ensures SumLen(Text.SplitAll(s, c)) == |s| - Text.Count(c, s)
    decreases |s|
  {
    if |s| > 0 {
      SumLenSplitAll(s[1..], c);
      var rest := Text.SplitAll(s[1..], c);
      if s[0] == c {
        assert Text.SplitAll(s, c)[1..] == rest;
      } else {
        assert Text.SplitAll(s, c)[1..] == rest[1..];
      }
    }
  }

  lemma {:induction false} SumLenDropTrailing(xs: seq<string>)
    ensures SumLen(Text.DropTrailingEmpty(xs)) == SumLen(xs)
    decreases |xs|
  {
    if |xs| > 0 && xs[|xs| - 1] == "" {
      SumLenDropTrailing(xs[..|xs| - 1]);
      SumLenAppend(xs[..|xs| - 1], [xs[|xs| - 1]]);
      assert xs[..|xs| - 1] + [xs[|xs| - 1]] == xs;
    }
  }

  /** The pieces of the Java split hold every character except the
      underscores (trailing underscores vanish with the dropped empty pieces). */
  lemma SumLenJavaSplit(s: string)
    ensures SumLen(Text.JavaSplit(s, '_')) == |s| - Text.Count('_', s)
  {
    if '_' in s {
      SumLenDropTrailing(Text.SplitAll(s, '_'));
      SumLenSplitAll(s, '_');
    } else {
      CountAbsent('_', s);
    }
  }

  lemma {:induction false} CountAbsent(c: char, s: string)
    requires c !in s
    ensures Text.Count(c, s) == 0
    decreases |s|
  {
    if |s| > 0 {
      CountAbsent(c, s[1..]);
    }
  }

  /** A successful `toCamelCase` keeps every character except the
      underscores, and leaves none behind. */
  lemma ToCamelCaseShape(value: string)
    ensures ToCamelCase(value).Ok? ==>
      && |ToCamelCase(value).value| == |value| - Text.Count('_', value)
      && '_' !in ToCamelCase(value).value
  {
    SumLenJavaSplit(value);
  }

  /** The same holds for `varNameToCamelCase`. */
  lemma VarNameToCamelCaseShape(value: string)
    ensures VarNameToCamelCase(value).Ok? ==>
      && |VarNameToCamelCase(value).value| == |value| - Text.Count('_', value)
      && '_' !in VarNameToCamelCase(value).value
  {
    SumLenJavaSplit(value);
  }

  lemma LowerOfUpper(c: char)
    ensures Text.LowerChar(Text.UpperChar(c)) == Text.LowerChar(c)
  {
  }

  lemma {:induction false} CamelPiecesUnfold(pieces: seq<string>, upperFirst: bool)
    requires |pieces| > 0 && CamelPieces(pieces, upperFirst).Ok?
    ensures CasePiece(pieces[0], upperFirst).Ok?
    ensures CamelPieces(pieces[1..], true).Ok?
    ensures CamelPieces(pieces, upperFirst).value
         == CasePiece(pieces[0], upperFirst).value + CamelPieces(pieces[1..], true).value
  {
  }

  lemma {:induction false} CamelPiecesAgree(pieces: seq<string>)
    requires CamelPieces(pieces, true).Ok?
    ensures CamelPieces(pieces, false).Ok?
    ensures
      var c := CamelPieces(pieces, true).value;
      var v := CamelPieces(pieces, false).value;
      && |c| == |v|
      && (|c| > 0 ==> v == [Text.LowerChar(c[0])] + c[1..])
  {
    if |pieces| > 0 {
      var p := pieces[0];
      CamelPiecesUnfold(pieces, true);
      assert CamelPieces(pieces, false).Ok?;
      CamelPiecesUnfold(pieces, false);
      var tail := CamelPieces(pieces[1..], true).value;
      var low := Text.ToLower(p[1..]);
      assert CasePiece(p, true).value == [Text.UpperChar(p[0])] + low;
      assert CasePiece(p, false).value == [Text.LowerChar(p[0])] + low;
      ConsThenAppend(Text.UpperChar(p[0]), low, tail);
      ConsThenAppend(Text.LowerChar(p[0]), low, tail);
      LowerOfUpper(p[0]);
    }
  }

  lemma ConsThenAppend<T>(x: T, a: seq<T>, b: seq<T>)
    ensures ([x] + a) + b == [x] + (a + b)
    ensures (([x] + a) + b)[0] == x
    ensures (([x] + a) + b)[1..] == a + b
  {
  }

  /** The two conversions succeed on the same inputs and differ at most in
      the case of the first character, which `varNameToCamelCase` lower-cases. */
  lemma CamelAndVarNameAgree(value: string)
    ensures ToCamelCase(value).Ok? <==> VarNameToCamelCase(value).Ok?
    ensures ToCamelCase(value).Ok? ==>
      var c := ToCamelCase(value).value;
      var v := VarNameToCamelCase(value).value;
      && |c| == |v|
      && (|c| > 0 ==> v == [Text.LowerChar(c[0])] + c[1..])
  {
    var pieces := Text.JavaSplit(value, '_');
    if ToCamelCase(value).Ok? {
      CamelPiecesAgree(pieces);
    }
  }

  lemma {:induction false} SplitAllNoDelimiter(s: string, c: char)
    requires c !in s
    ensures Text.SplitAll(s, c) == [s]
    decreases |s|
  {
    if |s| > 0 {
      SplitAllNoDelimiter(s[1..], c);
      assert [s[0]] + s[1..] == s;
    }
  }

  /** Splitting at the first delimiter. */
  lemma {:induction false} SplitAllAtFirst(a: string, b: string, c: char)
    requires c !in a
    ensures Text.SplitAll(a + [c] + b, c) == [a] + Text.SplitAll(b, c)
    decreases |a|
  {
    if |a| == 0 {
      assert a + [c] + b == [c] + b;
      assert ([c] + b)[1..] == b;
    } else {
      SplitAllAtFirst(a[1..], b, c);
      assert (a + [c] + b)[1..] == a[1..] + [c] + b;
      assert [a[0]] + a[1..] == a;
    }
  }

  lemma CamelPiecesCons(p: string, rest: seq<string>, upperFirst: bool)
    requires CasePiece(p, upperFirst).Ok? && CamelPieces(rest, true).Ok?
    ensures CamelPieces([p] + rest, upperFirst)
         == Ok(CasePiece(p, upperFirst).value + CamelPieces(rest, true).value)
  {
    assert ([p] + rest)[1..] == rest;
  }

  lemma CamelPiecesOne(p: string, upperFirst: bool)
    requires CasePiece(p, upperFirst).Ok?
    ensures CamelPieces([p], upperFirst) == CasePiece(p, upperFirst)
  {
    assert [p][1..] == [];
    assert CamelPieces([], true) == Ok("");
    assert CasePiece(p, upperFirst).value + "" == CasePiece(p, upperFirst).value;
  }

  lemma CamelPiecesTwo(p: string, q: string, upperFirst: bool)
    requires CasePiece(p, upperFirst).Ok? && CasePiece(q, true).Ok?
    ensures CamelPieces([p, q], upperFirst)
         == Ok(CasePiece(p, upperFirst).value + CasePiece(q, true).value)
  {
    CamelPiecesOne(q, true);
    assert [p, q][1..] == [q];
  }

  /** `CasePiece` on a piece whose expected output is known char by char. */
  lemma CasePieceOf(p: string, upperFirst: bool, want: string)
    requires |p| > 0 && |want| == |p|
    requires want[0] == if upperFirst then Text.UpperChar(p[0]) else Text.LowerChar(p[0])
    requires forall i :: 1 <= i < |p| ==> Text.LowerChar(p[i]) == want[i]
    ensures CasePiece(p, upperFirst) == Ok(want)
  {
    LowerOf(p[1..], want[1..]);
    assert want == [want[0]] + want[1..];
  }

  lemma LowerOf(s: string, u: string)
    requires |s| == |u|
    requires forall i :: 0 <= i < |s| ==> Text.LowerChar(s[i]) == u[i]
    ensures Text.ToLower(s) == u
  {
  }

  /** A value without underscores is one piece. */
  lemma JavaSplitNoDelimiter(s: string)
    requires '_' !in s
    ensures Text.JavaSplit(s, '_') == [s]
  {
  }

  /** The empty name has one empty piece, so both conversions throw. */
  lemma EmptyNameFails()
    ensures ToCamelCase("").Err?
    ensures VarNameToCamelCase("").Err?
  {
    JavaSplitNoDelimiter("");
  }

  /** A leading underscore before a real piece is an empty first piece; a
      doubled underscore is an empty interior piece: both throw. */
  lemma EmptyPiecesFail()
    ensures ToCamelCase("_a").Err?
    ensures ToCamelCase("a__b").Err?
    ensures VarNameToCamelCase("a__b").Err?
  {
    LeadingUnderscoreSplit("_a");
    DoubledUnderscoreSplit("a__b");
  }

  lemma LeadingUnderscoreSplit(s: string)
    requires s == "_a"
    ensures Text.JavaSplit(s, '_') == ["", "a"]
  {
    SplitAllNoDelimiter("a", '_');
    SplitAllAtFirst("", "a", '_');
    assert s == "" + ['_'] + "a";
  }

  lemma DoubledUnderscoreSplit(s: string)
    requires s == "a__b"
    ensures Text.JavaSplit(s, '_') == ["a", "", "b"]
  {
    SplitAllNoDelimiter("b", '_');
    SplitAllAtFirst("", "b", '_');
    assert "_b" == "" + ['_'] + "b";
    SplitAllAtFirst("a", "_b", '_');
    assert s == "a" + ['_'] + "_b";
  }

  /** Trailing underscores produce only dropped empty pieces. */
  lemma TrailingUnderscoresDropped()
    ensures ToCamelCase("_") == Ok("")
    ensures ToCamelCase("ab_") == Ok("Ab")
  {
    SplitAllNoDelimiter("", '_');
    SplitAllAtFirst("", "", '_');
    assert "_" == "" + ['_'] + "";
    assert Text.JavaSplit("_", '_') == [];
    SplitAllAtFirst("ab", "", '_');
    assert "ab_" == "ab" + ['_'] + "";
    assert "ab_"[2] == '_';
    assert Text.DropTrailingEmpty(["ab", ""]) == ["ab"];
    assert Text.JavaSplit("ab_", '_') == ["ab"];
    CasePieceOf("ab", true, "Ab");
    CamelPiecesOne("ab", true);
  }

  /** Splitting a name with exactly one interior underscore. */
  lemma JavaSplitTwo(a: string, b: string)
    requires '_' !in a && '_' !in b && |b| > 0
    ensures Text.JavaSplit(a + "_" + b, '_') == [a, b]
  {
    SplitAllNoDelimiter(b, '_');
    SplitAllAtFirst(a, b, '_');
    assert (a + "_" + b)[|a|] == '_';
  }

  /** The column name used by the metadata tests. */
  lemma PublisherIdExample(name: string)
    requires name == "publisher_id"
    ensures VarNameToCamelCase(name) == Ok("publisherId")
  {
    JavaSplitTwo("publisher", "id");
    assert "publisher" + "_" + "id" == name;
    PublisherIdPieces();
  }

  lemma PublisherIdPieces()
    ensures CamelPieces(["publisher", "id"], false) == Ok("publisherId")
  {
    TwoPieces("publisher", "id", false, "publisher", "Id", "publisherId");
  }

  lemma PubNameExample()
    ensures ToCamelCase("PUB_NAME") == Ok("PubName")
  {
    JavaSplitTwo("PUB", "NAME");
    assert "PUB" + "_" + "NAME" == "PUB_NAME";
    TwoPieces("PUB", "NAME", true, "Pub", "Name", "PubName");
  }

  /** Two non-empty pieces whose cased forms are known char by char. */
  lemma TwoPieces(p: string, q: string, upperFirst: bool, pw: string, qw: string, want: string)
    requires |p| > 0 && |pw| == |p| && |q| > 0 && |qw| == |q|
    requires pw[0] == if upperFirst then Text.UpperChar(p[0]) else Text.LowerChar(p[0])
    requires forall i :: 1 <= i < |p| ==> Text.LowerChar(p[i]) == pw[i]
    requires qw[0] == Text.UpperChar(q[0])
    requires forall i :: 1 <= i < |q| ==> Text.LowerChar(q[i]) == qw[i]
    requires want == pw + qw
    ensures CamelPieces([p, q], upperFirst) == Ok(want)
  {
    CasePieceOf(p, upperFirst, pw);
    CasePieceOf(q, true, qw);
    CamelPiecesTwo(p, q, upperFirst);
  }
}

=== FILE: table.dfy ===
/** A table as read from the database catalogue: its coordinates and, once
    any were added, its columns. */
module Tables {
  import opened Wrappers
  import opened Errors
  import opened Json
  import opened Columns

  datatype Table = Table(
    catalog: Option<string>,
    schema: Option<string>,
    tableName: Option<string>,
    tableType: Option<string>,
    columns: Option<seq<Column>>)   // null until the first column is added

  /** `new Table()`: the four names empty, no column list. */
  function NewTable(): (r: Table)
    ensures r.catalog == Some("") && r.schema == Some("")
    ensures r.tableName == Some("") && r.tableType == Some("")
    ensures r.columns == None
  {
    Table(Some(""), Some(""), Some(""), Some(""), None)
  }

  /** `addColumn`: creates the list on first use, then appends. */
  function AddColumn(t: Table, c: Column): (r: Table)
    ensures r.columns.Some?
    ensures |r.columns.value| == |t.columns.GetOr([])| + 1
    ensures r.columns.value[..|r.columns.value| - 1] == t.columns.GetOr([])
    ensures r.columns.value[|r.columns.value| - 1] == c
    ensures r.(columns := t.columns) == t
  {
    t.(columns := Some(t.columns.GetOr([]) + [c]))
  }

  /** The column a serialised column reads back as (see `ColumnJsonRoundTrip`). */
  function Stripped(c: Column): Column {
    c.(fkTableName := None, isPrimaryKey := false, isIndexed := false)
  }

  function StrippedAll(cols: seq<Column>): (r: seq<Column>)
    ensures |r| == |cols|
    ensures forall i :: 0 <= i < |cols| ==> r[i] == Stripped(cols[i])
  {
    seq(|cols|, i requires 0 <= i < |cols| => Stripped(cols[i]))
  }

  /** The loop of `Table(JSONObject)`: every array element must be an object
      (`getJSONObject(i)` throws otherwise) and becomes a `Column`. */
  function ColumnsFromJson(items: seq<Json>, render: Json -> string): (r: Result<seq<Column>, Error>)
    ensures r.Ok? <==> forall i :: 0 <= i < |items| ==> items[i].JObj?
    ensures r.Err? ==> r.error == JsonError
    ensures r.Ok? ==> |r.value| == |items|
    ensures r.Ok? ==> forall i :: 0 <= i < |items| ==> r.value[i] == ColumnFromJson(items[i].fields, render)
  {
    if |items| == 0 then Ok([])
    else if !items[0].JObj? then Err(JsonError)
    else
      var rest :- ColumnsFromJson(items[1..], render);
      Ok([ColumnFromJson(items[0].fields, render)] + rest)
  }

  /** `new Table(JSONObject)`: the four names via `optString` (so never
      null), and a column list that is always created, empty when the
      "columns" key holds no array. */
  function TableFromJson(js: Obj, render: Json -> string): (r: Result<Table, Error>)
    ensures OptArray(js, "columns").None? ==> r.Ok? && r.value.columns == Some([])
    ensures r.Ok? <==> OptArray(js, "columns").None? || ColumnsFromJson(OptArray(js, "columns").value, render).Ok?
    ensures r.Ok? ==> r.value.catalog == Some(OptString(js, "catalog", render))
    ensures r.Ok? ==> r.value.schema == Some(OptString(js, "schema", render))
    ensures r.Ok? ==> r.value.tableName == Some(OptString(js, "tableName", render))
    ensures r.Ok? ==> r.value.tableType == Some(OptString(js, "tableType", render))
    ensures r.Ok? ==> r.value.columns.Some?
    ensures r.Err? ==> r.error == JsonError
  {
    var cols :- match OptArray(js, "columns")
      case None => Ok([])
      case Some(items) => ColumnsFromJson(items, render);
    Ok(Table(
      Some(OptString(js, "catalog", render)),
      Some(OptString(js, "schema", render)),
      Some(OptString(js, "tableName", render)),
      Some(OptString(js, "tableType", render)),
      Some(cols)))
  }

  /** `JSONObject.put(key, value)`, which removes the key when the value is null. */
  function PutString(o: Obj, key: string, v: Option<string>): (r: Obj)
    ensures v.Some? ==> key in r && r[key] == JStr(v.value)
    ensures v.None? ==> key !in r
    ensures forall k :: k != key ==> (k in r <==> k in o) && (k in r ==> r[k] == o[k])
  {
    if v.Some? then o[key := JStr(v.value)] else o - {key}
  }

  /** The serialised columns, in order. */
  function ColumnsToJson(cols: seq<Column>): (r: seq<Json>)
    ensures |r| == |cols|
    ensures forall i :: 0 <= i < |cols| ==> r[i] == JObj(ColumnToJson(cols[i]))
  {
    seq(|cols|, i requires 0 <= i < |cols| => JObj(ColumnToJson(cols[i])))
  }

  /** `toJSONObject()`: the four names (absent when null) and, when the table
      has a column list, the serialised columns. */
  function TableToJson(t: Table): (r: Obj)
    ensures "catalog" in r <==> t.catalog.Some?
    ensures "schema" in r <==> t.schema.Some?
    ensures "tableName" in r <==> t.tableName.Some?
    ensures "tableType" in r <==> t.tableType.Some?
    ensures t.catalog.Some? ==> r["catalog"] == JStr(t.catalog.value)
    ensures t.schema.Some? ==> r["schema"] == JStr(t.schema.value)
    ensures t.tableName.Some? ==> r["tableName"] == JStr(t.tableName.value)
    ensures t.tableType.Some? ==> r["tableType"] == JStr(t.tableType.value)
    ensures "columns" in r <==> t.columns.Some?
    ensures t.columns.Some? ==> r["columns"] == JArr(ColumnsToJson(t.columns.value))
  {
    var names :=
      PutString(PutString(PutString(PutString(map[], "catalog", t.catalog),
                                    "schema", t.schema),
                          "tableName", t.tableName),
                "tableType", t.tableType);
    if t.columns.Some? then names["columns" := JArr(ColumnsToJson(t.columns.value))] else names
  }

  /** Serialising and reading back a table keeps its names (null ones become
      empty), always yields a column list, and strips each column to the
      four fields the column JSON constructor reads. */
  lemma TableJsonRoundTrip(t: Table, render: Json -> string)
    ensures TableFromJson(TableToJson(t), render)
         == Ok(Table(
              Some(t.catalog.GetOr("")), Some(t.schema.GetOr("")),
              Some(t.tableName.GetOr("")), Some(t.tableType.GetOr("")),
              Some(StrippedAll(t.columns.GetOr([])))))
  {
    var js := TableToJson(t);
    NamesRoundTrip(t, render);
    if t.columns.Some? {
      assert OptArray(js, "columns") == Some(ColumnsToJson(t.columns.value));
      ColumnsRoundTrip(t.columns.value, render);
    } else {
      assert OptArray(js, "columns") == None;
      assert StrippedAll([]) == [];
    }
  }

  /** The four names of a serialised table read back as themselves, or "" if null. */
  lemma NamesRoundTrip(t: Table, render: Json -> string)
    ensures OptString(TableToJson(t), "catalog", render) == t.catalog.GetOr("")
    ensures OptString(TableToJson(t), "schema", render) == t.schema.GetOr("")
    ensures OptString(TableToJson(t), "tableName", render) == t.tableName.GetOr("")
    ensures OptString(TableToJson(t), "tableType", render) == t.tableType.GetOr("")
  {
    var js := TableToJson(t);
    ReadName(js, "catalog", t.catalog, render);
    ReadName(js, "schema", t.schema, render);
    ReadName(js, "tableName", t.tableName, render);
    ReadName(js, "tableType", t.tableType, render);
  }

  /** Serialised columns read back, in order, as the stripped columns. */
  lemma ColumnsRoundTrip(cols: seq<Column>, render: Json -> string)
    ensures ColumnsFromJson(ColumnsToJson(cols), render) == Ok(StrippedAll(cols))
  {
    var back := ColumnsFromJson(ColumnsToJson(cols), render);
    var expected := StrippedAll(cols);
    forall i | 0 <= i < |cols|
      ensures back.value[i] == expected[i]
    {
      ColumnJsonRoundTrip(cols[i], render);
    }
    assert back.value == expected;
  }

  /** A name written by `TableToJson` reads back as itself, or "" if null. */
  lemma ReadName(js: Obj, key: string, v: Option<string>, render: Json -> string)
    requires v.Some? ==> key in js && js[key] == JStr(v.value)
    requires v.None? ==> key !in js
    ensures OptString(js, key, render) == v.GetOr("")
  {
  }
}

=== FILE: text.dfy ===
/** Java `String` operations the modelled code relies on, restricted to
    ASCII case mapping. */
module Text {

  function LowerChar(c: char): char {
    if 'A' <= c <= 'Z' then (c as int + 32) as char else c
  }

  function UpperChar(c: char): char {
    if 'a' <= c <= 'z' then (c as int - 32) as char else c
  }

  /** `String.toLowerCase()` on ASCII letters. */
  function ToLower(s: string): (r: string)
    ensures |r| == |s|
    ensures forall i :: 0 <= i < |s| ==> r[i] == LowerChar(s[i])
  {
    if |s| == 0 then "" else [LowerChar(s[0])] + ToLower(s[1..])
  }

  /** `String.toUpperCase()` on ASCII letters. */
  function ToUpper(s: string): (r: string)
    ensures |r| == |s|
    ensures forall i :: 0 <= i < |s| ==> r[i] == UpperChar(s[i])
  {
    if |s| == 0 then "" else [UpperChar(s[0])] + ToUpper(s[1..])
  }

  lemma ToUpperIdempotent(s: string)
    ensures ToUpper(ToUpper(s)) == ToUpper(s)
  {
    assert forall i :: 0 <= i < |s| ==> UpperChar(UpperChar(s[i])) == UpperChar(s[i]);
  }

  lemma ToLowerIdempotent(s: string)
    ensures ToLower(ToLower(s)) == ToLower(s)
  {
    assert forall i :: 0 <= i < |s| ==> LowerChar(LowerChar(s[i])) == LowerChar(s[i]);
  }

  /** `String.equalsIgnoreCase` on ASCII letters. */
  predicate EqualsIgnoreCase(a: string, b: string) {
    ToUpper(a) == ToUpper(b)
  }

  predicate StartsWith(s: string, p: string) {
    |p| <= |s| && s[..|p|] == p
  }

  predicate EndsWith(s: string, p: string) {
    |p| <= |s| && s[|s| - |p|..] == p
  }

  /** `p` occurs in `s` starting at index `i`. */
  predicate OccursAt(s: string, p: string, i: int) {
    0 <= i && i + |p| <= |s| && s[i..i + |p|] == p
  }

  /** `s.indexOf(p)`: the first index where `p` occurs, or -1. */
  function IndexOf(s: string, p: string): (r: int)
    ensures -1 <= r <= |s|
    ensures r >= 0 ==> OccursAt(s, p, r)
    ensures r >= 0 ==> forall j :: 0 <= j < r ==> !OccursAt(s, p, j)
    ensures r == -1 ==> forall j :: 0 <= j <= |s| ==> !OccursAt(s, p, j)
  {
    IndexFrom(s, p, 0)
  }

  function IndexFrom(s: string, p: string, k: nat): (r: int)
    requires k <= |s| + 1
    ensures r == -1 || k <= r <= |s|
    ensures r >= 0 ==> OccursAt(s, p, r)
    ensures r >= 0 ==> forall j :: k <= j < r ==> !OccursAt(s, p, j)
    ensures r == -1 ==> forall j :: k <= j <= |s| ==> !OccursAt(s, p, j)
    decreases |s| + 1 - k
  {
    if k + |p| > |s| then -1
    else if s[k..k + |p|] == p then k
    else IndexFrom(s, p, k + 1)
  }

  /** `s.contains(p)`, written as the source does: `s.indexOf(p) >= 0`. */
  predicate Contains(s: string, p: string) {
    IndexOf(s, p) >= 0
  }

  /** `s.lastIndexOf(p)`: the last index where `p` occurs, or -1. */
  function LastIndexOf(s: string, p: string): (r: int)
    ensures -1 <= r <= |s|
    ensures r >= 0 ==> OccursAt(s, p, r)
    ensures r >= 0 ==> forall j :: r < j <= |s| ==> !OccursAt(s, p, j)
    ensures r == -1 ==> forall j :: 0 <= j <= |s| ==> !OccursAt(s, p, j)
  {
    LastIndexBelow(s, p, |s|)
  }

  function LastIndexBelow(s: string, p: string, k: int): (r: int)
    requires -1 <= k <= |s|
    ensures -1 <= r <= k
    ensures r >= 0 ==> OccursAt(s, p, r)
    ensures forall j :: r < j <= k ==> !OccursAt(s, p, j)
    decreases k + 1
  {
    if k < 0 then -1
    else if k + |p| <= |s| && s[k..k + |p|] == p then k
    else LastIndexBelow(s, p, k - 1)
  }

  lemma EndsWithLastIndex(s: string, p: string)
    requires EndsWith(s, p)
    ensures LastIndexOf(s, p) == |s| - |p|
  {
    assert OccursAt(s, p, |s| - |p|);
  }

  /** Java's whitespace test in `String.trim()`: every char up to U+0020. */
  predicate IsTrimmed(c: char) {
    c <= ' '
  }

  function TrimStart(s: string): (r: string)
    ensures |r| <= |s| && r == s[|s| - |r|..]
    ensures |r| > 0 ==> !IsTrimmed(r[0])
  {
    if |s| > 0 && IsTrimmed(s[0]) then TrimStart(s[1..]) else s
  }

  function TrimEnd(s: string): (r: string)
    ensures |r| <= |s| && r == s[..|r|]
    ensures |r| > 0 ==> !IsTrimmed(r[|r| - 1])
  {
    if |s| > 0 && IsTrimmed(s[|s| - 1]) then TrimEnd(s[..|s| - 1]) else s
  }

  /** `String.trim()`. */
  function Trim(s: string): string {
    TrimEnd(TrimStart(s))
  }

  /** `s.replace(pat, rep)`: every non-overlapping occurrence of the literal
      `pat`, scanning left to right, replaced by `rep`. */
  function Replace(s: string, pat: string, rep: string): (r: string)
    requires |pat| > 0
    decreases |s|
  {
    if |s| < |pat| then s
    else if s[..|pat|] == pat then rep + Replace(s[|pat|..], pat, rep)
    else [s[0]] + Replace(s[1..], pat, rep)
  }

  lemma {:induction false} ReplaceAbsent(s: string, pat: string, rep: string)
    requires |pat| > 0
    requires forall j :: 0 <= j <= |s| ==> !OccursAt(s, pat, j)
    ensures Replace(s, pat, rep) == s
    decreases |s|
  {
    if |s| >= |pat| {
      assert !OccursAt(s, pat, 0);
      assert s[0..|pat|] == s[..|pat|];
      forall j | 0 <= j <= |s[1..]|
        ensures !OccursAt(s[1..], pat, j)
      {
        assert !OccursAt(s, pat, j + 1);
        if j + |pat| <= |s[1..]| {
          assert s[1..][j..j + |pat|] == s[j + 1..j + 1 + |pat|];
        }
      }
      ReplaceAbsent(s[1..], pat, rep);
      assert [s[0]] + s[1..] == s;
    }
  }

  function Digit(d: int): char
    requires 0 <= d < 10
  {
    "0123456789"[d]
  }

  function NatToString(n: nat): (r: string)
    ensures |r| > 0
    decreases n
  {
    if n < 10 then [Digit(n)] else NatToString(n / 10) + [Digit(n % 10)]
  }

  /** `String.valueOf(int)`: decimal, with a leading '-' for negatives. */
  function IntToString(n: int): (r: string)
    ensures |r| > 0
  {
    if n < 0 then "-" + NatToString(-n) else NatToString(n)
  }

  /** Number of occurrences of `c` in `s`. */
  function Count(c: char, s: string): (r: nat)
    ensures r <= |s|
  {
    if |s| == 0 then 0 else (if s[0] == c then 1 else 0) + Count(c, s[1..])
  }

  lemma CountAppend(c: char, a: string, b: string)
    ensures Count(c, a + b) == Count(c, a) + Count(c, b)
  {
    if |a| > 0 {
      assert (a + b)[1..] == a[1..] + b;
    } else {
      assert a + b == b;
    }
  }

  /** `s` with its last character removed (`StringBuilder.deleteCharAt(length()-1)`). */
  function DropLast(s: string): string
    requires |s| > 0
  {
    s[..|s| - 1]
  }

  /** Join `items` with `sep` between consecutive items. */
  function Join(items: seq<string>, sep: string): string {
    if |items| == 0 then ""
    else if |items| == 1 then items[0]
    else items[0] + sep + Join(items[1..], sep)
  }

  /** Every item followed by `sep`, as the source's append loops build it. */
  function EachFollowedBy(items: seq<string>, sep: string): string {
    if |items| == 0 then "" else items[0] + sep + EachFollowedBy(items[1..], sep)
  }

  /** Removing the final separator of `EachFollowedBy` leaves the join. */
  lemma {:induction false} EachFollowedByJoin(prefix: string, items: seq<string>, sep: string)
    requires |items| > 0
    ensures prefix + EachFollowedBy(items, sep)
         == prefix + Join(items, sep) + sep
    decreases |items|
  {
    if |items| == 1 {
      assert EachFollowedBy(items[1..], sep) == "";
    } else {
      EachFollowedByJoin(prefix + items[0] + sep, items[1..], sep);
      assert prefix + EachFollowedBy(items, sep)
          == (prefix + items[0] + sep) + EachFollowedBy(items[1..], sep);
    }
  }

  /** Cutting the final separator off the append loop's output leaves the
      items joined; with no items, the cut eats into what came before. */
  lemma CutEachFollowedBy(head: string, items: seq<string>, sep: string)
    requires |head| >= |sep|
    ensures |head + EachFollowedBy(items, sep)| >= |sep|
    ensures var s := head + EachFollowedBy(items, sep);
            s[..|s| - |sep|] == if |items| == 0 then head[..|head| - |sep|] else head + Join(items, sep)
  {
    if |items| > 0 {
      EachFollowedByJoin(head, items, sep);
    } else {
      assert head + EachFollowedBy(items, sep) == head;
    }
  }

  /** A text ending with `p` contains `p`. */
  lemma ContainsEnd(a: string, p: string)
    ensures Contains(a + p, p)
  {
    assert (a + p)[|a|..|a| + |p|] == p;
    assert OccursAt(a + p, p, |a|);
  }

  /** Appending keeps an occurrence. */
  lemma ContainsAppend(s: string, p: string, t: string)
    requires Contains(s, p)
    ensures Contains(s + t, p)
  {
    var i := IndexOf(s, p);
    assert (s + t)[i..i + |p|] == s[i..i + |p|];
    assert OccursAt(s + t, p, i);
  }

  /** Prepending keeps an occurrence. */
  lemma ContainsPrepend(t: string, s: string, p: string)
    requires Contains(s, p)
    ensures Contains(t + s, p)
  {
    var i := IndexOf(s, p);
    assert (t + s)[|t| + i..|t| + i + |p|] == s[i..i + |p|];
    assert OccursAt(t + s, p, |t| + i);
  }

  /** All pieces of `s` between occurrences of the single-char delimiter `c`. */
  function SplitAll(s: string, c: char): (r: seq<string>)
    ensures |r| == Count(c, s) + 1
    ensures forall i :: 0 <= i < |r| ==> c !in r[i]
  {
    if |s| == 0 then [""]
    else if s[0] == c then [""] + SplitAll(s[1..], c)
    else
      var rest := SplitAll(s[1..], c);
      [[s[0]] + rest[0]] + rest[1..]
  }

  lemma {:induction false} JoinSplitAll(s: string, c: char)
    ensures Join(SplitAll(s, c), [c]) == s
  {
    if |s| > 0 {
      var rest := SplitAll(s[1..], c);
      JoinSplitAll(s[1..], c);
      if s[0] == c {
        assert SplitAll(s, c) == [""] + rest;
        assert s == [c] + s[1..];
      } else if |rest| == 1 {
        assert s == [s[0]] + s[1..];
      } else {
        var r := SplitAll(s, c);
        assert r[1..] == rest[1..];
        assert Join(rest, [c]) == rest[0] + [c] + Join(rest[1..], [c]);
        assert s == [s[0]] + s[1..];
      }
    }
  }

  /** Drop empty strings from the end of `xs`. */
  function DropTrailingEmpty(xs: seq<string>): (r: seq<string>)
    ensures |r| <= |xs| && r == xs[..|r|]
    ensures |r| > 0 ==> r[|r| - 1] != ""
    ensures forall i :: |r| <= i < |xs| ==> xs[i] == ""
  {
    if |xs| == 0 then []
    else if xs[|xs| - 1] == "" then DropTrailingEmpty(xs[..|xs| - 1])
    else xs
  }

  /** `s.split(c)` for a delimiter that is not a regex metacharacter: when
      `c` does not occur the result is `[s]` (even for ""), otherwise the
      pieces with trailing empty pieces removed. */
  function JavaSplit(s: string, c: char): (r: seq<string>)
    ensures forall i :: 0 <= i < |r| ==> c !in r[i]
  {
    if c !in s then [s] else DropTrailingEmpty(SplitAll(s, c))
  }

  /** The source's field-list idiom: `s.split(",")` then `trim()` each piece. */
  function SplitTrim(s: string): (r: seq<string>)
    ensures |r| == |JavaSplit(s, ',')|
    ensures forall i :: 0 <= i < |r| ==> r[i] == Trim(JavaSplit(s, ',')[i])
  {
    var pieces := JavaSplit(s, ',');
    seq(|pieces|, i requires 0 <= i < |pieces| => Trim(pieces[i]))
  }
}

=== FILE: wrappers.dfy ===
/** Nullable references and exception-carrying results.

    Java `null` is modelled by `Option.None`; a method that may throw is
    modelled by a `Result` whose failure carries the exception kind.
 */
module Wrappers {

  datatype Option<+T> = None | Some(value: T) {
    function GetOr(default: T): T {
      match this
      case Some(v) => v
      case None => default
    }
  }

  datatype Result<+T, +E> = Ok(value: T) | Err(error: E) {
    predicate IsFailure() {
      Err?
    }

    function PropagateFailure<U>(): Result<U, E>
      requires Err?
    {
      Err(error)
    }

    function Extract(): T
      requires Ok?
    {
      value
    }
  }

  /** Java's `int`: values a 32-bit two's-complement integer can hold. */
  type Int32 = x: int | -0x8000_0000 <= x < 0x8000_0000

  /** The low 32 bits of `x`, read as a signed integer (Java `intValue()`). */
  function WrapInt32(x: int): Int32 {
    var m := x % 0x1_0000_0000;
    if m < 0x8000_0000 then m else m - 0x1_0000_0000
  }

  /** Java's `long`. */
  type Int64 = x: int | -0x8000_0000_0000_0000 <= x < 0x8000_0000_0000_0000
}

/** The exception kinds the modelled code raises or lets through. */
module Errors {
  import opened Wrappers

  datatype Error =
    | NullPointer                 // a null reference was dereferenced
    | IndexOutOfBounds            // charAt, substring or a list index outside its bounds
    | SqlError(message: Option<string>)   // a java.sql.SQLException (driver or FacilDB)
    | JsonError                   // an org.json typed getter found no value of that type
    | BatchRecordError(cause: Error, record: string)  // executeBatch's wrapping of a per-record failure

  /** The exception's `getMessage()`. A NullPointerException carries no
      message; index and JSON exceptions always carry one (their exact
      wording is the JDK's and the JSON library's, represented here by a
      fixed stand-in that starts with neither no-data prefix). */
  function Message(e: Error): Option<string> {
    match e
    case NullPointer => None
    case IndexOutOfBounds => Some("Index out of range")
    case SqlError(m) => m
    case JsonError => Some("JSONObject key not found")
    case BatchRecordError(cause, record) =>
      Some((match Message(cause) case Some(m) => m case None => "null") + "\r\n" + record)
  }
}
